=== FILE: README.md ===
# f1-chatbot core in Dafny

This project models the sequential core of the f1-chatbot repository, a
Formula 1 question-answering service. It covers both sides of the system.

On the ingestion side it models:
- the FastF1 importer (`backend/create_db_v2.py`): standard meeting names with
  sponsors stripped, lap-time parsing, race-status flags, the fastest-lap bonus
  rule, the natural-key get-or-create functions for every table, the stint
  cache, and the per-event commit and rollback loop of `import_season`;
- the OpenF1 bulk importer (`backend/create_db.py`): `parse_offset`, the cache
  and retry policy of `rate_limited_get`, the cache keys of the `get_*`
  helpers, `get_session_driver`, and the skip rules of the meeting and session
  loops in `main`;
- the schema constraints of `backend/models/models.py`, as a consistency
  predicate over a store of tables;
- the vocabulary upload (`backend/upload_to_qdrant.py`): `dedupe`, `chunked`,
  point ids and batching.

On the query side it models:
- the SQL literal parameteriser `QueryCleaner` (`backend/repositories/db.py`);
- `extract_sql`, `_fetch_param` and `run_query_flow`
  (`backend/repositories/lang_chain.py`);
- both chat-history repositories (`backend/repositories/user_chat_history.py`);
- the front end's request check `handleChatRequest`
  (`frontend/controllers/chat-controller.ts`).

The database is an immutable value, `Store.Db`. It holds one sequence of rows
per table, and a row's id is its index plus one, as with an autoincrement key.
A SQLAlchemy flush is an append to that value. A transaction is a pair of the
committed and the working database. Language-model calls, vector search, SQL
execution, `float()`, FastF1 loading and HTTP replies are function parameters
or oracle sequences.

Modules, one per file:
- `Wrappers`: `Option` and `Result`.
- `Failures`: the exceptions the source raises.
- `Text`: Python string primitives — `str.isspace`, `upper`, `lower`, `strip`, `split`, `in`, `replace`, `" ".join(s.split())`, `int()` on ASCII digits and `str()` of integers.
- `Normalise`: the pure normalisers of the importers.
- `Store`: the tables, the lookups and get-or-create.
- `Importer`: `create_db_v2.py`.
- `Fetcher`, `BulkImport`: `create_db.py`.
- `QueryCleaner`: the SQL literal parameteriser.
- `Vocabulary`: the vocabulary upload.
- `SqlChain`: `extract_sql`, `_fetch_param` and the parameter map.
- `ChatHistory`: both chat-history repositories.
- `QueryFlow`: `run_query_flow`.
- `ChatController`: the front end's request check.
- `SponsorOrder`: the worked examples of the sponsor-order finding.

## Model

| member | source | states |
|---|---|---|
| Text.UpperChar | backend/create_db_v2.py:108 | an ASCII or Latin-1 lower-case letter moves to its upper case (`µ` to Greek `Μ`, `ÿ` to `Ÿ`); every other character, `ß` and `÷` included, is unchanged |
| Text.LowerChar | backend/upload_to_qdrant.py:34 | an ASCII or Latin-1 capital (`À` to `Þ`) moves to its lower case; `×` and every other character outside those letters is unchanged |
| Text.Upper | backend/create_db_v2.py:108 | `str.upper()` maps each character through `UpperChar`, one character for one |
| Text.Lower | backend/upload_to_qdrant.py:34 | `str.lower()` maps each character to its lower case and keeps the length |
| Text.TrimLeft | backend/upload_to_qdrant.py:34 | `lstrip()` removes exactly the leading whitespace run |
| Text.TrimRight | backend/upload_to_qdrant.py:34 | `rstrip()` removes exactly the trailing whitespace run |
| Text.Strip | backend/upload_to_qdrant.py:34 | `strip()` neither starts nor ends with whitespace and never lengthens |
| Text.StripSlice | backend/upload_to_qdrant.py:34 | `strip()` returns a contiguous slice of its input; only `str.isspace` characters are cut from either side, and the slice neither starts nor ends with one |
| Text.StripIdempotent | backend/create_db_v2.py:118 | stripping an already stripped text changes nothing |
| Text.StripSurrounded | backend/create_db_v2.py:118 | whitespace added around a text does not change what `strip()` returns |
| Text.ContainsIff | backend/create_db_v2.py:135 | Python `sub in s` holds exactly when `sub` occurs in `s` at some position |
| Text.NotContainsByChar | backend/create_db_v2.py:135 | a text lacking one character of `sub` does not contain `sub` |
| Text.ReplaceAll | backend/create_db_v2.py:118 | `replace` leaves a text without the pattern unchanged, and replacing with the empty text never lengthens it |
| Text.SplitOn | backend/create_db.py:25 | `split(sep)` gives one more part than there are separators; no part holds the separator; the parts joined by `sep` give the input back |
| Text.SplitJoin | backend/create_db.py:25 | splitting separator-free parts joined by `sep` gives exactly those parts |
| Text.LStripChars | backend/create_db.py:25 | `lstrip(chars)` removes exactly the leading run of characters from `chars` |
| Text.Collapse | backend/create_db_v2.py:120 | `" ".join(s.split())` has single spaces between words and no edge whitespace |
| Text.CollapseKeepsText | backend/create_db_v2.py:120 | collapsing keeps every non-whitespace character, in order |
| Text.CollapseIdempotent | backend/create_db_v2.py:120 | collapsing twice is collapsing once |
| Text.CollapseEmpty | backend/create_db_v2.py:120 | the collapsed text is empty exactly when the input is all whitespace |
| Text.CollapseJoined | backend/create_db_v2.py:120 | non-empty words joined by single spaces are already collapsed |
| Text.Words | backend/create_db_v2.py:120 | `split()` yields non-empty words without whitespace |
| Text.WordsSingle | backend/create_db_v2.py:120 | a non-empty text without whitespace splits into itself alone |
| Text.WordsSplit | backend/create_db_v2.py:120 | a whitespace character is a word boundary: the words of a text split there are the words of the two sides |
| Text.WordsSplitSpace | backend/create_db_v2.py:120 | the word-boundary rule when the left side starts with whitespace |
| Text.WordsSplitWord | backend/create_db_v2.py:120 | the word-boundary rule when the left side starts with a word |
| Text.WordThenRest | backend/create_db_v2.py:120 | a word followed by whitespace or the end is split off whole |
| Text.JoinSpaceAppend | backend/create_db_v2.py:120 | joining two non-empty word lists puts exactly one space between their joins |
| Text.CollapseSplit | backend/create_db_v2.py:120 | collapsing across a whitespace character collapses each side, with one space between them when both keep a word |
| Text.WordsJoin | backend/create_db_v2.py:120 | `split()` of words joined by single spaces gives those words back |
| Text.JoinSpaceCollapsed | backend/create_db_v2.py:120 | joining non-empty words with single spaces gives collapsed text, empty only for no words |
| Text.WordsEmpty | backend/create_db_v2.py:120 | `split()` gives no words exactly when the text is all whitespace |
| Text.SqueezeWords | backend/create_db_v2.py:120 | the non-whitespace characters of a text are the concatenation of its words |
| Text.SqueezeJoin | backend/create_db_v2.py:120 | joining words with spaces adds no non-whitespace character |
| Text.NatToString | backend/create_db.py:86 | `str(n)` of a natural number is non-empty digits, one digit exactly below 10 |
| Text.NatToStringInjective | backend/create_db.py:86 | different naturals have different decimal texts |
| Text.NatToStringValue | backend/create_db.py:86 | the decimal digits of `str(n)` read back as `n` |
| Text.IntToString | backend/create_db.py:86 | `str(i)` is a non-empty digit string, with a leading `-` exactly when `i` is negative |
| Text.IntToStringInjective | backend/create_db.py:69-103 | different integers have different decimal texts |
| Text.ParseInt | backend/create_db.py:25 | `int(s)` succeeds only on text that is not blank |
| Text.ParseIntDigits | backend/create_db.py:25 | `int()` of a run of ASCII digits is the value of those digits |
| Text.ParseIntOfIntToString | backend/create_db.py:25 | `int(str(i)) == i` for every integer |
| Text.UnderscoreGroups | backend/create_db.py:25 | `int()` accepts single underscores between digits and rejects doubled, leading and trailing ones |
| Text.ScanGroups | backend/create_db.py:25 | a digit group accepted by `int()` starts and ends with a digit |
| Text.ScanDigits | backend/create_db.py:25 | a run of plain digits scans to its value |
| Text.PairKeyInjective | backend/create_db_v2.py:380 | the text `f"{a}_{b}"` determines both integers |
| Text.LabelsSeparate | backend/create_db.py:69-103 | a label followed by a numeric tail splits in exactly one way |
| Normalise.FirstCase | backend/create_db_v2.py:134-136 | the loop over special cases stops at the first key the name contains |
| Normalise.Pick | backend/create_db_v2.py:134-138 | the first special-case key in table order that the name contains decides the result; with none, the fallback is returned |
| Normalise.Residue | backend/create_db_v2.py:108-120 | the upper-cased name with sponsors removed and whitespace collapsed has single spaces and no edge whitespace |
| Normalise.StandardNameWith | backend/create_db_v2.py:106-138 | `create_standard_name` returns the override of the first special-case key in the cleaned name; with none, the cleaned name, or the upper-cased official name when that is empty |
| Normalise.StandardNameAsWritten | backend/create_db_v2.py:106-138 | `create_standard_name` with the sponsors in the source's order: the override of the first special-case key in the cleaned name, else the cleaned name, else the upper-cased official name |
| Normalise.StandardName | backend/create_db_v2.py:106-138 | the same, with the sponsors in the corrected order |
| Normalise.StandardNameIgnoresCase | backend/create_db_v2.py:108 | the standard name depends only on the upper-cased official name |
| Normalise.RemoveFromNone | backend/create_db_v2.py:117-118 | a stripped name containing no sponsor passes the sponsor loop unchanged |
| Normalise.RemoveOne | backend/create_db_v2.py:117-118 | removing one sponsor never lengthens the name |
| Normalise.RemoveFrom | backend/create_db_v2.py:117-118 | the remaining sponsor removals never lengthen the name |
| Normalise.RemoveSponsors | backend/create_db_v2.py:117-118 | the sponsor loop never lengthens the name |
| Normalise.CleanResidue | backend/create_db_v2.py:108-120 | an upper-case, collapsed name without sponsors is its own cleaned name |
| Normalise.StandardNameOfCleanName | backend/create_db_v2.py:106-138 | such a name, non-empty and free of special-case keys, is its own standard name |
| Normalise.ParseLapTime | backend/create_db_v2.py:465-487 | a missing or unusable value gives None, never 0; a duration gives its seconds and a number itself; a colon-free string is `float(s)`; a string with two or more colons gives None |
| Normalise.LapTimeOfFields | backend/create_db_v2.py:476-481 | `m:s` gives `minutes*60+seconds` when both parts parse as floats, and None otherwise |
| Normalise.StatusString | backend/create_db_v2.py:277 | `str(get('Status', ''))` is empty for a missing status, `nan` for NaN, and the text otherwise |
| Normalise.StatusMissingOrNaN | backend/create_db_v2.py:277-304 | a missing status is stored as NULL and a NaN one as `nan`, neither raising a flag |
| Normalise.ClassifyStatus | backend/create_db_v2.py:277-304 | dnf, dns and dsq each hold exactly when the status contains one of their two texts; the stored status is its first 50 characters, and None when empty |
| Normalise.StatusFlagsIndependent | backend/create_db_v2.py:278-280 | the three flags are computed independently and can all hold at once |
| Normalise.FastestLapPoint | backend/create_db_v2.py:340-346 | the bonus lookup raises IndexError exactly for a present FastestLap with position -10 or below; the flag needs FastestLap and a non-zero position of at most 10, and is false without them |
| Normalise.FastestLapRule | backend/create_db_v2.py:340-346 | for no position or a non-negative one, the flag is FastestLap present, 1 ≤ position ≤ 10 and points above that position's table value |
| Normalise.FastestLapNegativePosition | backend/create_db_v2.py:345 | position -1 reads the table from the end, and position -10 raises IndexError |
| Normalise.PyIndex | backend/create_db_v2.py:345 | Python list indexing: a non-negative index counts from the front, a negative one from the back, and anything outside raises |
| Normalise.ParseOffset | backend/create_db.py:23-26 | the offset is negated exactly when the text starts with `-`; it exists exactly when the text without its leading signs has three integer fields, so it has exactly two colons |
| Normalise.OffsetFields | backend/create_db.py:25 | parsed fields imply exactly two colons |
| Normalise.OffsetSign | backend/create_db.py:24-25 | a leading `-` negates the offset and a leading `+` changes nothing |
| Normalise.FieldsOf | backend/create_db.py:25-26 | three integer fields `h:m:s` give `h*3600+m*60+s` seconds |
| Normalise.ReadFields | backend/create_db.py:25-26 | a clock `h:mm:ss` has fields worth `h*3600+m*60+s` |
| Normalise.ReadClock | backend/create_db.py:23-26 | an unsigned clock parses to `h*3600+m*60+s` |
| Normalise.ReadNegativeClock | backend/create_db.py:23-26 | a clock with a leading `-` parses to minus those seconds |
| Normalise.ParseFormatOffset | backend/create_db.py:23-26 | parsing a formatted offset, with or without a minus sign, gives back its signed seconds |
| Normalise.ParsePad2 | backend/create_db.py:25 | a two-digit zero-padded field parses to its value |
| Normalise.UnsignedOffset | backend/create_db.py:23-26 | a text starting with a digit parses as its three fields, unsigned |
| Normalise.MinusOffset | backend/create_db.py:23-26 | `-` before such a text negates its fields |
| Store.Lookup | backend/create_db_v2.py:65-67 | `scalar_one_or_none`: None exactly when no row has the key; the only matching row's id when there is one; MultipleResultsFound exactly when two rows match |
| Store.GetOrCreate | backend/create_db_v2.py:63-74 | over a table with unique keys, returns the id of the row with the key; the table changes only when the key is absent, and then by appending the made row; an inadmissible row gives IntegrityError and a duplicate key MultipleResultsFound |
| Store.GetOrCreateFound | backend/create_db_v2.py:65-67 | whenever exactly one row has the key, its id is returned and the table is unchanged, however the other keys repeat |
| Store.GetOrCreateTwice | backend/create_db_v2.py:63-74 | a second get-or-create with the same key returns the same id and adds nothing |
| Store.GetOrCreateKeepsUnique | backend/models/models.py:29-32 | get-or-create keeps the natural key unique, which the schema itself does not enforce |
| Store.InsertKeepsConsistent | backend/models/models.py:7-145 | an insert succeeds exactly when the row meets the schema's constraints, raises IntegrityError otherwise, and keeps the store consistent |
| Store.Admissible | backend/models/models.py:7-145 | a driver without a number is always admissible, a season whose year is stored is not, and a points row needs an existing result |
| Store.Insert | backend/models/models.py:7-145 | an insert with its flush succeeds exactly when the row is admissible, appends the row, and raises IntegrityError otherwise |
| Store.AppendSeason | backend/models/models.py:10 | adding a season with a new year keeps years unique |
| Store.AppendDriver | backend/models/models.py:48 | adding a driver with no number or a new number keeps driver numbers unique |
| Importer.Trunc | backend/create_db_v2.py:283 | `int()` of a float truncates toward zero |
| Importer.IntOfCell | backend/create_db_v2.py:200 | `int(DriverNumber)` succeeds exactly on present, well-formed integer text, and raises ValueError otherwise |
| Importer.GetOrCreateSeason | backend/create_db_v2.py:63-74 | returns a season of that year; the store is unchanged or gains exactly that season |
| Importer.SeasonKeepsConsistent | backend/create_db_v2.py:63-74 | over a consistent store the season get-or-create succeeds and keeps it consistent |
| Importer.NewMeeting | backend/create_db_v2.py:88-100 | the new meeting is keyed on round and season; its country code is the upper-cased first three characters of the country; the country stands in for a missing location; the country name and date are the event's and no GMT offset is stored; the standard name is computed from the official name |
| Importer.GetOrCreateMeeting | backend/create_db_v2.py:76-104 | a missing round number raises ValueError; the result is a meeting of that round and season, found or appended; a missing season with no such meeting raises IntegrityError |
| Importer.GetOrCreateSession | backend/create_db_v2.py:165-187 | returns a session keyed on (meeting, session type), found or appended |
| Importer.SessionTwice | backend/create_db_v2.py:165-187 | a second call returns the same session and adds nothing, even with a different `hash()` key |
| Importer.EntryNumber | backend/create_db_v2.py:221 | the driver number is None for a missing cell, the parsed integer otherwise, and ValueError when it does not parse |
| Importer.UpdateDriver | backend/create_db_v2.py:228-236 | an existing driver's full name and acronym are filled only when empty and the results row has a value; nothing set is overwritten |
| Importer.CreateDriver | backend/create_db_v2.py:240-253 | creating a driver appends it exactly when the row is admissible, and raises IntegrityError otherwise |
| Importer.KeepDriver | backend/create_db_v2.py:228-238 | updating a found driver keeps its id and number and touches only the drivers table |
| Importer.GetOrCreateDriver | backend/create_db_v2.py:219-253 | a malformed number raises ValueError; the stored driver carries the row's number; only the drivers table changes, and it only grows or refines |
| Importer.DriverFoundIsKept | backend/create_db_v2.py:223-238 | a driver found by a non-zero number is refined in place and no row is added |
| Importer.ZeroNumber | backend/create_db_v2.py:221-223 | the text `"0"` is driver number 0 |
| Importer.DriverZeroTwice | backend/create_db_v2.py:223-251 | two results rows with driver number 0 make the second insert raise IntegrityError |
| Importer.CreateZeroTwice | backend/create_db_v2.py:240-251 | two drivers created with number 0 clash on the unique number |
| Importer.GetOrCreateSessionDriver | backend/create_db_v2.py:255-272 | returns a session driver keyed on (driver, session), found or appended |
| Importer.SessionDriverTwice | backend/create_db_v2.py:255-272 | a second call returns the same session driver and adds nothing |
| Importer.IntOrNone | backend/create_db_v2.py:284 | an integer cell is present exactly when it is not NaN |
| Importer.NewResult | backend/create_db_v2.py:274-305 | the result row's flags and status come from the status classification; NaN laps give 0 laps; a missing time is stored as NULL |
| Importer.CreateSessionResult | backend/create_db_v2.py:274-309 | the insert succeeds exactly when the session driver exists, and then appends exactly that result row |
| Importer.QualyTime | backend/create_db_v2.py:317-322 | the first present time among Q3, Q2 and Q1 decides the grid's qualifying time, even when it does not parse |
| Importer.CreateStartGrid | backend/create_db_v2.py:311-329 | a grid row is added only when GridPosition is not NaN, with the truncated position; a missing session driver raises |
| Importer.PointsOf | backend/create_db_v2.py:333-336 | a missing Points column counts as 0, and a NaN value means no row |
| Importer.CreatePointsScored | backend/create_db_v2.py:331-355 | with points present, exactly one row is appended holding the points, the position and the fastest-lap flag |
| Importer.PointsBonusRule | backend/create_db_v2.py:340-346 | the fastest-lap flag holds exactly when FastestLap is present, 1 ≤ position ≤ 10, and the points exceed that position's table value |
| Importer.StintCacheKeyInjective | backend/create_db_v2.py:380 | two stint cache keys are equal exactly when their (session driver, stint number) pairs are |
| Importer.CachedAtGrows | backend/create_db_v2.py:377-406 | a cached stint stays valid while the stints table only grows |
| Importer.CacheAdd | backend/create_db_v2.py:405 | caching a stint under its own key keeps the cache sound |
| Importer.CacheSoundGrows | backend/create_db_v2.py:377-406 | a sound cache stays sound while the stints table only grows |
| Importer.GetOrCreateStint | backend/create_db_v2.py:377-406 | a cache hit changes nothing; otherwise the (session driver, stint number) key is cached, with stint 1 when the number is missing; only the stints table grows, by at most one row; a sound cache stays sound and names a stint with that key |
| Importer.CreateLap | backend/create_db_v2.py:408-423 | a missing or zero lap number adds no row; otherwise one lap row is appended; only the laps table changes |
| Importer.LapStep | backend/create_db_v2.py:360-375 | one lap changes only stints and laps and keeps the cache sound; a lap of an unknown driver is skipped, and a malformed driver number raises ValueError |
| Importer.ProcessLaps | backend/create_db_v2.py:357-375 | the lap loop changes only stints and laps and keeps the cache sound |
| Importer.UnknownDriversSkipped | backend/create_db_v2.py:365-367 | laps of drivers not in the session change nothing |
| Importer.GridStep | backend/create_db_v2.py:205-207 | the grid row is attempted only for qualifying and races, and a written one only adds to the grid table |
| Importer.PointsStep | backend/create_db_v2.py:209-211 | the points row is attempted only for races and sprints, and a written one only adds to the points table |
| Importer.EntryExtras | backend/create_db_v2.py:205-211 | grid rows are written only for qualifying and races, and points rows only for races and sprints; nothing else changes; a grid row stays when the points row then fails |
| Importer.EntrySessionDriver | backend/create_db_v2.py:195-199 | resolving a results row touches only drivers and session drivers, and yields a valid session driver; a failing driver step changes nothing, and a failing session-driver step keeps the driver step's changes |
| Importer.EntryRows | backend/create_db_v2.py:202-211 | with a valid session driver, exactly one result is added and kept whatever follows, since it is flushed first; with an invalid one nothing changes and the row fails; no session driver is added |
| Importer.EntryRecord | backend/create_db_v2.py:200-211 | a processed row records its driver number in the session's driver map and adds one result; an unparsable driver number raises ValueError before any row; a parsed one adds its result even when grid or points then fail |
| Importer.RecordRows | backend/create_db_v2.py:202-211 | the rows stage keeps the driver map and carries on everything flushed before a failure: with a valid session driver, its one result row |
| Importer.IndexErrorKeepsRows | backend/create_db_v2.py:300-346 | a race row whose points lookup raises IndexError still leaves its result row (flushed first) and its grid row, and no points row |
| Importer.ImportEntry | backend/create_db_v2.py:194-211 | one results row only extends the store and keeps the driver map valid |
| Importer.ProcessResults | backend/create_db_v2.py:189-211 | the results loop adds one result row per entry when nothing fails, and grid and points rows only for the matching session types |
| Importer.SessionExtends | backend/create_db_v2.py:165-187 | the session get-or-create only extends the store and adds no result |
| Importer.SessionData | backend/create_db_v2.py:189-214 | processing a session's data only extends the store, adding one result per row when nothing fails |
| Importer.ImportSession | backend/create_db_v2.py:145-163 | a session that fails to load is skipped with LoadError; empty results are skipped silently; otherwise one result per row |
| Importer.ImportSessions | backend/create_db_v2.py:140-163 | the session loop only extends the store, and the only errors it passes on are storage errors |
| Importer.NoSessionsLoaded | backend/create_db_v2.py:140-163 | an event with no loadable session leaves the store unchanged |
| Importer.EventWork | backend/create_db_v2.py:48-53 | one event's work only extends the store; a missing round raises ValueError and a missing season IntegrityError |
| Importer.ImportEvent | backend/create_db_v2.py:42-61 | an event without a date is skipped; otherwise its work is committed on success and rolled back to the last commit on failure; commits only ever grow |
| Importer.ImportEvents | backend/create_db_v2.py:42-61 | across the event loop, committed data only grows |
| Importer.ImportSeasonAsWritten | backend/create_db_v2.py:32-61 | the import as written succeeds over a consistent store and only extends it |
| Importer.ImportSeason | backend/create_db_v2.py:32-61 | the corrected import also always leaves a season of that year stored |
| Importer.FailedEventInvisible | backend/create_db_v2.py:58-61 | a failing dated event leaves the import as if it were absent |
| Importer.NothingAfterSeasonLost | backend/create_db_v2.py:38-61 | once the season row has been rolled back, no later event stores anything |
| Importer.SeasonRollbackAsWritten | backend/create_db_v2.py:38-61 | as written, when the first dated event of a new season fails, nothing at all is committed |
| Importer.SeasonRollbackExample | backend/create_db_v2.py:38-61 | on an empty store, a bad first event followed by a good one commits nothing |
| Importer.GoodEventStored | backend/create_db_v2.py:48-55 | a well-formed event with no loadable sessions stores exactly its meeting |
| Importer.SeasonKeptExample | backend/create_db_v2.py:38-61 | the corrected import of the same schedule keeps the season and the good meeting |
| Fetcher.LabelShape | backend/create_db.py:69-103 | every cache key is a label followed by a numeric tail |
| Fetcher.TailIsTail | backend/create_db.py:69-103 | every key's tail is digits separated by underscores |
| Fetcher.LabelKind | backend/create_db.py:69-103 | the label determines which kind of resource is cached |
| Fetcher.CacheKeyInjective | backend/create_db.py:69-103 | distinct resources never share a cache key; the laps key holds both session and driver |
| Fetcher.Hit | backend/create_db.py:42-48 | the cache is consulted under `cache_key` first and then under the URL; a miss means neither is stored |
| Fetcher.RateLimitedGet | backend/create_db.py:38-66 | a cache hit makes no call; otherwise at most MAX_RETRIES calls are made, every earlier one failed, each wait lies in [TIME_BETWEEN_RETRIES, TIME_BETWEEN_RETRIES + RANDOM_INTERVAL], and there is no wait after the last attempt; success stores the data under `cache_key`, else the URL; when all attempts fail the last error is raised and the cache is unchanged |
| BulkImport.First | backend/create_db.py:111 | `scalars().first()`: None exactly when no row matches; otherwise the earliest matching row |
| BulkImport.GetSessionDriver | backend/create_db.py:105-139 | None, with no change, exactly when the session key or the driver number is unknown; otherwise the existing pair, or exactly one new one |
| BulkImport.GetSessionDriverTwice | backend/create_db.py:105-139 | a second lookup returns the same session driver and adds nothing |
| BulkImport.AddDependent | backend/create_db.py:256-267 | the store is unchanged exactly when no session has the key or no driver has the number; otherwise one row is added, built from the id of the session driver of the first such session and driver |
| BulkImport.AddMeeting | backend/create_db.py:167-192 | a meeting whose key exists or whose season is missing is skipped; a bad GMT offset raises; otherwise exactly one meeting is added under the right season |
| BulkImport.AddMeetings | backend/create_db.py:167-192 | the meetings loop only appends meetings |
| BulkImport.AddMeetingUnique | backend/create_db.py:172-174 | adding a meeting keeps meeting keys unique |
| BulkImport.AddMeetingsUnique | backend/create_db.py:172-174 | the meetings loop keeps meeting keys unique |
| BulkImport.AddSession | backend/create_db.py:205-224 | a session of another type than Qualifying, Race or Sprint, an existing key or a missing meeting is skipped; otherwise exactly one session is added under its meeting |
| BulkImport.AddSessions | backend/create_db.py:205-224 | the sessions loop only appends sessions of the kept types |
| BulkImport.AddSessionsUnique | backend/create_db.py:210-216 | the sessions loop keeps session keys unique |
| QueryCleaner.SkipSpace | backend/repositories/db.py:48 | `\s?` consumes at most one whitespace character |
| QueryCleaner.CloseQuote | backend/repositories/db.py:48 | `[^']+` runs up to the next quote |
| QueryCleaner.MatchHead | backend/repositories/db.py:48 | a match consumes a non-empty prefix of the text |
| QueryCleaner.MatchHeadSound | backend/repositories/db.py:48 | every match is a text of the form `field\s?=\s?'lit'` with `lit` the captured group |
| QueryCleaner.MatchHeadComplete | backend/repositories/db.py:48 | every text of that form at the head is matched, capturing that literal |
| QueryCleaner.MatchFromParts | backend/repositories/db.py:48 | a head assembled from field, optional spaces, `=` and a quoted literal matches the pattern |
| QueryCleaner.MatchHeadFromParts | backend/repositories/db.py:48 | the matcher finds that head and captures its literal |
| QueryCleaner.ScanLits | backend/repositories/db.py:48 | every captured literal is non-empty and free of quotes |
| QueryCleaner.RenderItems | backend/repositories/db.py:42-47 | the k-th replacement records key `prefix_k` |
| QueryCleaner.RewriteItems | backend/repositories/db.py:40-48 | the rewrite numbers its matches from the given counter on |
| QueryCleaner.Pass | backend/repositories/db.py:40-48 | the k-th match of a pass records the pass's type, key `prefix_k`, and non-empty quote-free data |
| QueryCleaner.RewriteCopied | backend/repositories/db.py:48 | text not starting with the field is copied verbatim |
| QueryCleaner.SkipPrefix | backend/repositories/db.py:48 | a prefix without the field's first character is kept verbatim |
| QueryCleaner.NoFieldUnchanged | backend/repositories/db.py:48 | a text without the field is unchanged and yields no data |
| QueryCleaner.MatchFirst | backend/repositories/db.py:42-48 | an assignment at the head becomes `field = :key` and records its literal |
| QueryCleaner.PrefixThenMatch | backend/repositories/db.py:42-48 | text before an assignment is kept, and the assignment is replaced |
| QueryCleaner.PrefixThenLast | backend/repositories/db.py:42-48 | the same when the assignment ends the text |
| QueryCleaner.LastMatch | backend/repositories/db.py:42-48 | a lone assignment becomes `field = :key` |
| QueryCleaner.TwoMatches | backend/repositories/db.py:40-48 | two assignments in one pass get keys `prefix_1` and `prefix_2`, spaced `field = :key` whatever spacing they had, with text between them kept |
| QueryCleaner.RunPassesAppend | backend/repositories/db.py:144-165 | running passes one after another concatenates their data in order |
| QueryCleaner.FourGroups | backend/repositories/db.py:144-165 | four pass groups run in order chain their queries and concatenate their data |
| QueryCleaner.CleanQueryPasses | backend/repositories/db.py:144-165 | `clean_query` strips the query, then runs the driver, meeting, session and stint passes in that order |
| QueryCleaner.KeysOfDifferentPrefixes | backend/repositories/db.py:44-47 | keys of different prefixes never coincide |
| QueryCleaner.KeysOfOnePass | backend/repositories/db.py:44-47 | keys of one prefix with different counters never coincide |
| QueryCleaner.DropUnderscore | backend/repositories/db.py:47 | `p_` determines `p` |
| QueryCleaner.RunPassesDistinct | backend/repositories/db.py:37-142 | passes with distinct prefixes yield pairwise distinct keys, each from one of their prefixes |
| QueryCleaner.JoinDistinct | backend/repositories/db.py:37-142 | one pass's keys and the later passes' keys are pairwise distinct |
| QueryCleaner.AllPassesDistinct | backend/repositories/db.py:37-142 | the passes of the cleaner use distinct label prefixes |
| QueryCleaner.PrefixesDiffer | backend/repositories/db.py:37-142 | no two passes share a prefix |
| QueryCleaner.CleanQueryKeysDistinct | backend/repositories/db.py:144-165 | all keys extracted by one `clean_query` are pairwise distinct |
| QueryCleaner.NoColumnUnchanged | backend/repositories/db.py:37-142 | passes whose fields do not occur leave the query unchanged and extract nothing |
| QueryCleaner.CleanQueryNoColumn | backend/repositories/db.py:144-165 | a query containing none of the fields comes back stripped with no data |
| Vocabulary.SeenAfter | backend/upload_to_qdrant.py:29-37 | the `seen` dictionary never holds more entries than there are rows |
| Vocabulary.Values | backend/upload_to_qdrant.py:37 | `list(seen.values())` lists the stored entries in insertion order |
| Vocabulary.Dedupe | backend/upload_to_qdrant.py:29-37 | `dedupe` is no longer than its input |
| Vocabulary.KeyStable | backend/upload_to_qdrant.py:34-36 | the key `strip().lower()` of a stripped text is the key of the text |
| Vocabulary.SeenAfterSound | backend/upload_to_qdrant.py:29-37 | each stored entry is a stripped, non-empty text under its own non-empty key |
| Vocabulary.DedupeDistinct | backend/upload_to_qdrant.py:34-37 | the kept items have pairwise distinct keys, and their texts are stripped and non-empty |
| Vocabulary.SeenIff | backend/upload_to_qdrant.py:31-36 | a key is seen exactly when some row with non-blank text has it |
| Vocabulary.ValuesIsFirsts | backend/upload_to_qdrant.py:29-37 | the stored values are the first row for each key, in first-occurrence order |
| Vocabulary.DedupeIsFirsts | backend/upload_to_qdrant.py:29-37 | `dedupe` keeps exactly the first item per key, in first-occurrence order |
| Vocabulary.SeenOfDistinct | backend/upload_to_qdrant.py:29-37 | already distinct, stripped items pass through unchanged |
| Vocabulary.DedupeIdempotent | backend/upload_to_qdrant.py:29-37 | applying `dedupe` to its own output returns it unchanged |
| Vocabulary.ChunksOf | backend/upload_to_qdrant.py:100-102 | every chunk holds `size` elements except the last, which is non-empty and at most `size`; only the empty input has no chunks |
| Vocabulary.Chunked | backend/upload_to_qdrant.py:100-102 | a size of 0 raises ValueError, a negative size gives no chunks, and a positive size gives the chunks |
| Vocabulary.FlattenChunks | backend/upload_to_qdrant.py:100-102 | the chunks concatenated give the input back |
| Vocabulary.ChunkAt | backend/upload_to_qdrant.py:100-102 | chunk `k` is the slice from `k*size` up to `(k+1)*size` or the end |
| Vocabulary.ChunkElements | backend/upload_to_qdrant.py:100-102 | element `j` of chunk `k` is input element `k*size+j` |
| Vocabulary.ChunkElement | backend/upload_to_qdrant.py:100-102 | the same for one chunk and position |
| Vocabulary.Points | backend/upload_to_qdrant.py:115-129 | one point per item, aligned with its index; the id is the database id when present, else `i+1` |
| Vocabulary.BatchAt | backend/upload_to_qdrant.py:119-129 | a positive batch size never raises, and each batch position holds the point of the item at that index |
| Vocabulary.BatchesCoverItems | backend/upload_to_qdrant.py:119-129 | the batches concatenated are exactly the points of all items, so every item lies in exactly one batch |
| Vocabulary.TypeNames | backend/upload_to_qdrant.py:43-82 | the type names of the passes, in order |
| Vocabulary.CollectionsAreExtractedTypes | backend/upload_to_qdrant.py:43-82 | the collections `fetch_values` fills are exactly the types the query cleaner extracts, one per pass; these are the collections `main` may fill |
| Vocabulary.Uploaded | backend/upload_to_qdrant.py:143-145 | `main` upserts only collections that `fetch_values` returned |
| Vocabulary.UploadedAreExtractedTypes | backend/upload_to_qdrant.py:143-145 | every uploaded collection is an extracted type, and an extracted type is uploaded exactly when it has values, so a search for a type with none finds no collection |
| SqlChain.FindFence | backend/repositories/lang_chain.py:16 | a found fence lies within the text |
| SqlChain.FindTicks | backend/repositories/lang_chain.py:16 | found closing ticks lie within the text |
| SqlChain.FindFenceSpec | backend/repositories/lang_chain.py:16 | the search finds the first case-insensitive `` ```sql `` fence, or reports that there is none |
| SqlChain.FindTicksSpec | backend/repositories/lang_chain.py:16 | the search finds the first closing `` ``` ``, or reports that there is none |
| SqlChain.FindFenceIs | backend/repositories/lang_chain.py:16 | the first fence is what the search returns |
| SqlChain.FindFenceNone | backend/repositories/lang_chain.py:16 | with no fence the search returns none |
| SqlChain.FindTicksIs | backend/repositories/lang_chain.py:16 | the first closing ticks are what the search returns |
| SqlChain.FindTicksNone | backend/repositories/lang_chain.py:16 | with no closing ticks the search returns none |
| SqlChain.ExtractSql | backend/repositories/lang_chain.py:14-19 | the extracted SQL never has leading or trailing whitespace |
| SqlChain.ExtractSqlBetween | backend/repositories/lang_chain.py:16-18 | with a fence and closing ticks, the result is the stripped text between the first fence and the next ticks |
| SqlChain.ExtractSqlNoFence | backend/repositories/lang_chain.py:17-19 | without a fence, the result is the input stripped |
| SqlChain.ExtractSqlUnclosed | backend/repositories/lang_chain.py:16-19 | a fence that is never closed gives the input stripped |
| SqlChain.ExtractSqlFenced | backend/repositories/lang_chain.py:16-18 | an answer with one fenced block gives that block stripped |
| SqlChain.SkipSpaces | backend/repositories/lang_chain.py:16 | `\s*` consumes the maximal whitespace run |
| SqlChain.LazyEnd | backend/repositories/lang_chain.py:16 | the lazy group ends within the text |
| SqlChain.MatchAtFence | backend/repositories/lang_chain.py:16 | a match at a fence has its group within the text |
| SqlChain.RegexSearch | backend/repositories/lang_chain.py:16 | `re.search` returns a group within the text |
| SqlChain.ExtractSqlIsRegex | backend/repositories/lang_chain.py:14-19 | the literal regex semantics of `extract_sql` agree with the fence-and-ticks definition on every input |
| SqlChain.RegexUnclosed | backend/repositories/lang_chain.py:16-19 | the regex finds no match for an unclosed fence |
| SqlChain.RegexClosed | backend/repositories/lang_chain.py:16-18 | the regex group stripped is the text between fence and ticks stripped |
| SqlChain.RegexNone | backend/repositories/lang_chain.py:16 | with no fence there is no match |
| SqlChain.RegexSkip | backend/repositories/lang_chain.py:16 | the search skips positions without a fence |
| SqlChain.LazyEndNone | backend/repositories/lang_chain.py:16 | with no closing ticks the lazy group never ends |
| SqlChain.LazyEndFound | backend/repositories/lang_chain.py:16 | the lazy group ends before the first closing ticks, with only whitespace in between |
| SqlChain.GroupStrip | backend/repositories/lang_chain.py:16-18 | stripping the group equals stripping the span with its whitespace |
| SqlChain.Get | backend/repositories/lang_chain.py:73-74 | `payload.get(k)` is the value of the first entry under that key, or None when the key is absent |
| SqlChain.GetDistinct | backend/repositories/lang_chain.py:73-74 | in a payload with distinct keys, as a dict has, `get(k)` is the value of the entry under `k` |
| SqlChain.Choose | backend/repositories/lang_chain.py:74 | the payload's `text` if truthy, else its `value` if truthy, else its first value |
| SqlChain.FetchParam | backend/repositories/lang_chain.py:61-78 | always the item's own key and never None; the original data when the search is empty or raises; otherwise the chosen payload value, falling back to the data when that is None |
| SqlChain.FetchUploaded | backend/repositories/lang_chain.py:71-75 | a hit on an uploaded point gives its text |
| SqlChain.FetchEmptyText | backend/repositories/lang_chain.py:74-75 | a hit whose text is empty gives the empty text, not the original data |
| SqlChain.Params | backend/repositories/lang_chain.py:92-95 | the parameter map has exactly the extracted keys |
| SqlChain.ParamsLast | backend/repositories/lang_chain.py:95 | a key's value comes from its last occurrence |
| SqlChain.ParamsDistinct | backend/repositories/lang_chain.py:92-95 | with distinct keys, there is one entry per item and each holds that item's fetched value |
| SqlChain.KeysCount | backend/repositories/lang_chain.py:92-95 | distinct keys make a set as large as the list |
| SqlChain.CleanQueryParams | backend/repositories/lang_chain.py:89-95 | `params` has exactly one entry per key that `clean_query` extracted, holding that item's fetched value |
| ChatHistory.Append | backend/repositories/user_chat_history.py:26-30 | the message is appended to the end of that user's list, created when absent; no other user's list changes |
| ChatHistory.Humans | backend/repositories/user_chat_history.py:38 | the human messages are no more than the messages |
| ChatHistory.HumansSpec | backend/repositories/user_chat_history.py:36-38 | the human history is the in-order subsequence of the human messages, each kept as often as it occurs |
| ChatHistory.HumansAppend | backend/repositories/user_chat_history.py:36-38 | the human messages of two histories joined are theirs joined |
| ChatHistory.AppendHumans | backend/repositories/user_chat_history.py:26-38 | appending a human message extends the human history by it; any other message leaves it alone |
| ChatHistory.SetNextPlain | backend/repositories/user_chat_history.py:26-38 | the in-memory repository stores bare strings, so its human history stays empty |
| ChatHistory.PlainNoHumans | backend/repositories/user_chat_history.py:36-38 | a history of bare strings has no human message |
| ChatHistory.RedisSetNext | backend/repositories/user_chat_history.py:41-50 | type `"user"` records a human message, any other type an AI message, at the end of that user's list only |
| ChatHistory.Last | backend/repositories/user_chat_history.py:58 | `xs[-limit:]` is the last min(limit, n) messages for a positive limit, and all of them otherwise |
| ChatHistory.RedisLastIsNewest | backend/repositories/user_chat_history.py:41-58 | a positive window always ends with the message just stored |
| ChatHistory.RedisHumansAfter | backend/repositories/user_chat_history.py:60-67 | a user message ends the human window; an AI message leaves it as it was |
| ChatController.TrimStart | frontend/controllers/chat-controller.ts:17 | trimming the front removes exactly a leading whitespace run |
| ChatController.TrimEnd | frontend/controllers/chat-controller.ts:17 | trimming the end removes exactly a trailing whitespace run |
| ChatController.Trim | frontend/controllers/chat-controller.ts:17 | the trimmed text starts and ends with non-whitespace |
| ChatController.TrimSlice | frontend/controllers/chat-controller.ts:17 | `trim()` returns a slice with only whitespace cut on either side |
| ChatController.TrimEmpty | frontend/controllers/chat-controller.ts:17 | the trimmed text is empty exactly when all of it is whitespace |
| ChatController.JsTrimEmpty | frontend/controllers/chat-controller.ts:17 | a trimmed prompt is empty exactly when the prompt is all JavaScript whitespace |
| ChatController.Handle | frontend/controllers/chat-controller.ts:14-51 | a blank prompt fails with the empty-message error and a missing session with the session error, neither calling the model; otherwise the model gets the trimmed prompt and the session id, and its response is returned unchanged or a throw becomes the pit-wall error |
| ChatController.HandleRejects | frontend/controllers/chat-controller.ts:14-51 | every failure the controller produces has an empty response and an error, which is the empty-message error exactly when the prompt is blank |
| ChatController.ErrorsDiffer | frontend/controllers/chat-controller.ts:17-50 | the three error messages differ |
| ChatController.WhitespacePromptRefused | frontend/controllers/chat-controller.ts:17-23 | a whitespace prompt is refused whatever the session |
| ChatController.ValidRequestForwarded | frontend/controllers/chat-controller.ts:37-42 | a prompt with text and a session id is forwarded trimmed, and the model's response comes back as it is |
| QueryFlow.LastEndsWith | backend/repositories/user_chat_history.py:58 | a positive window ends with the message appended last |
| QueryFlow.Ask | backend/repositories/lang_chain.py:82-85 | the question is stored as the user's last human message before the model is called; the model is shown the ten-message window ending with it; the SQL is what `extract_sql` makes of the model's answer, and nothing when the call raises |
| QueryFlow.StoreAnswer | backend/repositories/lang_chain.py:107 | the answer is stored as an AI message of that user only |
| QueryFlow.Bind | backend/repositories/lang_chain.py:87-95 | the query is the cleaned query, and the parameters hold one fetched value per extracted key |
| QueryFlow.Answer | backend/repositories/lang_chain.py:87-109 | once the model has explained the rows, the query is cleaned and bound one fetched value per key, a failed query gives no rows, and the stripped interpretation is appended as an AI message to that user's history alone and returned |
| QueryFlow.RunQueryFlow | backend/repositories/lang_chain.py:80-109 | a run raises exactly when `request_to_sql` raises, or `interpret_results` raises on the rows the query gave; a raising run leaves the question stored with no answer; otherwise the user's history gains the question and then the answer, no other history changes, the SQL is cleaned and bound one value per key, a failed query gives no rows, and the stripped interpretation is stored and returned |
| QueryFlow.RaisedThenAsk | backend/repositories/lang_chain.py:80-85 | after a raising run, the next question's window ends with two human messages: the unanswered question, then the new one |
| QueryFlow.QuestionThenAnswerHumans | backend/repositories/lang_chain.py:82-107 | after a run the user's human window ends with the question, since the answer is not a human message |
| SponsorOrder.HeinekenSilverShadowed | backend/create_db_v2.py:110-118 | with the source's sponsor order, `HEINEKEN SILVER LAS VEGAS` loses only `HEINEKEN` |
| SponsorOrder.HeinekenSilverRemoved | backend/create_db_v2.py:110-118 | with the longer sponsor first, it loses `HEINEKEN SILVER` |
| SponsorOrder.SponsorPositions | backend/create_db_v2.py:110-115 | `HEINEKEN` precedes `HEINEKEN SILVER` in the source's list, and the shorter token is contained in the longer |
| SponsorOrder.DropLeading | backend/create_db_v2.py:117-118 | a leading sponsor is removed and the rest of the loop runs on the remainder |
| SponsorOrder.RemoveOnlyFourteenth | backend/create_db_v2.py:117-118 | a name whose only sponsor is the fourteenth token loses just that token |
| SponsorOrder.NoSpecialCase | backend/create_db_v2.py:134-136 | a name lacking a letter of every special-case key matches none |
| SponsorOrder.LasVegasAsWritten | backend/create_db_v2.py:106-138 | as written, `HEINEKEN SILVER LAS VEGAS` is standardised to `SILVER LAS VEGAS` |
| SponsorOrder.LasVegasCorrected | backend/create_db_v2.py:106-138 | with the corrected order it is standardised to `LAS VEGAS` |

## Left out

- Floating point: `float()` of a string, the NaN test and Pandas timedeltas are parameters (`floatOf`) or abstract cell values; durations are `real`.
- Case mapping covers ASCII and Latin-1 letters only; other Unicode case mappings are not modelled.
- Text.Upper: `ß` is left unchanged, while Python's `str.upper()` gives `SS`; the model keeps the length, which Python does not for `ß`.
- Importer.NewMeeting: its country-code length is the model's. With `ß` among the first three characters of the country, Python's code is one character longer.
- Importer.UpdateDriver: a NaN Abbreviation is treated as no abbreviation. In the source NaN is truthy and would be written into an empty acronym; a float in a text column is not modelled.
- Importer.CreateDriver: stores no acronym for a NaN Abbreviation. The source passes the NaN on through `.get('Abbreviation', None)`.
- The `hash()` session key of `create_db_v2.py` is a field of the loaded session, because Python randomises it per process.
- `datetime`, `dateutil` and event dates are abstract: only whether an event has a date matters.
- The `AsyncLimiter`, `asyncio.gather`, `asyncio.sleep` and `asyncio.to_thread` are not modelled. The retry loop is sequential, and its waits are recorded rather than performed. The cache is re-checked at the top of every attempt, as in the source; without concurrency nothing else writes it, so the later checks find nothing new.
- HTTP, FastF1 loading, SQLAlchemy execution and Redis are not modelled as I/O. Their outcomes are oracle values, and the database is an immutable value.
- `process_pit_stops` is not modelled. Nor are the pit-stop, position-change and starting-grid loops of `create_db.py`'s `main`; `BulkImport.AddDependent` covers the skip rule they share.
- The drivers loop of `create_db.py`'s `main` (lines 239-253) is not modelled.
- Postgres sequences are not rolled back, so after a rollback real ids skip values that the model reuses. The two numberings are isomorphic.
- Embeddings, Qdrant and SentenceTransformer are not modelled: a vector search is a parameter returning hits.
- The language-model chains (`request_to_sql`, `interpret_results` and their prompts) are function parameters; a call that raises is `None`. How the router reports the propagated exception is not modelled.
- `re.IGNORECASE` on the `sql` fence is modelled for the letters `s`, `q` and `l`: both ASCII cases, plus `ſ`, which Python also folds to `s`.
- `console.log` and `print` calls are not modelled.
- The stint cache is keyed by the (session driver, stint number) pair rather than its string; `Importer.StintCacheKeyInjective` shows the two key the same entries.
- The known defects are not encoded as behaviour: the imports at `create_db.py:5`, the never-filled `starting_grid_tasks`, and the lap fan-out zip.
- The unused class-level state of `QueryCleaner` (`db.py` lines 29-35) is not modelled.
- URLs are modelled as data; `Fetcher.Url` states nothing about their text.
- Text.ParseInt: states only that success needs non-blank text. The rest of `int()` is pinned by ParseIntDigits, ParseIntOfIntToString and UnderscoreGroups rather than by one all-inputs contract. Non-ASCII decimal digits (Unicode category Nd, such as `١٢` or `１２`), which Python's `int()` accepts, are rejected; so `Normalise.ParseOffset`, `Importer.IntOfCell` and `Importer.EntryNumber` give no value for them where the source succeeds.
- Text.ReplaceAll: states only that a text without the pattern is unchanged and that removal never lengthens; the full contents of `str.replace` are not stated.
- Normalise.RemoveOne: states only that the name never grows. Exact removal is shown on the sponsor examples.
- Normalise.RemoveFrom: the same as RemoveOne, for the rest of the loop.
- Normalise.RemoveSponsors: the same as RemoveOne, for the whole loop.
- Vocabulary.Dedupe: its own contract states only the length bound. The full behaviour is in DedupeDistinct, DedupeIsFirsts and DedupeIdempotent.
- Driver number 0 is falsy in the source, so a second driver numbered 0 raises IntegrityError (`Importer.DriverZeroTwice`). This is modelled as written and not claimed as a defect.
- An empty payload text is falsy, so `_fetch_param` returns the empty text and not the original data (`SqlChain.FetchEmptyText`). This is modelled as written.
- The in-memory history repository stores bare strings, so its human history is always empty (`ChatHistory.SetNextPlain`). This is modelled as written.

## Findings

| source | as written | input that shows it | evidently intended | confidence | as-written member | corrected member |
|---|---|---|---|---|---|---|
| backend/create_db_v2.py:110-118 | the sponsor list removes `HEINEKEN` before `HEINEKEN SILVER`, so the longer sponsor is never removed whole | the official name `HEINEKEN SILVER LAS VEGAS` is standardised to `SILVER LAS VEGAS` | `LAS VEGAS`, with the longer sponsor tried first | not executed | SponsorOrder.LasVegasAsWritten | SponsorOrder.LasVegasCorrected |
| backend/create_db_v2.py:38-61 | the season row is only flushed, and is first committed together with the first dated event; when that event raises, the rollback removes the season too, and every later meeting fails on the missing season | an empty database and the schedule [an event without a round number, a well-formed event] commit nothing | the season is committed on its own, so the failing event is skipped and the good meeting is kept | not executed | Importer.SeasonRollbackAsWritten | Importer.ImportSeason |

=== FILE: bulk_import.dfy ===
/** The database side of the first importer's `main`: which fetched meetings
    and sessions it stores, and `get_session_driver`, through which every
    per-driver record finds its session driver.

    Rows are looked up with `scalars().first()`, which takes the first match
    and never raises; the duplicate-key filters run against everything added
    so far, since each lookup flushes the pending rows first. */
module BulkImport {
  import opened Wrappers
  import opened Failures
  import opened Store

  /** The first row whose key is `k`, as an id. */
  function First<T, K(==)>(rows: seq<T>, key: T -> K, k: K): (r: Option<nat>)
    ensures r.None? <==> forall i :: 0 <= i < |rows| ==> key(rows[i]) != k
    ensures r.Some? ==>
      ValidId(r.value, |rows|) && key(rows[r.value - 1]) == k &&
      forall i :: 0 <= i < r.value - 1 ==> key(rows[i]) != k
    decreases |rows|
  {
    if rows == [] then None
    else if key(rows[0]) == k then Some(1)
    else
      match First(rows[1..], key, k)
      case None => None
      case Some(id) => Some(id + 1)
  }

  function MeetingNumber(m: Meeting): int { m.meetingKey }

  function SessionNumber(s: Session): int { s.sessionKey }

  // ---------------------------------------------------------------------------
  // `get_session_driver`

  /** `get_session_driver`: the first session with the session key and the
      first driver with the number; nothing when either is missing; otherwise
      their session driver, added when there is none yet. */
  function GetSessionDriver(db: Db, sessionKey: int, driverNumber: int): (r: (Db, Option<nat>))
    ensures r.1.None? <==>
      (forall i :: 0 <= i < |db.sessions| ==> db.sessions[i].sessionKey != sessionKey) ||
      (forall i :: 0 <= i < |db.drivers| ==> db.drivers[i].number != Some(driverNumber))
    ensures r.1.None? ==> r.0 == db
    ensures r.1.Some? ==>
      var s := First(db.sessions, SessionNumber, sessionKey).value;
      var d := First(db.drivers, DriverNumber, Some(driverNumber)).value;
      ValidId(r.1.value, |r.0.sessionDrivers|) && r.0.sessionDrivers[r.1.value - 1] == SessionDriver(d, s) &&
      (r.0 == db || r.0 == Append(db, SessionDriverRow(SessionDriver(d, s))))
  {
    var s := First(db.sessions, SessionNumber, sessionKey);
    var d := First(db.drivers, DriverNumber, Some(driverNumber));
    if s.None? || d.None? then (db, None)
    else
      var made := SessionDriver(d.value, s.value);
      match First(db.sessionDrivers, SessionDriverKey, (d.value, s.value))
      case Some(id) => (db, Some(id))
      case None => (Append(db, SessionDriverRow(made)), Some(|db.sessionDrivers| + 1))
  }

  /** A second call finds the session driver the first one returned and
      adds nothing. */
  lemma GetSessionDriverTwice(db: Db, sessionKey: int, driverNumber: int)
    ensures var first := GetSessionDriver(db, sessionKey, driverNumber);
      GetSessionDriver(first.0, sessionKey, driverNumber).1 == first.1 &&
      GetSessionDriver(first.0, sessionKey, driverNumber).0 == first.0
  {
    var first := GetSessionDriver(db, sessionKey, driverNumber);
    if first.1.Some? {
      var db1 := first.0;
      assert db1.sessions == db.sessions && db1.drivers == db.drivers;
      var s := First(db.sessions, SessionNumber, sessionKey).value;
      var d := First(db.drivers, DriverNumber, Some(driverNumber)).value;
      var hit := First(db1.sessionDrivers, SessionDriverKey, (d, s));
      assert hit.Some? && hit.value <= first.1.value;
    }
  }

  /** A record that needs a session driver (a stint, pit stop, result or
      grid slot) is skipped when `get_session_driver` finds none; otherwise
      `rowOf` builds it from the session driver's id. */
  function AddDependent(db: Db, sessionKey: int, driverNumber: int, rowOf: nat -> Row): (r: Db)
    ensures r == db <==>
      First(db.sessions, SessionNumber, sessionKey).None? || First(db.drivers, DriverNumber, Some(driverNumber)).None?
    ensures First(db.sessions, SessionNumber, sessionKey).Some? && First(db.drivers, DriverNumber, Some(driverNumber)).Some? ==>
      var g := GetSessionDriver(db, sessionKey, driverNumber);
      g.1.Some? && ValidId(g.1.value, |g.0.sessionDrivers|) &&
      g.0.sessionDrivers[g.1.value - 1] ==
        SessionDriver(First(db.drivers, DriverNumber, Some(driverNumber)).value,
                      First(db.sessions, SessionNumber, sessionKey).value) &&
      r == Append(g.0, rowOf(g.1.value))
  {
    var g := GetSessionDriver(db, sessionKey, driverNumber);
    match g.1
    case None => db
    case Some(id) =>
      AppendChanges(g.0, rowOf(id));
      Append(g.0, rowOf(id))
  }

  // ---------------------------------------------------------------------------
  // The meeting and session filters of `main`

  /** One element of a `/meetings` response; `dateStart` is the parsed date
      as an abstract day number. */
  datatype MeetingData = MeetingData(
    year: int, meetingKey: int, countryName: Option<string>, countryCode: Option<string>,
    dateStart: int, gmtOffset: string, location: Option<string>, officialName: Option<string>)

  /** One meeting of `main`: skipped when a meeting with its key exists or
      its season does not; otherwise stored under the first season of its
      year, which raises when the GMT offset does not parse.  `offsetOf`
      stands for `parse_offset`, modelled as `Normalise.ParseOffset`. */
  function AddMeeting(db: Db, m: MeetingData, offsetOf: string -> Option<int>): (r: Result<Db, Failure>)
    ensures (exists i :: 0 <= i < |db.meetings| && db.meetings[i].meetingKey == m.meetingKey) ==> r == Ok(db)
    ensures (forall i :: 0 <= i < |db.seasons| ==> db.seasons[i].year != m.year) ==> r == Ok(db)
    ensures r.Ok? ==> r.value == db || r.value == db.(meetings := r.value.meetings)
    ensures r.Ok? && r.value != db ==>
      |r.value.meetings| == |db.meetings| + 1 && db.meetings <= r.value.meetings &&
      (forall i :: 0 <= i < |db.meetings| ==> db.meetings[i].meetingKey != m.meetingKey) &&
      var added := r.value.meetings[|db.meetings|];
      added.meetingKey == m.meetingKey && ValidId(added.seasonId, |db.seasons|) &&
      db.seasons[added.seasonId - 1].year == m.year && added.gmtOffset == offsetOf(m.gmtOffset)
    ensures r.Err? <==>
      First(db.meetings, MeetingNumber, m.meetingKey).None? &&
      First(db.seasons, SeasonYear, m.year).Some? && offsetOf(m.gmtOffset).None?
  {
    var season := First(db.seasons, SeasonYear, m.year);
    if First(db.meetings, MeetingNumber, m.meetingKey).Some? || season.None? then Ok(db)
    else
      match offsetOf(m.gmtOffset)
      case None => Err(ValueError)
      case Some(offset) =>
        Ok(Append(db, MeetingRow(Meeting(season.value, m.meetingKey, m.countryName, m.countryCode,
                                         Some(m.dateStart), Some(offset), m.location, m.officialName, None))))
  }

  /** The meetings loop of `main`; an exception ends the whole run. */
  function AddMeetings(db: Db, ms: seq<MeetingData>, offsetOf: string -> Option<int>): (r: Result<Db, Failure>)
    ensures r.Ok? ==> r.value == db.(meetings := r.value.meetings) && db.meetings <= r.value.meetings
    decreases |ms|
  {
    if ms == [] then Ok(db)
    else
      var db' :- AddMeeting(db, ms[0], offsetOf);
      AddMeetings(db', ms[1..], offsetOf)
  }

  /** One meeting of `main` keeps meeting keys unique. */
  lemma AddMeetingUnique(db: Db, m: MeetingData, offsetOf: string -> Option<int>)
    requires Unique(db.meetings, MeetingNumber)
    ensures AddMeeting(db, m, offsetOf).Ok? ==> Unique(AddMeeting(db, m, offsetOf).value.meetings, MeetingNumber)
  {
    var step := AddMeeting(db, m, offsetOf);
    if step.Ok? && step.value != db {
      var rows := step.value.meetings;
      forall i, j | 0 <= i < |rows| && 0 <= j < |rows| && MeetingNumber(rows[i]) == MeetingNumber(rows[j])
        ensures i == j
      {
        if i < |db.meetings| && j < |db.meetings| {
          assert rows[i] == db.meetings[i] && rows[j] == db.meetings[j];
        }
      }
    }
  }

  /** The schema does not make `meeting_key` unique; the filter does. */
  lemma {:induction false} AddMeetingsUnique(db: Db, ms: seq<MeetingData>, offsetOf: string -> Option<int>)
    requires Unique(db.meetings, MeetingNumber)
    ensures AddMeetings(db, ms, offsetOf).Ok? ==> Unique(AddMeetings(db, ms, offsetOf).value.meetings, MeetingNumber)
    decreases |ms|
  {
    if ms != [] {
      AddMeetingUnique(db, ms[0], offsetOf);
      var step := AddMeeting(db, ms[0], offsetOf);
      if step.Ok? {
        AddMeetingsUnique(step.value, ms[1..], offsetOf);
      }
    }
  }

  /** One element of a `/sessions` response. */
  datatype SessionData = SessionData(meetingKey: int, sessionKey: int, sessionName: string, sessionType: string)

  /** The session types `main` stores. */
  predicate KeptType(t: string) {
    t == "Qualifying" || t == "Race" || t == "Sprint"
  }

  /** One session of `main`: skipped when a session with its key exists, its
      meeting does not, or its type is not kept; otherwise stored under the
      first meeting with its meeting key. */
  function AddSession(db: Db, s: SessionData): (r: Db)
    ensures r == db || r == db.(sessions := r.sessions)
    ensures !KeptType(s.sessionType) ==> r == db
    ensures (exists i :: 0 <= i < |db.sessions| && db.sessions[i].sessionKey == s.sessionKey) ==> r == db
    ensures (forall i :: 0 <= i < |db.meetings| ==> db.meetings[i].meetingKey != s.meetingKey) ==> r == db
    ensures r != db ==>
      |r.sessions| == |db.sessions| + 1 && db.sessions <= r.sessions &&
      (forall i :: 0 <= i < |db.sessions| ==> db.sessions[i].sessionKey != s.sessionKey) &&
      var added := r.sessions[|db.sessions|];
      added.sessionKey == s.sessionKey && KeptType(added.sessionType) &&
      ValidId(added.meetingId, |db.meetings|) && db.meetings[added.meetingId - 1].meetingKey == s.meetingKey
  {
    var meeting := First(db.meetings, MeetingNumber, s.meetingKey);
    if First(db.sessions, SessionNumber, s.sessionKey).Some? || meeting.None? then db
    else if !KeptType(s.sessionType) then db
    else Append(db, SessionRow(Session(meeting.value, s.sessionName, s.sessionType, s.sessionKey)))
  }

  /** The sessions loop of `main`. */
  function AddSessions(db: Db, ss: seq<SessionData>): (r: Db)
    ensures r == db.(sessions := r.sessions) && db.sessions <= r.sessions
    ensures forall i :: |db.sessions| <= i < |r.sessions| ==> KeptType(r.sessions[i].sessionType)
    decreases |ss|
  {
    if ss == [] then db
    else
      var db' := AddSession(db, ss[0]);
      var r := AddSessions(db', ss[1..]);
      assert forall i :: |db.sessions| <= i < |db'.sessions| ==> r.sessions[i] == db'.sessions[i];
      r
  }

  /** Nor does it make `session_key` unique; again the filter does. */
  lemma {:induction false} AddSessionsUnique(db: Db, ss: seq<SessionData>)
    requires Unique(db.sessions, SessionNumber)
    ensures Unique(AddSessions(db, ss).sessions, SessionNumber)
    decreases |ss|
  {
    if ss != [] {
      var db' := AddSession(db, ss[0]);
      if db' != db {
        var rows := db'.sessions;
        forall i, j | 0 <= i < |rows| && 0 <= j < |rows| && SessionNumber(rows[i]) == SessionNumber(rows[j])
          ensures i == j
        {
          if i < |db.sessions| && j < |db.sessions| {
            assert rows[i] == db.sessions[i] && rows[j] == db.sessions[j];
          }
        }
      }
      AddSessionsUnique(db', ss[1..]);
    }
  }
}

=== FILE: chat_controller.dfy ===
/** `ChatController`: the front end's `handleChatRequest`, which checks a
    chat request before forwarding it to the chat model.  The model's
    `sendMessage` is an oracle that either returns a response or throws. */
module ChatController {
  import opened Wrappers
  import opened Text

  // ---------------------------------------------------------------------------
  // JavaScript `trim()`

  // The trimming functions take the whitespace predicate as a parameter, so
  // that the proofs about them never look inside it.

  /** Every character of `s` satisfies `sp`. */
  ghost predicate All(s: string, sp: char -> bool) {
    forall i :: 0 <= i < |s| ==> sp(s[i])
  }

  function TrimStart(s: string, sp: char -> bool): (r: string)
    ensures |r| <= |s| && r == s[|s| - |r|..]
    ensures r == [] || !sp(r[0])
    ensures All(s[..|s| - |r|], sp)
  {
    if s != [] && sp(s[0]) then
      var r := TrimStart(s[1..], sp);
      assert s[1..][..|s[1..]| - |r|] == s[1..|s| - |r|];
      r
    else
      s
  }

  function TrimEnd(s: string, sp: char -> bool): (r: string)
    ensures |r| <= |s| && r == s[..|r|]
    ensures r == [] || !sp(r[|r| - 1])
    ensures All(s[|r|..], sp)
  {
    if s != [] && sp(s[|s| - 1]) then
      var r := TrimEnd(s[..|s| - 1], sp);
      assert s[|r|..] == s[..|s| - 1][|r|..] + [s[|s| - 1]];
      r
    else
      s
  }

  function Trim(s: string, sp: char -> bool): (r: string)
    ensures r == [] || (!sp(r[0]) && !sp(r[|r| - 1]))
  {
    TrimEnd(TrimStart(s, sp), sp)
  }

  /** Trimming cuts out a slice with whitespace on either side of it. */
  lemma TrimSlice(s: string, sp: char -> bool) returns (a: nat)
    ensures a + |Trim(s, sp)| <= |s|
    ensures Trim(s, sp) == s[a..a + |Trim(s, sp)|]
    ensures All(s[..a], sp)
    ensures All(s[a + |Trim(s, sp)|..], sp)
  {
    a := |s| - |TrimStart(s, sp)|;
    TrimSliceOf(s, TrimStart(s, sp), sp);
  }

  lemma TrimSliceOf(s: string, t: string, sp: char -> bool)
    requires |t| <= |s| && t == s[|s| - |t|..]
    ensures var a, r := |s| - |t|, TrimEnd(t, sp);
      r == s[a..a + |r|] && s[a + |r|..] == t[|r|..]
  {
  }

  /** The trimmed string is empty exactly when all of it is whitespace. */
  lemma TrimEmpty(s: string, sp: char -> bool)
    ensures Trim(s, sp) == [] <==> All(s, sp)
  {
    var a := TrimSlice(s, sp);
    if Trim(s, sp) == [] {
      assert s == s[..a] + s[a..];
    }
  }

  /** `String.prototype.trim()`. */
  function JsTrim(s: string): string {
    Trim(s, IsJsSpace)
  }

  ghost predicate AllJsSpace(s: string) {
    All(s, IsJsSpace)
  }

  /** A trimmed prompt is empty exactly when the prompt is all whitespace. */
  lemma JsTrimEmpty(s: string)
    ensures JsTrim(s) == [] <==> AllJsSpace(s)
  {
    TrimEmpty(s, IsJsSpace);
  }

  // ---------------------------------------------------------------------------
  // `handleChatRequest`

  /** A chat request; either field may be missing. */
  datatype Request = Request(prompt: Option<string>, sessionId: Option<string>)

  datatype Response = Response(response: string, success: bool, error: Option<string>)

  /** What `sendMessage` does: resolve with a response, or throw. */
  datatype Outcome = Returned(value: Response) | Threw

  const EmptyPromptError := "El mensaje no puede estar vacío - Box, box!"
  const NoSessionError := "Sesión no disponible - Inicia una nueva sesión"
  const PitWallError := "Error en el pit wall - Reinicia la sesión"

  function Failure(error: string): Response {
    Response("", false, Some(error))
  }

  /** The prompt is missing, empty, or whitespace only. */
  predicate BlankPrompt(prompt: Option<string>) {
    prompt.None? || JsTrim(prompt.value) == []
  }

  /** JavaScript truthiness of the session id. */
  predicate HasSession(sessionId: Option<string>) {
    sessionId.Some? && sessionId.value != []
  }

  /** `handleChatRequest`, with the call it makes to the model, if any. */
  function Handle(req: Request, send: (string, string) -> Outcome): (r: (Response, Option<(string, string)>))
    ensures BlankPrompt(req.prompt) ==> r == (Failure(EmptyPromptError), None)
    ensures !BlankPrompt(req.prompt) && !HasSession(req.sessionId) ==> r == (Failure(NoSessionError), None)
    ensures r.1.Some? <==> !BlankPrompt(req.prompt) && HasSession(req.sessionId)
    ensures r.1.Some? ==>
      r.1.value == (JsTrim(req.prompt.value), req.sessionId.value) &&
      r.0 == match send(r.1.value.0, r.1.value.1) { case Returned(resp) => resp case Threw => Failure(PitWallError) }
  {
    if BlankPrompt(req.prompt) then (Failure(EmptyPromptError), None)
    else if !HasSession(req.sessionId) then (Failure(NoSessionError), None)
    else
      var prompt := JsTrim(req.prompt.value);
      var session := req.sessionId.value;
      match send(prompt, session)
      case Returned(resp) => (resp, Some((prompt, session)))
      case Threw => (Failure(PitWallError), Some((prompt, session)))
  }

  /** Every rejection the controller makes itself is a failure with an empty
      response, and the prompt is checked before the session. */
  lemma HandleRejects(req: Request, send: (string, string) -> Outcome)
    requires Handle(req, send).1.None? || send(Handle(req, send).1.value.0, Handle(req, send).1.value.1).Threw?
    ensures var resp := Handle(req, send).0;
      !resp.success && resp.response == [] && resp.error.Some? &&
      (resp.error.value == EmptyPromptError <==> BlankPrompt(req.prompt))
  {
    ErrorsDiffer();
    if BlankPrompt(req.prompt) {
    } else if !HasSession(req.sessionId) {
    } else {
      assert Handle(req, send).0 == Failure(PitWallError);
    }
  }

  lemma ErrorsDiffer()
    ensures EmptyPromptError != NoSessionError && EmptyPromptError != PitWallError
  {
    assert |EmptyPromptError| == 43 && |NoSessionError| == 46 && |PitWallError| == 41;
  }

  /** A prompt of whitespace only is refused whatever the session. */
  lemma WhitespacePromptRefused(prompt: string, sessionId: Option<string>, send: (string, string) -> Outcome)
    requires AllJsSpace(prompt)
    ensures Handle(Request(Some(prompt), sessionId), send) == (Failure(EmptyPromptError), None)
  {
    JsTrimEmpty(prompt);
  }

  /** A prompt with some text and a session is forwarded trimmed, and the
      model's response comes back as it is. */
  lemma ValidRequestForwarded(prompt: string, sessionId: string, send: (string, string) -> Outcome)
    requires !AllJsSpace(prompt)
    requires sessionId != []
    ensures Handle(Request(Some(prompt), Some(sessionId)), send).1 == Some((JsTrim(prompt), sessionId))
    ensures send(JsTrim(prompt), sessionId).Returned? ==>
      Handle(Request(Some(prompt), Some(sessionId)), send).0 == send(JsTrim(prompt), sessionId).value
  {
    JsTrimEmpty(prompt);
  }
}

=== FILE: chat_history.dfy ===
/** `ChatHistory`: the per-user chat histories.  Both repositories keep a
    list of messages per user id; Redis is modelled as the same map, without
    its network round trips.  The in-memory repository stores the bare
    strings it is given, the Redis one wraps each in a human or an AI
    message. */
module ChatHistory {
  /** One stored message. */
  datatype Message = Human(text: string) | Ai(text: string) | Plain(text: string)

  /** The histories, by user id. */
  type History = map<string, seq<Message>>

  /** `get_chat_history` of the in-memory repository: `history.get(user_id, [])`. */
  function Get(h: History, user: string): seq<Message> {
    if user in h then h[user] else []
  }

  /** Every history but `user`'s is the same in `h` and `h'`. */
  ghost predicate OthersUnchanged(h: History, h': History, user: string) {
    forall other :: other != user ==> Get(h', other) == Get(h, other)
  }

  /** `set_next_chat_message` of the in-memory repository: the list is
      created when absent and the message appended. */
  function Append(h: History, user: string, m: Message): (h': History)
    ensures h'.Keys == h.Keys + {user}
    ensures Get(h', user) == Get(h, user) + [m]
    ensures OthersUnchanged(h, h', user)
  {
    h[user := Get(h, user) + [m]]
  }

  /** The messages of the in-memory repository: bare strings. */
  function SetNext(h: History, user: string, message: string): History {
    Append(h, user, Plain(message))
  }

  /** An unseen user has the empty history. */
  lemma GetUnseen(h: History, user: string)
    requires user !in h
    ensures Get(h, user) == []
  {
  }

  // ---------------------------------------------------------------------------
  // Human messages

  /** The `HumanMessage` entries, in order. */
  function Humans(xs: seq<Message>): (r: seq<Message>)
    ensures |r| <= |xs|
    decreases |xs|
  {
    if xs == [] then []
    else (if xs[0].Human? then [xs[0]] else []) + Humans(xs[1..])
  }

  /** `ys` is obtained from `xs` by leaving entries out. */
  ghost predicate Subsequence(ys: seq<Message>, xs: seq<Message>)
    decreases |xs|
  {
    ys == [] || (xs != [] && ((ys[0] == xs[0] && Subsequence(ys[1..], xs[1..])) || Subsequence(ys, xs[1..])))
  }

  /** The human history is the in-order subsequence of human messages:
      every entry is one, and each human message occurs in it as often as in
      the whole history. */
  lemma {:induction false} HumansSpec(xs: seq<Message>)
    ensures forall i :: 0 <= i < |Humans(xs)| ==> Humans(xs)[i].Human?
    ensures Subsequence(Humans(xs), xs)
    ensures forall m :: multiset(Humans(xs))[m] == (if m.Human? then multiset(xs)[m] else 0)
    decreases |xs|
  {
    if xs != [] {
      var rest := xs[1..];
      HumansSpec(rest);
      assert xs == [xs[0]] + rest;
      assert multiset(xs) == multiset{xs[0]} + multiset(rest);
      if xs[0].Human? {
        assert Humans(xs) == [xs[0]] + Humans(rest);
        assert multiset(Humans(xs)) == multiset{xs[0]} + multiset(Humans(rest));
      } else {
        assert Humans(xs) == Humans(rest);
        if Humans(rest) != [] {
          assert Humans(rest)[0].Human?;
        }
      }
    }
  }

  lemma {:induction false} HumansAppend(a: seq<Message>, b: seq<Message>)
    ensures Humans(a + b) == Humans(a) + Humans(b)
    decreases |a|
  {
    if a != [] {
      assert (a + b)[1..] == a[1..] + b;
      HumansAppend(a[1..], b);
    } else {
      assert a + b == b;
    }
  }

  /** `get_human_chat_history` of the in-memory repository. */
  function GetHumans(h: History, user: string): seq<Message> {
    Humans(Get(h, user))
  }

  /** Appending a message grows the human history by that message when it is
      a human one, and leaves it alone otherwise. */
  lemma AppendHumans(h: History, user: string, m: Message)
    ensures GetHumans(Append(h, user, m), user) == GetHumans(h, user) + (if m.Human? then [m] else [])
  {
    HumansAppend(Get(h, user), [m]);
    assert Humans([m]) == (if m.Human? then [m] else []) + Humans([]);
  }

  /** The in-memory repository stores bare strings, so its human history
      stays empty: a history made only of such strings has no human
      message. */
  ghost predicate AllPlain(h: History) {
    forall u, i :: u in h && 0 <= i < |h[u]| ==> h[u][i].Plain?
  }

  lemma SetNextPlain(h: History, user: string, message: string)
    requires AllPlain(h)
    ensures AllPlain(SetNext(h, user, message))
    ensures GetHumans(SetNext(h, user, message), user) == []
  {
    var h': History := SetNext(h, user, message);
    forall u: string, i: int | u in h' && 0 <= i < |h'[u]| ensures h'[u][i].Plain? {
      if u != user {
        assert h'[u] == h[u];
      } else if i < |Get(h, user)| {
        assert h'[u][i] == Get(h, user)[i];
      }
    }
    PlainNoHumans(Get(h', user));
  }

  lemma {:induction false} PlainNoHumans(xs: seq<Message>)
    requires forall i :: 0 <= i < |xs| ==> xs[i].Plain?
    ensures Humans(xs) == []
    decreases |xs|
  {
    if xs != [] {
      PlainNoHumans(xs[1..]);
    }
  }

  // ---------------------------------------------------------------------------
  // The Redis repository

  /** `set_next_chat_message` of the Redis repository: type `"user"` adds a
      human message, any other type an AI message. */
  function RedisSetNext(h: History, user: string, message: string, kind: string): (h': History)
    ensures kind == "user" ==> Get(h', user) == Get(h, user) + [Human(message)]
    ensures kind != "user" ==> Get(h', user) == Get(h, user) + [Ai(message)]
    ensures OthersUnchanged(h, h', user)
  {
    Append(h, user, if kind == "user" then Human(message) else Ai(message))
  }

  /** `xs[-limit:] if limit > 0 else xs`. */
  function Last<T>(xs: seq<T>, limit: int): (r: seq<T>)
    ensures limit <= 0 ==> r == xs
    ensures limit > 0 ==> |r| == (if limit < |xs| then limit else |xs|)
    ensures xs[|xs| - |r|..] == r
  {
    if limit <= 0 then xs
    else if limit < |xs| then xs[|xs| - limit..]
    else xs
  }

  /** Redis `get_chat_history`: the last `limit` messages. */
  function RedisGet(h: History, user: string, limit: int): seq<Message> {
    Last(Get(h, user), limit)
  }

  /** Redis `get_human_chat_history`: the last `limit` human messages. */
  function RedisGetHumans(h: History, user: string, limit: int): seq<Message> {
    Last(Humans(Get(h, user)), limit)
  }

  /** The default limit. */
  const DefaultLimit: int := 10

  /** A window of at least one message always ends with the message just
      stored. */
  lemma RedisLastIsNewest(h: History, user: string, message: string, kind: string, limit: int)
    requires limit > 0
    ensures var r := RedisGet(RedisSetNext(h, user, message, kind), user, limit);
      r != [] && r[|r| - 1] == (if kind == "user" then Human(message) else Ai(message))
  {
    var xs := Get(RedisSetNext(h, user, message, kind), user);
    var r := Last(xs, limit);
    assert xs[|xs| - |r|..] == r;
    assert r[|r| - 1] == xs[|xs| - 1];
  }

  /** A user message shows up last in the human window; an AI message leaves
      the human window as it was. */
  lemma RedisHumansAfter(h: History, user: string, message: string, kind: string, limit: int)
    ensures kind == "user" ==>
      RedisGetHumans(RedisSetNext(h, user, message, kind), user, limit) ==
      Last(Humans(Get(h, user)) + [Human(message)], limit)
    ensures kind != "user" ==>
      RedisGetHumans(RedisSetNext(h, user, message, kind), user, limit) == RedisGetHumans(h, user, limit)
  {
    AppendHumans(h, user, if kind == "user" then Human(message) else Ai(message));
  }

  /** A window of a window is the smaller window. */
  lemma LastLast<T>(xs: seq<T>, a: int, b: int)
    requires a > 0 && b > 0
    ensures Last(Last(xs, a), b) == Last(xs, if a < b then a else b)
  {
  }
}

=== FILE: failures.dfy ===
/** The exceptions the ingestion code can raise, by kind.  Every operation that
    can raise returns a `Result` whose error is one of these. */
module Failures {

  datatype Failure =
    | ValueError            // `int()` of a NaN or of malformed text
    | IndexError            // a list index out of range
    | LoadError             // FastF1 could not load a session
    | MultipleResultsFound  // `scalar_one_or_none()` saw two or more rows
    | IntegrityError        // a flush broke a UNIQUE or FOREIGN KEY constraint
    | PendingRollback       // any use of a session whose flush has failed

  /** Failures that leave the database session unusable until `rollback()`:
      after one of these every further statement and the commit raise. */
  predicate IsStorage(f: Failure) {
    f.IntegrityError? || f.PendingRollback?
  }
}

=== FILE: fetcher.dfy ===
/** The fetch layer of the first importer: the OpenF1 resources it asks for,
    the cache slot of each, and `rate_limited_get`, the cache-then-retry loop
    every request goes through.

    The HTTP client is an oracle: `replies[k]` is what the `k`-th GET would
    give, and `jitter[k]` is what the `k`-th `randint(0, RANDOM_INTERVAL)`
    would draw.  Waiting is recorded, not performed. */
module Fetcher {
  import opened Wrappers
  import opened Text

  const ApiUrl: string := "https://api.openf1.org/v1"
  /** Requests per second the limiter lets through. */
  const RateLimit: nat := 2
  /** Seconds between two attempts, before the random part. */
  const TimeBetweenRetries: nat := 10
  /** The random part of a wait is drawn from [0, RANDOM_INTERVAL]. */
  const RandomInterval: nat := 20
  /** Attempts per request. */
  const MaxRetries: nat := 20

  // ---------------------------------------------------------------------------
  // Resources and their cache slots

  /** One OpenF1 resource the importer fetches. */
  datatype Resource =
    | Meetings(year: int)
    | Sessions(meetingKey: int)
    | Drivers(sessionKey: int)
    | Stints(sessionKey: int)
    | Laps(sessionKey: int, driverNumber: int)
    | PitStops(sessionKey: int)
    | PositionChanges(sessionKey: int)
    | SessionResults(sessionKey: int)
    | StartingGrid(sessionKey: int)

  /** The fixed head of the cache key of each kind of resource. */
  function Label(r: Resource): string {
    match r
    case Meetings(_) => "meetings_"
    case Sessions(_) => "sessions_"
    case Drivers(_) => "drivers_"
    case Stints(_) => "stints_"
    case Laps(_, _) => "laps_"
    case PitStops(_) => "pit_stops_"
    case PositionChanges(_) => "position_changes_"
    case SessionResults(_) => "session_results_"
    case StartingGrid(_) => "start_grid_"
  }

  /** The variable tail of a cache key: the numbers that name the resource. */
  function Tail(r: Resource): string {
    match r
    case Meetings(y) => IntToString(y)
    case Sessions(k) => IntToString(k)
    case Laps(s, d) => IntToString(s) + "_" + IntToString(d)
    case Drivers(k) => IntToString(k)
    case Stints(k) => IntToString(k)
    case PitStops(k) => IntToString(k)
    case PositionChanges(k) => IntToString(k)
    case SessionResults(k) => IntToString(k)
    case StartingGrid(k) => IntToString(k)
  }

  /** The `cache_key` each `get_*` helper passes. */
  function CacheKey(r: Resource): string {
    Label(r) + Tail(r)
  }

  /** The URL each `get_*` helper requests. */
  function Url(r: Resource): string {
    match r
    case Meetings(y) => ApiUrl + "/meetings?year=" + IntToString(y)
    case Sessions(k) => ApiUrl + "/sessions?meeting_key=" + IntToString(k)
    case Drivers(k) => ApiUrl + "/drivers?session_key=" + IntToString(k)
    case Stints(k) => ApiUrl + "/stints?session_key=" + IntToString(k)
    case Laps(s, d) => ApiUrl + "/laps?session_key=" + IntToString(s) + "&driver_number=" + IntToString(d)
    case PitStops(k) => ApiUrl + "/pit?session_key=" + IntToString(k)
    case PositionChanges(k) => ApiUrl + "/positions?session_key=" + IntToString(k)
    case SessionResults(k) => ApiUrl + "/session_result?session_key=" + IntToString(k)
    case StartingGrid(k) => ApiUrl + "/starting_grid?session_key=" + IntToString(k)
  }

  lemma LabelShape(r: Resource)
    ensures IsLabel(Label(r)) && IsTail(Tail(r))
  {
    LabelIsLabel(r);
    TailIsTail(r);
  }

  lemma LabelIsLabel(r: Resource)
    ensures IsLabel(Label(r))
  {
  }

  lemma TailIsTail(r: Resource)
    ensures IsTail(Tail(r))
  {
    if r.Laps? {
      assert Tail(r)[0] == IntToString(r.sessionKey)[0];
    }
  }

  /** Each kind of resource has its own label. */
  lemma LabelKind(a: Resource, b: Resource)
    requires Label(a) == Label(b)
    ensures a.Meetings? == b.Meetings? && a.Sessions? == b.Sessions? && a.Drivers? == b.Drivers? &&
            a.Stints? == b.Stints? && a.Laps? == b.Laps? && a.PitStops? == b.PitStops? &&
            a.PositionChanges? == b.PositionChanges? && a.SessionResults? == b.SessionResults? &&
            a.StartingGrid? == b.StartingGrid?
  {
    if a.Meetings? || a.Sessions? || b.Meetings? || b.Sessions? {
      assert Label(a)[0] == Label(b)[0];
    }
  }

  /** Distinct resources never share a cache slot: the label separates the
      kinds, and the tail (both numbers, for laps) separates resources of one
      kind. */
  lemma CacheKeyInjective(a: Resource, b: Resource)
    requires CacheKey(a) == CacheKey(b)
    ensures a == b
  {
    LabelShape(a);
    LabelShape(b);
    LabelsSeparate(Label(a), Label(b), Tail(a), Tail(b));
    LabelKind(a, b);
    match a
    case Laps(s, d) =>
      PairKeyInjective(s, d, b.sessionKey, b.driverNumber);
    case Meetings(y) =>
      IntToStringInjective(y, b.year);
    case Sessions(k) =>
      IntToStringInjective(k, b.meetingKey);
    case _ =>
      IntToStringInjective(a.sessionKey, b.sessionKey);
  }

  // ---------------------------------------------------------------------------
  // `rate_limited_get`

  /** What one GET gives: the decoded body of a successful response, or the
      message of the exception `get`, `raise_for_status` or `json` raised. */
  datatype Reply<D> = Fetched(data: D) | FetchError(message: string)

  /** Python truthiness of the optional `cache_key`. */
  predicate HasKey(cacheKey: Option<string>) {
    cacheKey.Some? && cacheKey.value != []
  }

  /** The cache entry a request is answered from without any GET: the
      `cache_key` slot first, then the URL slot. */
  function Hit<D>(cache: map<string, D>, url: string, cacheKey: Option<string>): (h: Option<D>)
    ensures h.None? <==> (!HasKey(cacheKey) || cacheKey.value !in cache) && url !in cache
    ensures HasKey(cacheKey) && cacheKey.value in cache ==> h == Some(cache[cacheKey.value])
    ensures !(HasKey(cacheKey) && cacheKey.value in cache) && url in cache ==> h == Some(cache[url])
  {
    if HasKey(cacheKey) && cacheKey.value in cache then Some(cache[cacheKey.value])
    else if url in cache then Some(cache[url])
    else None
  }

  /** Where a fetched body is stored: under `cache_key` when it is truthy,
      else under the URL. */
  function Slot(url: string, cacheKey: Option<string>): string {
    if HasKey(cacheKey) then cacheKey.value else url
  }

  /** `rate_limited_get` run sequentially: `calls` is the number of GETs made
      and `waits` the pauses between them, in seconds. */
  method RateLimitedGet<D>(cache: map<string, D>, url: string, cacheKey: Option<string>,
                           replies: seq<Reply<D>>, jitter: seq<int>)
    returns (r: Result<D, string>, cache': map<string, D>, calls: nat, waits: seq<int>)
    requires |replies| >= MaxRetries && |jitter| >= MaxRetries - 1
    requires forall k :: 0 <= k < |jitter| ==> 0 <= jitter[k] <= RandomInterval
    ensures Hit(cache, url, cacheKey).Some? ==>
      r == Ok(Hit(cache, url, cacheKey).value) && cache' == cache && calls == 0 && waits == []
    ensures Hit(cache, url, cacheKey).None? ==>
      1 <= calls <= MaxRetries && |waits| == calls - 1 &&
      (forall k :: 0 <= k < calls - 1 ==> replies[k].FetchError?)
    ensures forall k :: 0 <= k < |waits| ==>
      waits[k] == TimeBetweenRetries + jitter[k] &&
      TimeBetweenRetries <= waits[k] <= TimeBetweenRetries + RandomInterval
    ensures Hit(cache, url, cacheKey).None? && r.Ok? ==>
      replies[calls - 1] == Fetched(r.value) && cache' == cache[Slot(url, cacheKey) := r.value]
    ensures r.Err? ==>
      Hit(cache, url, cacheKey).None? && calls == MaxRetries &&
      replies[MaxRetries - 1] == FetchError(r.error) && cache' == cache
  {
    cache' := cache;
    calls := 0;
    waits := [];
    var attempt := 0;
    while true
      invariant 0 <= attempt < MaxRetries
      invariant cache' == cache && calls == attempt
      invariant attempt > 0 ==> Hit(cache, url, cacheKey).None?
      invariant forall k :: 0 <= k < attempt ==> replies[k].FetchError?
      invariant |waits| == attempt
      invariant forall k :: 0 <= k < |waits| ==>
        waits[k] == TimeBetweenRetries + jitter[k] &&
        TimeBetweenRetries <= waits[k] <= TimeBetweenRetries + RandomInterval
      decreases MaxRetries - attempt
    {
      if HasKey(cacheKey) && cacheKey.value in cache' {
        return Ok(cache'[cacheKey.value]), cache', calls, waits;
      }
      if url in cache' {
        return Ok(cache'[url]), cache', calls, waits;
      }
      calls := calls + 1;
      match replies[attempt]
      case Fetched(data) =>
        cache' := cache'[Slot(url, cacheKey) := data];
        return Ok(data), cache', calls, waits;
      case FetchError(message) =>
        if attempt < MaxRetries - 1 {
          waits := waits + [TimeBetweenRetries + jitter[attempt]];
        } else {
          return Err(message), cache', calls, waits;
        }
      attempt := attempt + 1;
    }
  }

  /** Once a body has been fetched, the same request is answered from the
      cache: the slot it was stored in is the one the next lookup reads. */
  lemma SecondRequestHits<D>(cache: map<string, D>, url: string, cacheKey: Option<string>, data: D)
    ensures Hit(cache[Slot(url, cacheKey) := data], url, cacheKey) == Some(data)
  {
  }
}

=== FILE: importer.dfy ===
/** The FastF1 importer (`F1DataImporter` of backend/create_db_v2.py): the
    get-or-create of every entity from schedule, results and lap rows, the
    per-session and per-event error handling, and the commit / rollback of the
    database session around each event.

    FastF1 loading and the database are values here: a loaded session is an
    `Event` field, the database session is a `Tx` of the committed and the
    working (flushed but uncommitted) state.  `floatOf` is Python's `float()` on
    a string, `None` where it raises. */
module Importer {
  import opened Wrappers
  import opened Failures
  import opened Text
  import opened Normalise
  import opened Store

  // ---------------------------------------------------------------------------
  // Input rows

  /** A pandas cell read with `.get(column, default)`: the column may be
      missing, hold NaN, or hold a value. */
  datatype Cell<T> = Absent | NA | Present(value: T)

  /** One row of `session.results`.  `None` stands for NaN (or a missing
      column read with `.get`, which `pd.notna` treats the same way); a NaN
      Abbreviation, which the source reads as truthy, is `None` too. */
  datatype ResultsEntry = ResultsEntry(
    driverNumber: Option<string>,
    firstName: Option<string>,
    lastName: Option<string>,
    abbreviation: Option<string>,
    status: StatusValue,
    laps: Option<real>,
    position: Option<real>,
    fastestLap: TimeValue,
    time: TimeValue,
    gridPosition: Option<real>,
    q1: TimeValue,
    q2: TimeValue,
    q3: TimeValue,
    points: Cell<real>)

  /** One row of `session.laps`.  `pitOut` is `bool(PitOutTime)`, `None` when
      the column is missing. */
  datatype LapsEntry = LapsEntry(
    driverNumber: Option<string>,
    stint: Option<real>,
    compound: Option<string>,
    tyreLife: Option<real>,
    lapNumber: Option<real>,
    sector1: TimeValue,
    sector2: TimeValue,
    sector3: TimeValue,
    lapTime: TimeValue,
    pitOut: Option<bool>)

  /** What `fastf1.get_session(...).load()` gives for one identifier.
      `sessionKey` is the value `hash(f"{meeting_id}_{identifier}") % 2147483647`
      took, which Python randomises per process. */
  datatype SessionLoad =
    | LoadFailed
    | Loaded(results: seq<ResultsEntry>, laps: seq<LapsEntry>, sessionKey: int)

  /** One row of `fastf1.get_event_schedule(year)`, with the sessions FastF1
      would load for it.  `date` is an abstract day number, `None` for NaT. */
  datatype Event = Event(
    date: Option<int>,
    roundNumber: Option<int>,
    name: string,
    country: Option<string>,
    location: Option<string>,
    sessions: map<string, SessionLoad>)

  // ---------------------------------------------------------------------------
  // Python conversions

  /** `int(x)` of a float truncates toward zero. */
  function Trunc(x: real): (n: int)
    ensures x >= 0.0 ==> n as real <= x < n as real + 1.0
    ensures x < 0.0 ==> n as real - 1.0 < x <= n as real
  {
    if x >= 0.0 then x.Floor else -((-x).Floor)
  }

  /** `int()` of a `DriverNumber` cell: NaN and malformed text raise. */
  function IntOfCell(v: Option<string>): (r: Result<int, Failure>)
    ensures r.Ok? <==> v.Some? && ParseInt(v.value).Some?
    ensures r.Ok? ==> r.value == ParseInt(v.value).value
    ensures r.Err? ==> r.error == ValueError
  {
    match v
    case None => Err(ValueError)
    case Some(s) => match ParseInt(s)
      case None => Err(ValueError)
      case Some(n) => Ok(n)
  }

  // ---------------------------------------------------------------------------
  // Seasons, meetings, sessions

  /** `get_or_create_season`. */
  function GetOrCreateSeason(db: Db, year: int): (r: Result<(Db, nat), Failure>)
    ensures r.Ok? ==> ValidId(r.value.1, |r.value.0.seasons|) && r.value.0.seasons[r.value.1 - 1].year == year
    ensures r.Ok? ==> r.value.0 == db || r.value.0 == Append(db, SeasonRow(Season(year)))
  {
    var p :- GetOrCreate(db.seasons, SeasonYear, year, Ok(Season(year)), (s: Season) => Admissible(db, SeasonRow(s)));
    Ok((db.(seasons := p.0), p.1))
  }

  /** Over a consistent database `get_or_create_season` succeeds and keeps
      the years unique. */
  lemma SeasonKeepsConsistent(db: Db, year: int)
    ensures Consistent(db) ==> GetOrCreateSeason(db, year).Ok? && Consistent(GetOrCreateSeason(db, year).value.0)
  {
    if Consistent(db) {
      assert Unique(db.seasons, SeasonYear);
      var r := GetOrCreateSeason(db, year);
      if r.Ok? && r.value.0 != db {
        assert r.value.0 == Append(db, SeasonRow(Season(year)));
        AppendSeason(db, Season(year));
      }
    }
  }

  /** The meeting `get_or_create_meeting` builds for an event it has not seen:
      a three-letter upper-case country code, the country standing in for a
      missing location, and the standard name `nameOf` gives the official
      name (`create_standard_name`, which the importer passes as
      `Normalise.StandardNameAsWritten`). */
  function NewMeeting(event: Event, seasonId: int, meetingKey: int, nameOf: string -> string): (m: Meeting)
    ensures MeetingKey(m) == (meetingKey, seasonId)
    ensures m.countryName == event.country && m.dateStart == event.date && m.gmtOffset.None?
    ensures m.countryCode.Some? <==> event.country.Some?
    ensures m.countryCode.Some? ==> |m.countryCode.value| == Min(3, |event.country.value|)
    ensures m.countryCode.Some? ==>
      m.countryCode.value == Upper(event.country.value[..Min(3, |event.country.value|)])
    ensures m.location == if event.location.Some? then event.location else event.country
    ensures m.officialName == Some(event.name) && m.standardName == Some(nameOf(event.name))
  {
    Meeting(
      seasonId, meetingKey, event.country,
      match event.country
      case None => None
      case Some(c) => Some(Upper(c[..Min(3, |c|)])),
      event.date, None,
      if event.location.Some? then event.location else event.country,
      Some(event.name), Some(nameOf(event.name)))
  }

  /** `get_or_create_meeting`: the meeting key is `int(RoundNumber)`, which
      raises for a NaN round before anything is looked up. */
  function GetOrCreateMeeting(db: Db, event: Event, seasonId: int, nameOf: string -> string): (r: Result<(Db, nat), Failure>)
    ensures event.roundNumber.None? ==> r == Err(ValueError)
    ensures r.Ok? ==>
      ValidId(r.value.1, |r.value.0.meetings|) &&
      r.value.0.meetings[r.value.1 - 1].meetingKey == event.roundNumber.value &&
      r.value.0.meetings[r.value.1 - 1].seasonId == seasonId
    ensures r.Ok? ==> r.value.0 == db || r.value.0 == Append(db, MeetingRow(NewMeeting(event, seasonId, event.roundNumber.value, nameOf)))
    ensures event.roundNumber.Some? && !ValidId(seasonId, |db.seasons|) &&
      (forall i :: 0 <= i < |db.meetings| ==> MeetingKey(db.meetings[i]) != (event.roundNumber.value, seasonId))
      ==> r == Err(IntegrityError)
  {
    if event.roundNumber.None? then Err(ValueError)
    else
      var meetingKey := event.roundNumber.value;
      var made := NewMeeting(event, seasonId, meetingKey, nameOf);
      assert !ValidId(seasonId, |db.seasons|) ==> !Admissible(db, MeetingRow(made));
      var p :- GetOrCreate(db.meetings, MeetingKey, (meetingKey, seasonId), Ok(made),
                           (m: Meeting) => Admissible(db, MeetingRow(m)));
      Ok((db.(meetings := p.0), p.1))
  }

  /** `session_type_mapping.get(identifier, identifier)`. */
  function SessionName(identifier: string): string {
    if identifier == "FP1" then "Practice 1"
    else if identifier == "FP2" then "Practice 2"
    else if identifier == "FP3" then "Practice 3"
    else if identifier == "Q" then "Qualifying"
    else if identifier == "SQ" then "Sprint Qualifying"
    else if identifier == "S" then "Sprint"
    else if identifier == "R" then "Race"
    else identifier
  }

  /** `get_or_create_session`, selecting on (meeting, session type). */
  function GetOrCreateSession(db: Db, meetingId: int, identifier: string, sessionKey: int): (r: Result<(Db, nat), Failure>)
    ensures r.Ok? ==>
      ValidId(r.value.1, |r.value.0.sessions|) &&
      SessionKey(r.value.0.sessions[r.value.1 - 1]) == (meetingId, identifier)
    ensures r.Ok? ==>
      r.value.0 == db ||
      r.value.0 == Append(db, SessionRow(Session(meetingId, SessionName(identifier), identifier, sessionKey)))
  {
    var made := Session(meetingId, SessionName(identifier), identifier, sessionKey);
    var p :- GetOrCreate(db.sessions, SessionKey, (meetingId, identifier), Ok(made),
                         (s: Session) => Admissible(db, SessionRow(s)));
    Ok((db.(sessions := p.0), p.1))
  }

  /** Idempotence of `get_or_create_session`: a second call for the same
      meeting and identifier returns the same id and adds nothing, even when
      the randomised session key differs. */
  lemma SessionTwice(db: Db, meetingId: int, identifier: string, key1: int, key2: int)
    requires GetOrCreateSession(db, meetingId, identifier, key1).Ok?
    ensures var first := GetOrCreateSession(db, meetingId, identifier, key1).value;
      GetOrCreateSession(first.0, meetingId, identifier, key2) == Ok(first)
  {
    var made1 := Session(meetingId, SessionName(identifier), identifier, key1);
    var made2 := Session(meetingId, SessionName(identifier), identifier, key2);
    var first := GetOrCreateSession(db, meetingId, identifier, key1).value;
    GetOrCreateTwice(db.sessions, SessionKey, (meetingId, identifier),
                     Ok(made1), (s: Session) => Admissible(db, SessionRow(s)),
                     Ok(made2), (s: Session) => Admissible(first.0, SessionRow(s)));
  }

  // ---------------------------------------------------------------------------
  // Drivers

  /** `f"{FirstName} {LastName}"` when both are present. */
  function FullName(e: ResultsEntry): Option<string> {
    if e.firstName.Some? && e.lastName.Some? then Some(e.firstName.value + " " + e.lastName.value) else None
  }

  /** The driver number of a results row: `int(DriverNumber)` when it is not
      NaN, which raises on malformed text. */
  function EntryNumber(e: ResultsEntry): (r: Result<Option<int>, Failure>)
    ensures e.driverNumber.None? ==> r == Ok(None)
    ensures e.driverNumber.Some? ==> r.Ok? == ParseInt(e.driverNumber.value).Some?
    ensures e.driverNumber.Some? && r.Ok? ==> r.value == ParseInt(e.driverNumber.value)
  {
    if e.driverNumber.None? then Ok(None)
    else
      var n :- IntOfCell(e.driverNumber);
      Ok(Some(n))
  }

  /** The update `get_or_create_driver` applies to a driver it found: each
      name field is filled from the row only while it is empty. */
  function UpdateDriver(d: Driver, e: ResultsEntry): (u: Driver)
    ensures Refines(d, u)
    ensures !Truthy(d.fullName) && FullName(e).Some? ==> u.fullName == FullName(e)
    ensures FullName(e).None? ==> u.fullName == d.fullName
    ensures !Truthy(d.acronym) && Truthy(e.abbreviation) ==> u.acronym == e.abbreviation
    ensures !Truthy(e.abbreviation) ==> u.acronym == d.acronym
  {
    Driver(
      d.number,
      if FullName(e).Some? && !Truthy(d.fullName) then FullName(e) else d.fullName,
      if Truthy(e.abbreviation) && !Truthy(d.acronym) then e.abbreviation else d.acronym)
  }

  /** Updating twice from the same row changes nothing more. */
  lemma UpdateDriverIdempotent(d: Driver, e: ResultsEntry)
    ensures UpdateDriver(UpdateDriver(d, e), e) == UpdateDriver(d, e)
  {
  }

  /** The new driver of `get_or_create_driver`. */
  function CreateDriver(db: Db, number: Option<int>, e: ResultsEntry): (r: Result<(Db, nat), Failure>)
    ensures r.Ok? <==> Admissible(db, DriverRow(Driver(number, FullName(e), e.abbreviation)))
    ensures r.Ok? ==> r.value == (Append(db, DriverRow(Driver(number, FullName(e), e.abbreviation))), |db.drivers| + 1)
    ensures r.Err? ==> r.error == IntegrityError
    ensures r.Ok? ==> ValidId(r.value.1, |r.value.0.drivers|) && Extends(db, r.value.0)
    ensures r.Ok? ==> r.value.0.drivers[r.value.1 - 1].number == number && r.value.0 == db.(drivers := r.value.0.drivers)
  {
    var row := DriverRow(Driver(number, FullName(e), e.abbreviation));
    AppendExtends(db, row);
    var db' :- Insert(db, row);
    Ok((db', |db.drivers| + 1))
  }

  /** A driver found under `id`, updated from the row and kept there. */
  function KeepDriver(db: Db, id: nat, e: ResultsEntry): (r: (Db, nat))
    requires ValidId(id, |db.drivers|)
    ensures r.1 == id && ValidId(r.1, |r.0.drivers|) && Extends(db, r.0)
    ensures r.0.drivers[id - 1].number == db.drivers[id - 1].number && r.0 == db.(drivers := r.0.drivers)
  {
    var db' := db.(drivers := db.drivers[id - 1 := UpdateDriver(db.drivers[id - 1], e)]);
    assert forall i :: 0 <= i < |db.drivers| && i != id - 1 ==> db'.drivers[i] == db.drivers[i];
    (db', id)
  }

  /** `get_or_create_driver`: a truthy (present, non-zero) number is looked
      up and a driver found by it is updated and kept; otherwise, and when
      nothing is found, a new driver is added. */
  function GetOrCreateDriver(db: Db, e: ResultsEntry): (r: Result<(Db, nat), Failure>)
    ensures EntryNumber(e).Err? ==> r == Err(ValueError)
    ensures r.Ok? ==> ValidId(r.value.1, |r.value.0.drivers|) && Extends(db, r.value.0)
    ensures r.Ok? ==> r.value.0.drivers[r.value.1 - 1].number == EntryNumber(e).value
    ensures r.Ok? ==> r.value.0 == db.(drivers := r.value.0.drivers)
  {
    var number :- EntryNumber(e);
    if number.Some? && number.value != 0 then
      var found :- Lookup(db.drivers, DriverNumber, number);
      match found
      case Some(id) => Ok(KeepDriver(db, id, e))
      case None => CreateDriver(db, number, e)
    else
      CreateDriver(db, number, e)
  }

  /** A driver found by a non-zero number is kept under its id and only
      refined; no row is added. */
  lemma DriverFoundIsKept(db: Db, e: ResultsEntry, i: nat)
    requires Consistent(db)
    requires EntryNumber(e).Ok? && EntryNumber(e).value.Some? && EntryNumber(e).value.value != 0
    requires i < |db.drivers| && db.drivers[i].number == EntryNumber(e).value
    ensures GetOrCreateDriver(db, e) ==
      Ok((db.(drivers := db.drivers[i := UpdateDriver(db.drivers[i], e)]), i + 1))
  {
    assert Lookup(db.drivers, DriverNumber, EntryNumber(e).value) == Ok(Some(i + 1));
  }

  /** A missing or zero number never looks anything up: it always adds a
      driver, which the UNIQUE constraint refuses when a driver numbered 0
      already exists. */
  lemma FalsyNumberCreates(db: Db, e: ResultsEntry)
    requires EntryNumber(e) == Ok(None) || EntryNumber(e) == Ok(Some(0))
    ensures GetOrCreateDriver(db, e) == CreateDriver(db, EntryNumber(e).value, e)
    ensures EntryNumber(e) == Ok(None) ==> GetOrCreateDriver(db, e).Ok?
  {
  }

  /** The text "0" is the falsy driver number 0. */
  lemma ZeroNumber(e: ResultsEntry)
    requires e.driverNumber == Some("0")
    ensures EntryNumber(e) == Ok(Some(0))
  {
    ParseIntDigits("0");
    assert DigitsValue("0") == 0 by {
      assert "0"[..0] == [];
    }
  }

  /** Two results rows numbered 0 (the text "0", say), in one session or in
      two, make the second insert raise `IntegrityError`. */
  lemma DriverZeroTwice(db: Db, e1: ResultsEntry, e2: ResultsEntry)
    requires EntryNumber(e1) == Ok(Some(0)) && EntryNumber(e2) == Ok(Some(0))
    requires GetOrCreateDriver(db, e1).Ok?
    ensures GetOrCreateDriver(GetOrCreateDriver(db, e1).value.0, e2) == Err(IntegrityError)
  {
    FalsyNumberCreates(db, e1);
    var db1 := GetOrCreateDriver(db, e1).value.0;
    FalsyNumberCreates(db1, e2);
    CreateZeroTwice(db, e1, e2);
  }

  lemma CreateZeroTwice(db: Db, e1: ResultsEntry, e2: ResultsEntry)
    requires CreateDriver(db, Some(0), e1).Ok?
    ensures CreateDriver(CreateDriver(db, Some(0), e1).value.0, Some(0), e2) == Err(IntegrityError)
  {
    var db1 := CreateDriver(db, Some(0), e1).value.0;
    assert db1.drivers[|db.drivers|].number == Some(0);
    assert !Admissible(db1, DriverRow(Driver(Some(0), FullName(e2), e2.abbreviation)));
  }

  // ---------------------------------------------------------------------------
  // Session drivers

  /** `get_or_create_session_driver`, selecting on (driver, session). */
  function GetOrCreateSessionDriver(db: Db, driverId: int, sessionId: int): (r: Result<(Db, nat), Failure>)
    ensures r.Ok? ==>
      ValidId(r.value.1, |r.value.0.sessionDrivers|) &&
      SessionDriverKey(r.value.0.sessionDrivers[r.value.1 - 1]) == (driverId, sessionId)
    ensures r.Ok? ==>
      r.value.0 == db || r.value.0 == Append(db, SessionDriverRow(SessionDriver(driverId, sessionId)))
  {
    var p :- GetOrCreate(db.sessionDrivers, SessionDriverKey, (driverId, sessionId), Ok(SessionDriver(driverId, sessionId)),
                         (sd: SessionDriver) => Admissible(db, SessionDriverRow(sd)));
    Ok((db.(sessionDrivers := p.0), p.1))
  }

  /** Idempotence of `get_or_create_session_driver`. */
  lemma SessionDriverTwice(db: Db, driverId: int, sessionId: int)
    requires GetOrCreateSessionDriver(db, driverId, sessionId).Ok?
    ensures var first := GetOrCreateSessionDriver(db, driverId, sessionId).value;
      GetOrCreateSessionDriver(first.0, driverId, sessionId) == Ok(first)
  {
    var first := GetOrCreateSessionDriver(db, driverId, sessionId).value;
    var made := SessionDriver(driverId, sessionId);
    GetOrCreateTwice(db.sessionDrivers, SessionDriverKey, (driverId, sessionId),
                     Ok(made), (sd: SessionDriver) => Admissible(db, SessionDriverRow(sd)),
                     Ok(made), (sd: SessionDriver) => Admissible(first.0, SessionDriverRow(sd)));
  }

  // ---------------------------------------------------------------------------
  // Results, starting grid, points

  /** `int(x) if pd.notna(x) else None` for a float column. */
  function IntOrNone(v: Option<real>): (r: Option<int>)
    ensures r.Some? <==> v.Some?
  {
    if v.Some? then Some(Trunc(v.value)) else None
  }

  /** The row `create_session_result` stores.  A missing time is stored as
      NULL, never as 0. */
  function NewResult(e: ResultsEntry, sessionDriverId: int, floatOf: string -> Option<real>): (r: SessionResult)
    ensures var f := ClassifyStatus(StatusString(e.status));
      r.dnf == f.dnf && r.dns == f.dns && r.dsq == f.dsq && r.status == f.stored
    ensures e.laps.None? ==> r.lapsCompleted == 0
    ensures r.finalPosition == IntOrNone(e.position)
    ensures e.fastestLap.Missing? ==> r.fastestLapTime.None?
    ensures e.time.Missing? ==> r.totalTime.None?
  {
    var f := ClassifyStatus(StatusString(e.status));
    SessionResult(
      sessionDriverId,
      if e.laps.Some? then Trunc(e.laps.value) else 0,
      f.dnf, f.dns, f.dsq,
      IntOrNone(e.position),
      ParseLapTime(e.fastestLap, floatOf),
      ParseLapTime(e.time, floatOf),
      f.stored)
  }

  /** `create_session_result`: one new row, flushed, whose id is returned. */
  function CreateSessionResult(db: Db, e: ResultsEntry, sessionDriverId: int, floatOf: string -> Option<real>)
    : (r: Result<(Db, nat), Failure>)
    ensures r.Ok? <==> ValidId(sessionDriverId, |db.sessionDrivers|)
    ensures r.Ok? ==> r.value == (Append(db, ResultRow(NewResult(e, sessionDriverId, floatOf))), |db.results| + 1)
  {
    var db' :- Insert(db, ResultRow(NewResult(e, sessionDriverId, floatOf)));
    Ok((db', |db.results| + 1))
  }

  /** The qualifying time of `create_start_grid`: the first of Q3, Q2, Q1 that
      is not missing decides, even when it does not parse. */
  function QualyTime(e: ResultsEntry, floatOf: string -> Option<real>): (t: Option<real>)
    ensures !e.q3.Missing? ==> t == ParseLapTime(e.q3, floatOf)
    ensures e.q3.Missing? && !e.q2.Missing? ==> t == ParseLapTime(e.q2, floatOf)
    ensures e.q3.Missing? && e.q2.Missing? ==> t == ParseLapTime(e.q1, floatOf)
    ensures e.q1.Missing? && e.q2.Missing? && e.q3.Missing? ==> t.None?
  {
    if !e.q3.Missing? then ParseLapTime(e.q3, floatOf)
    else if !e.q2.Missing? then ParseLapTime(e.q2, floatOf)
    else ParseLapTime(e.q1, floatOf)
  }

  /** The `break` stops at a present Q3 even when a later column would have
      given a time. */
  lemma QualyTimeStopsAtFirst(e: ResultsEntry, floatOf: string -> Option<real>)
    requires e.q3 == Other && e.q2 == Duration(90.5)
    ensures QualyTime(e, floatOf) == None
  {
  }

  /** `create_start_grid`: a row only when GridPosition is not NaN. */
  function CreateStartGrid(db: Db, e: ResultsEntry, sessionDriverId: int, floatOf: string -> Option<real>)
    : (r: Result<Db, Failure>)
    ensures e.gridPosition.None? ==> r == Ok(db)
    ensures e.gridPosition.Some? && r.Ok? ==>
      r.value == Append(db, GridRow(StartGrid(sessionDriverId, Trunc(e.gridPosition.value), QualyTime(e, floatOf))))
    ensures r.Err? <==> e.gridPosition.Some? && !ValidId(sessionDriverId, |db.sessionDrivers|)
  {
    if e.gridPosition.None? then Ok(db)
    else Insert(db, GridRow(StartGrid(sessionDriverId, Trunc(e.gridPosition.value), QualyTime(e, floatOf))))
  }

  /** `driver_result.get('Points', 0)` as a float, `None` for NaN: a missing
      column counts as 0 points, a NaN as no record at all. */
  function PointsOf(e: ResultsEntry): (p: Option<real>)
    ensures e.points.Absent? ==> p == Some(0.0)
    ensures e.points.NA? <==> p.None?
  {
    match e.points
    case Absent => Some(0.0)
    case NA => None
    case Present(x) => Some(x)
  }

  /** `create_points_scored`: no row for NaN points, otherwise a row with the
      points, the truncated position and the fastest-lap bonus flag. */
  function CreatePointsScored(db: Db, e: ResultsEntry, resultId: int): (r: Result<Db, Failure>)
    ensures e.points.NA? ==> r == Ok(db)
    ensures PointsOf(e).Some? && r.Ok? ==>
      var flag := FastestLapPoint(!e.fastestLap.Missing?, IntOrNone(e.position), PointsOf(e).value);
      flag.Ok? &&
      r.value == Append(db, PointsRow(PointsScored(resultId, PointsOf(e).value, IntOrNone(e.position), flag.value)))
  {
    match PointsOf(e)
    case None => Ok(db)
    case Some(points) =>
      var position := IntOrNone(e.position);
      var flag :- FastestLapPoint(!e.fastestLap.Missing?, position, points);
      Insert(db, PointsRow(PointsScored(resultId, points, position, flag)))
  }

  /** For a position in the results table (none, or not negative), the stored
      bonus flag is exactly "FastestLap present, 1 <= position <= 10, and more
      points than the position pays". */
  lemma PointsBonusRule(db: Db, e: ResultsEntry, resultId: int)
    requires e.position.None? || e.position.value >= 0.0
    requires CreatePointsScored(db, e, resultId).Ok? && PointsOf(e).Some?
    ensures var row := CreatePointsScored(db, e, resultId).value.points[|db.points|];
      row.fastestLapPoint <==>
        !e.fastestLap.Missing? && row.position.Some? && 1 <= row.position.value <= 10 &&
        row.points > PositionPoints[row.position.value - 1] as real
  {
    FastestLapRule(!e.fastestLap.Missing?, IntOrNone(e.position), PointsOf(e).value);
  }

  // ---------------------------------------------------------------------------
  // Stints and laps

  /** `int(Stint) if pd.notna(Stint) else 1`. */
  function StintNumber(l: LapsEntry): int {
    if l.stint.Some? then Trunc(l.stint.value) else 1
  }

  /** The stint cache key `f"{session_driver_id}_{stint_number}"`. */
  function StintCacheKey(sessionDriverId: int, stintNumber: int): string {
    IntToString(sessionDriverId) + "_" + IntToString(stintNumber)
  }

  /** The string cache key names one (session driver, stint number) pair, so
      the cache is modelled as keyed by that pair. */
  lemma StintCacheKeyInjective(a: int, b: int, c: int, d: int)
    ensures StintCacheKey(a, b) == StintCacheKey(c, d) <==> a == c && b == d
  {
    if StintCacheKey(a, b) == StintCacheKey(c, d) {
      PairKeyInjective(a, b, c, d);
    }
  }

  /** `stint_cache`, by the pair its string key names. */
  type StintCache = map<(int, int), nat>

  /** `id` names a stored stint whose key is `key`. */
  ghost predicate CachedAt(db: Db, key: (int, int), id: nat) {
    ValidId(id, |db.stints|) && StintKey(db.stints[id - 1]) == key
  }

  /** Every cached id names a stored stint with the key it is cached under. */
  ghost predicate CacheSound(db: Db, cache: StintCache) {
    forall key :: key in cache ==> CachedAt(db, key, cache[key])
  }

  lemma CachedAtGrows(db: Db, db': Db, key: (int, int), id: nat)
    requires db.stints <= db'.stints && CachedAt(db, key, id)
    ensures CachedAt(db', key, id)
  {
    assert db'.stints[id - 1] == db.stints[id - 1];
  }

  /** Caching the id of a stint under its own key, over a table that only
      grew, keeps the cache sound. */
  lemma CacheAdd(db: Db, db': Db, cache: StintCache, id: nat)
    requires db.stints <= db'.stints
    requires ValidId(id, |db'.stints|)
    ensures var st := db'.stints[id - 1];
      CacheSound(db, cache) ==> CacheSound(db', cache[StintKey(st) := id])
  {
    if !CacheSound(db, cache) {
      return;
    }
    var st := db'.stints[id - 1];
    var k0 := StintKey(st);
    var cache' := cache[k0 := id];
    forall key | key in cache'
      ensures CachedAt(db', key, cache'[key])
    {
      if key != k0 {
        CachedAtGrows(db, db', key, cache[key]);
      }
    }
  }

  /** `get_or_create_stint`: a cache hit returns without touching the
      database; otherwise the usual get-or-create on (session driver, stint
      number), then the id is cached. */
  function GetOrCreateStint(db: Db, cache: StintCache, l: LapsEntry, sessionDriverId: int)
    : (r: Result<(Db, StintCache, nat), Failure>)
    ensures (sessionDriverId, StintNumber(l)) in cache ==>
      r == Ok((db, cache, cache[(sessionDriverId, StintNumber(l))]))
    ensures r.Ok? ==>
      r.value.1 == cache[(sessionDriverId, StintNumber(l)) := r.value.2] &&
      r.value.0 == db.(stints := r.value.0.stints) && db.stints <= r.value.0.stints && |r.value.0.stints| <= |db.stints| + 1
    ensures r.Ok? && CacheSound(db, cache) ==>
      CacheSound(r.value.0, r.value.1) &&
      ValidId(r.value.2, |r.value.0.stints|) && StintKey(r.value.0.stints[r.value.2 - 1]) == (sessionDriverId, StintNumber(l))
  {
    var n := StintNumber(l);
    var key := (sessionDriverId, n);
    if key in cache then
      Ok((db, cache, cache[key]))
    else
      var made := Stint(sessionDriverId, l.compound, n, IntOrNone(l.tyreLife));
      var p :- GetOrCreate(db.stints, StintKey, (sessionDriverId, n), Ok(made), (st: Stint) => Admissible(db, StintRow(st)));
      var db' := db.(stints := p.0);
      CacheAdd(db, db', cache, p.1);
      Ok((db', cache[key := p.1], p.1))
  }

  /** `int(LapNumber) if pd.notna(LapNumber) else None`. */
  function LapNumber(l: LapsEntry): Option<int> {
    IntOrNone(l.lapNumber)
  }

  /** The row `create_lap` stores: every time through `parse_lap_time`, and
      a pit-out flag that is false when the column is missing. */
  function NewLap(l: LapsEntry, stintId: int, lapNumber: int, floatOf: string -> Option<real>): Lap {
    Lap(stintId, lapNumber,
        ParseLapTime(l.sector1, floatOf), ParseLapTime(l.sector2, floatOf), ParseLapTime(l.sector3, floatOf),
        l.pitOut.GetOr(false),
        ParseLapTime(l.lapTime, floatOf))
  }

  /** `create_lap`: nothing for a missing or zero lap number, so no stored lap
      has a falsy number. */
  function CreateLap(db: Db, l: LapsEntry, stintId: int, floatOf: string -> Option<real>): (r: Result<Db, Failure>)
    ensures LapNumber(l).None? || LapNumber(l) == Some(0) ==> r == Ok(db)
    ensures r.Ok? && r.value != db ==>
      LapNumber(l).Some? && LapNumber(l).value != 0 &&
      r.value == Append(db, LapRow(NewLap(l, stintId, LapNumber(l).value, floatOf)))
    ensures r.Ok? ==> r.value == db.(laps := r.value.laps) && db.laps <= r.value.laps
    ensures r.Err? ==> !ValidId(stintId, |db.stints|)
  {
    match LapNumber(l)
    case None => Ok(db)
    case Some(n) =>
      if n == 0 then Ok(db) else Insert(db, LapRow(NewLap(l, stintId, n, floatOf)))
  }

  /** The driver number of a laps row, as `process_lap_data` reads it. */
  function LapDriver(l: LapsEntry): Result<Option<int>, Failure> {
    if l.driverNumber.None? then Ok(None)
    else
      var n :- IntOfCell(l.driverNumber);
      Ok(Some(n))
  }

  /** Where a run over the laps of a session stopped. */
  datatype LapProgress = LapProgress(db: Db, cache: StintCache, failure: Option<Failure>)

  /** Only the stint and lap tables differ, and both only grew. */
  ghost predicate LapTablesOnly(db: Db, db': Db) {
    db' == db.(stints := db'.stints, laps := db'.laps) && db.stints <= db'.stints && db.laps <= db'.laps
  }

  lemma CacheSoundGrows(db: Db, db': Db, cache: StintCache)
    requires db.stints <= db'.stints
    ensures CacheSound(db, cache) ==> CacheSound(db', cache)
  {
    if CacheSound(db, cache) {
      forall key | key in cache ensures CachedAt(db', key, cache[key]) {
        CachedAtGrows(db, db', key, cache[key]);
      }
    }
  }

  lemma LapTablesExtend(db: Db, db': Db)
    requires LapTablesOnly(db, db')
    ensures Extends(db, db') && db'.results == db.results
  {
  }

  /** Whether `process_lap_data` skips a lap: its driver number is missing,
      zero, or not among the drivers the results named. */
  predicate SkipsLap(num: Option<int>, sds: map<int, nat>) {
    num.None? || num.value == 0 || num.value !in sds
  }

  /** One lap of `process_lap_data`: its stint through the cache, then the
      lap itself. */
  function LapStep(db: Db, sds: map<int, nat>, l: LapsEntry, cache: StintCache,
                   floatOf: string -> Option<real>): (p: LapProgress)
    ensures LapTablesOnly(db, p.db)
    ensures CacheSound(db, cache) ==> CacheSound(p.db, p.cache)
    ensures LapDriver(l).Ok? && SkipsLap(LapDriver(l).value, sds) ==> p == LapProgress(db, cache, None)
    ensures LapDriver(l).Err? ==> p == LapProgress(db, cache, Some(ValueError))
  {
    match LapDriver(l)
    case Err(f) => LapProgress(db, cache, Some(f))
    case Ok(num) =>
      if SkipsLap(num, sds) then LapProgress(db, cache, None)
      else
        match GetOrCreateStint(db, cache, l, sds[num.value])
        case Err(f) => LapProgress(db, cache, Some(f))
        case Ok(s) =>
          match CreateLap(s.0, l, s.2, floatOf)
          case Err(f) => LapProgress(s.0, s.1, Some(f))
          case Ok(db') =>
            CacheSoundGrows(s.0, db', s.1);
            LapProgress(db', s.1, None)
  }

  /** The loop of `process_lap_data`; the first exception stops it. */
  function ProcessLaps(db: Db, sds: map<int, nat>, laps: seq<LapsEntry>, cache: StintCache,
                       floatOf: string -> Option<real>): (p: LapProgress)
    ensures LapTablesOnly(db, p.db)
    ensures CacheSound(db, cache) ==> CacheSound(p.db, p.cache)
    decreases |laps|
  {
    if laps == [] then LapProgress(db, cache, None)
    else
      var step := LapStep(db, sds, laps[0], cache, floatOf);
      if step.failure.Some? then step
      else ProcessLaps(step.db, sds, laps[1..], step.cache, floatOf)
  }

  /** Laps of drivers the results never named leave the database alone. */
  lemma {:induction false} UnknownDriversSkipped(db: Db, sds: map<int, nat>, laps: seq<LapsEntry>,
                                                 cache: StintCache, floatOf: string -> Option<real>)
    requires forall k :: 0 <= k < |laps| ==> LapDriver(laps[k]).Ok? && SkipsLap(LapDriver(laps[k]).value, sds)
    ensures ProcessLaps(db, sds, laps, cache, floatOf) == LapProgress(db, cache, None)
    decreases |laps|
  {
    if laps != [] {
      assert LapDriver(laps[0]).Ok?;
      UnknownDriversSkipped(db, sds, laps[1..], cache, floatOf);
    }
  }

  // ---------------------------------------------------------------------------
  // One session: its results, then its laps

  /** Every driver number of a session maps to a stored session driver. */
  ghost predicate DriversStored(db: Db, sds: map<int, nat>) {
    forall n :: n in sds ==> ValidId(sds[n], |db.sessionDrivers|)
  }

  /** Whether a session of this type stores starting-grid rows. */
  predicate StoresGrid(identifier: string) {
    identifier == "Q" || identifier == "R"
  }

  /** Whether a session of this type stores points rows. */
  predicate StoresPoints(identifier: string) {
    identifier == "R" || identifier == "S"
  }

  /** Where a run over the results of a session stopped: the database, the
      driver-number map `session_driver_objects`, and the exception, if any. */
  datatype Progress = Progress(db: Db, sds: map<int, nat>, failure: Option<Failure>)

  /** What a step left behind: the database, with everything it flushed, and
      the exception, if any. */
  datatype Outcome = Outcome(db: Db, failure: Option<Failure>)

  /** The grid row of one results row, written for qualifying and races. */
  function GridStep(db: Db, e: ResultsEntry, sessionDriverId: int, identifier: string,
                    floatOf: string -> Option<real>): (r: Result<Db, Failure>)
    ensures !StoresGrid(identifier) ==> r == Ok(db)
    ensures StoresGrid(identifier) ==> r == CreateStartGrid(db, e, sessionDriverId, floatOf)
    ensures r.Ok? ==> Extends(db, r.value) && r.value == db.(grids := r.value.grids)
  {
    if StoresGrid(identifier) then
      var r := CreateStartGrid(db, e, sessionDriverId, floatOf);
      if r.Ok? && e.gridPosition.Some? then
        AppendExtends(db, GridRow(StartGrid(sessionDriverId, Trunc(e.gridPosition.value), QualyTime(e, floatOf))));
        r
      else
        r
    else
      Ok(db)
  }

  /** The points row of one results row, written for races and sprints. */
  function PointsStep(db: Db, e: ResultsEntry, resultId: int, identifier: string): (r: Result<Db, Failure>)
    ensures !StoresPoints(identifier) ==> r == Ok(db)
    ensures StoresPoints(identifier) ==> r == CreatePointsScored(db, e, resultId)
    ensures r.Ok? ==> Extends(db, r.value) && r.value == db.(points := r.value.points)
  {
    if StoresPoints(identifier) then
      var r := CreatePointsScored(db, e, resultId);
      if r.Ok? && PointsOf(e).Some? then
        var flag := FastestLapPoint(!e.fastestLap.Missing?, IntOrNone(e.position), PointsOf(e).value);
        AppendExtends(db, PointsRow(PointsScored(resultId, PointsOf(e).value, IntOrNone(e.position), flag.value)));
        r
      else
        r
    else
      Ok(db)
  }

  /** The grid and points rows of one results row, by session type.  A
      failing points row leaves the grid row added before it in the session,
      which the commit keeps. */
  function EntryExtras(db: Db, e: ResultsEntry, sessionDriverId: int, resultId: int, identifier: string,
                       floatOf: string -> Option<real>): (o: Outcome)
    ensures Extends(db, o.db)
    ensures o.db == db.(grids := o.db.grids, points := o.db.points)
    ensures !StoresGrid(identifier) ==> o.db.grids == db.grids
    ensures !StoresPoints(identifier) ==> o.db.points == db.points
    ensures StoresGrid(identifier) && CreateStartGrid(db, e, sessionDriverId, floatOf).Ok? ==>
      o.db.grids == CreateStartGrid(db, e, sessionDriverId, floatOf).value.grids
  {
    match GridStep(db, e, sessionDriverId, identifier, floatOf)
    case Err(f) => Outcome(db, Some(f))
    case Ok(db1) =>
      match PointsStep(db1, e, resultId, identifier)
      case Err(f) => Outcome(db1, Some(f))
      case Ok(db2) =>
        ExtendsTrans(db, db1, db2);
        Outcome(db2, None)
  }

  lemma DriversStoredGrows(db: Db, db': Db, sds: map<int, nat>, n: int, id: nat)
    requires |db.sessionDrivers| <= |db'.sessionDrivers| && ValidId(id, |db'.sessionDrivers|)
    ensures DriversStored(db, sds) ==> DriversStored(db', sds[n := id])
  {
  }

  /** The driver and session-driver rows of one results row, with the store
      they leave behind: a driver found and refined stays refined when the
      session-driver step then fails. */
  function EntrySessionDriver(db: Db, e: ResultsEntry, sessionId: int): (r: (Db, Result<nat, Failure>))
    ensures Extends(db, r.0)
    ensures r.0 == db.(drivers := r.0.drivers, sessionDrivers := r.0.sessionDrivers)
    ensures r.1.Ok? ==> ValidId(r.1.value, |r.0.sessionDrivers|)
    ensures GetOrCreateDriver(db, e).Err? ==> r == (db, Err(GetOrCreateDriver(db, e).error))
    ensures GetOrCreateDriver(db, e).Ok? ==> r.0.drivers == GetOrCreateDriver(db, e).value.0.drivers
  {
    match GetOrCreateDriver(db, e)
    case Err(f) => (db, Err(f))
    case Ok(d) =>
      match GetOrCreateSessionDriver(d.0, d.1, sessionId)
      case Err(f) => (d.0, Err(f))
      case Ok(sd) =>
        AppendExtends(d.0, SessionDriverRow(SessionDriver(d.1, sessionId)));
        ExtendsTrans(db, d.0, sd.0);
        (sd.0, Ok(sd.1))
  }

  /** The result row of one results row, then its grid and points rows.  The
      result is flushed before anything else can fail, so it stays in the
      session whatever follows. */
  function EntryRows(db: Db, e: ResultsEntry, sessionDriverId: int, identifier: string,
                     floatOf: string -> Option<real>): (o: Outcome)
    ensures Extends(db, o.db) && o.db.sessionDrivers == db.sessionDrivers
    ensures !ValidId(sessionDriverId, |db.sessionDrivers|) ==> o.db == db && o.failure.Some?
    ensures ValidId(sessionDriverId, |db.sessionDrivers|) ==>
      |o.db.results| == |db.results| + 1 && o.db.results[|db.results|] == NewResult(e, sessionDriverId, floatOf)
    ensures !StoresGrid(identifier) ==> o.db.grids == db.grids
    ensures !StoresPoints(identifier) ==> o.db.points == db.points
  {
    match CreateSessionResult(db, e, sessionDriverId, floatOf)
    case Err(f) => Outcome(db, Some(f))
    case Ok(res) =>
      var db1 := res.0;
      assert db1 == Append(db, ResultRow(NewResult(e, sessionDriverId, floatOf)));
      AppendExtends(db, ResultRow(NewResult(e, sessionDriverId, floatOf)));
      var o := EntryExtras(db1, e, sessionDriverId, res.1, identifier, floatOf);
      assert o.db.results == db1.results && o.db.sessionDrivers == db1.sessionDrivers;
      ExtendsTrans(db, db1, o.db);
      o
  }

  /** The rest of one results row once its session driver is stored: the
      `int(DriverNumber)` key of `session_driver_objects`, then the rows. */
  function EntryRecord(db: Db, sds: map<int, nat>, e: ResultsEntry, sessionDriverId: nat, identifier: string,
                       floatOf: string -> Option<real>): (p: Progress)
    requires ValidId(sessionDriverId, |db.sessionDrivers|)
    ensures Extends(db, p.db)
    ensures DriversStored(db, sds) ==> DriversStored(p.db, p.sds)
    ensures p.failure.None? ==>
      IntOfCell(e.driverNumber).Ok? && p.sds.Keys == sds.Keys + {IntOfCell(e.driverNumber).value} &&
      |p.db.results| == |db.results| + 1
    ensures IntOfCell(e.driverNumber).Ok? ==> |p.db.results| == |db.results| + 1
    ensures IntOfCell(e.driverNumber).Err? ==> p == Progress(db, sds, Some(ValueError))
    ensures !StoresGrid(identifier) ==> p.db.grids == db.grids
    ensures !StoresPoints(identifier) ==> p.db.points == db.points
  {
    match IntOfCell(e.driverNumber)
    case Err(f) => Progress(db, sds, Some(f))
    case Ok(n) =>
      var sds' := sds[n := sessionDriverId];
      assert sds'.Keys == sds.Keys + {n};
      DriversStoredGrows(db, db, sds, n, sessionDriverId);
      RecordRows(db, sds', e, sessionDriverId, identifier, floatOf)
  }

  /** The rows of one results row, with its driver number already recorded;
      whatever they flushed before a failure is carried on. */
  function RecordRows(db: Db, sds: map<int, nat>, e: ResultsEntry, sessionDriverId: nat, identifier: string,
                      floatOf: string -> Option<real>): (p: Progress)
    ensures Extends(db, p.db) && p.sds == sds
    ensures DriversStored(db, sds) ==> DriversStored(p.db, sds)
    ensures ValidId(sessionDriverId, |db.sessionDrivers|) ==>
      |p.db.results| == |db.results| + 1 && p.db.results[|db.results|] == NewResult(e, sessionDriverId, floatOf)
    ensures !StoresGrid(identifier) ==> p.db.grids == db.grids
    ensures !StoresPoints(identifier) ==> p.db.points == db.points
  {
    var o := EntryRows(db, e, sessionDriverId, identifier, floatOf);
    Progress(o.db, sds, o.failure)
  }

  /** A race row whose points lookup raises IndexError (FastestLap present,
      position -10) still leaves its result row and its grid row behind. */
  lemma IndexErrorKeepsRows(db: Db, sds: map<int, nat>, e: ResultsEntry, sessionDriverId: nat,
                            floatOf: string -> Option<real>)
    requires ValidId(sessionDriverId, |db.sessionDrivers|)
    requires !e.fastestLap.Missing? && e.position == Some(-10.0) && e.points == Present(30.0)
    requires e.gridPosition.Some?
    ensures var p := RecordRows(db, sds, e, sessionDriverId, "R", floatOf);
      p.failure == Some(IndexError) &&
      |p.db.results| == |db.results| + 1 && |p.db.grids| == |db.grids| + 1 && p.db.points == db.points
  {
    assert Trunc(-10.0) == -10;
    FastestLapNegativePosition();
    var db1 := CreateSessionResult(db, e, sessionDriverId, floatOf).value.0;
    assert |db1.results| == |db.results| + 1 && db1.sessionDrivers == db.sessionDrivers;
    var db2 := GridStep(db1, e, sessionDriverId, "R", floatOf).value;
    assert |db2.grids| == |db.grids| + 1 && db2.points == db.points;
    assert PointsStep(db2, e, |db.results| + 1, "R") == Err(IndexError);
  }

  /** One results row of `process_session_data`: driver, session driver,
      the `int(DriverNumber)` key of `session_driver_objects`, the result,
      then grid and points by session type. */
  function ImportEntry(db: Db, sds: map<int, nat>, e: ResultsEntry, sessionId: int, identifier: string,
                       floatOf: string -> Option<real>): (p: Progress)
    ensures Extends(db, p.db)
    ensures DriversStored(db, sds) ==> DriversStored(p.db, p.sds)
    ensures p.failure.None? ==>
      IntOfCell(e.driverNumber).Ok? && p.sds.Keys == sds.Keys + {IntOfCell(e.driverNumber).value} &&
      |p.db.results| == |db.results| + 1
    ensures !StoresGrid(identifier) ==> p.db.grids == db.grids
    ensures !StoresPoints(identifier) ==> p.db.points == db.points
  {
    var sd := EntrySessionDriver(db, e, sessionId);
    match sd.1
    case Err(f) => Progress(sd.0, sds, Some(f))
    case Ok(id) =>
      assert sd.0.results == db.results && sd.0.grids == db.grids && sd.0.points == db.points;
      var p := EntryRecord(sd.0, sds, e, id, identifier, floatOf);
      ExtendsTrans(db, sd.0, p.db);
      p
  }

  /** The results loop of `process_session_data`; the first exception stops
      it. */
  function ProcessResults(db: Db, sds: map<int, nat>, entries: seq<ResultsEntry>, sessionId: int, identifier: string,
                          floatOf: string -> Option<real>): (p: Progress)
    ensures Extends(db, p.db)
    ensures DriversStored(db, sds) ==> DriversStored(p.db, p.sds)
    ensures p.failure.None? ==> |p.db.results| == |db.results| + |entries|
    ensures !StoresGrid(identifier) ==> p.db.grids == db.grids
    ensures !StoresPoints(identifier) ==> p.db.points == db.points
    decreases |entries|
  {
    if entries == [] then Progress(db, sds, None)
    else
      var step := ImportEntry(db, sds, entries[0], sessionId, identifier, floatOf);
      if step.failure.Some? then step
      else
        var rest := ProcessResults(step.db, step.sds, entries[1..], sessionId, identifier, floatOf);
        ExtendsTrans(db, step.db, rest.db);
        rest
  }

  /** One pass of the loop of `process_event_sessions`: a session that does
      not load is skipped with its exception, one with no results is skipped
      silently; otherwise the session row, its results, then its laps. */
  function ImportSession(db: Db, meetingId: int, identifier: string, load: SessionLoad,
                         floatOf: string -> Option<real>): (o: Outcome)
    ensures Extends(db, o.db)
    ensures load.LoadFailed? ==> o == Outcome(db, Some(LoadError))
    ensures load.Loaded? && load.results == [] ==> o == Outcome(db, None)
    ensures o.failure.None? && load.Loaded? ==> |o.db.results| == |db.results| + |load.results|
  {
    match load
    case LoadFailed => Outcome(db, Some(LoadError))
    case Loaded(results, laps, sessionKey) =>
      if results == [] then Outcome(db, None)
      else
        match GetOrCreateSession(db, meetingId, identifier, sessionKey)
        case Err(f) => Outcome(db, Some(f))
        case Ok(s) =>
          SessionExtends(db, meetingId, identifier, sessionKey);
          var o := SessionData(s.0, s.1, identifier, results, laps, floatOf);
          ExtendsTrans(db, s.0, o.db);
          o
  }

  lemma SessionExtends(db: Db, meetingId: int, identifier: string, sessionKey: int)
    ensures var r := GetOrCreateSession(db, meetingId, identifier, sessionKey);
      r.Ok? ==> Extends(db, r.value.0) && r.value.0.results == db.results
  {
    AppendExtends(db, SessionRow(Session(meetingId, SessionName(identifier), identifier, sessionKey)));
  }

  /** `process_session_data` once the session row is stored: its results,
      then, when they all went in, its laps. */
  function SessionData(db: Db, sessionId: int, identifier: string, results: seq<ResultsEntry>, laps: seq<LapsEntry>,
                       floatOf: string -> Option<real>): (o: Outcome)
    ensures Extends(db, o.db)
    ensures o.failure.None? ==> |o.db.results| == |db.results| + |results|
  {
    var p := ProcessResults(db, map[], results, sessionId, identifier, floatOf);
    if p.failure.Some? then Outcome(p.db, p.failure)
    else
      var lp := ProcessLaps(p.db, p.sds, laps, map[], floatOf);
      LapTablesExtend(p.db, lp.db);
      ExtendsTrans(db, p.db, lp.db);
      Outcome(lp.db, lp.failure)
  }

  /** The session identifiers `process_event_sessions` tries, in order. */
  const SessionIdentifiers: seq<string> := ["FP1", "FP2", "FP3", "Q", "SQ", "S", "R"]

  /** The load of one session of an event; a session the schedule does not
      have fails to load. */
  function LoadOf(event: Event, identifier: string): SessionLoad {
    if identifier in event.sessions then event.sessions[identifier] else LoadFailed
  }

  /** The loop of `process_event_sessions`.  A data error skips the rest of
      that session and keeps its rows; a storage error leaves the database
      session unusable, so every later statement and the commit raise, and
      the event fails with it. */
  function ImportSessions(db: Db, meetingId: int, event: Event, identifiers: seq<string>,
                          floatOf: string -> Option<real>): (r: Result<Db, Failure>)
    ensures r.Ok? ==> Extends(db, r.value)
    ensures r.Err? ==> IsStorage(r.error)
    decreases |identifiers|
  {
    if identifiers == [] then Ok(db)
    else
      var o := ImportSession(db, meetingId, identifiers[0], LoadOf(event, identifiers[0]), floatOf);
      if o.failure.Some? && IsStorage(o.failure.value) then Err(o.failure.value)
      else
        var rest := ImportSessions(o.db, meetingId, event, identifiers[1..], floatOf);
        if rest.Ok? then ExtendsTrans(db, o.db, rest.value); rest else rest
  }

  /** An event none of whose sessions load changes nothing. */
  lemma {:induction false} NoSessionsLoaded(db: Db, meetingId: int, event: Event, identifiers: seq<string>,
                                            floatOf: string -> Option<real>)
    requires event.sessions == map[]
    ensures ImportSessions(db, meetingId, event, identifiers, floatOf) == Ok(db)
    decreases |identifiers|
  {
    if identifiers != [] {
      NoSessionsLoaded(db, meetingId, event, identifiers[1..], floatOf);
    }
  }

  // ---------------------------------------------------------------------------
  // Events and the season transaction

  /** The work of one dated event inside the `try` of `import_season`: its
      meeting, then its sessions. */
  function EventWork(db: Db, seasonId: int, event: Event, nameOf: string -> string,
                     floatOf: string -> Option<real>): (r: Result<Db, Failure>)
    ensures r.Ok? ==> Extends(db, r.value)
    ensures event.roundNumber.None? ==> r == Err(ValueError)
    ensures event.roundNumber.Some? && !ValidId(seasonId, |db.seasons|) &&
      (forall i :: 0 <= i < |db.meetings| ==> MeetingKey(db.meetings[i]) != (event.roundNumber.value, seasonId))
      ==> r == Err(IntegrityError)
  {
    var m :- GetOrCreateMeeting(db, event, seasonId, nameOf);
    AppendExtends(db, MeetingRow(NewMeeting(event, seasonId, event.roundNumber.value, nameOf)));
    var db' :- ImportSessions(m.0, m.1, event, SessionIdentifiers, floatOf);
    ExtendsTrans(db, m.0, db');
    Ok(db')
  }

  /** The database transaction of `import_season`: what is committed, and
      what the open session sees (committed rows plus flushed ones). */
  datatype Tx = Tx(committed: Db, working: Db)

  /** The open session only ever adds to what is committed. */
  ghost predicate TxSound(tx: Tx) {
    Extends(tx.committed, tx.working)
  }

  /** One event of the loop of `import_season`: skipped without a date;
      otherwise committed when its work succeeds and rolled back, to the
      last commit, when it raises. */
  function ImportEvent(tx: Tx, seasonId: int, event: Event, nameOf: string -> string,
                       floatOf: string -> Option<real>): (t: Tx)
    ensures event.date.None? ==> t == tx
    ensures event.date.Some? ==> t.committed == t.working
    ensures event.date.Some? && EventWork(tx.working, seasonId, event, nameOf, floatOf).Err? ==>
      t.committed == tx.committed
    ensures TxSound(tx) ==> TxSound(t) && Extends(tx.committed, t.committed)
  {
    if event.date.None? then tx
    else
      match EventWork(tx.working, seasonId, event, nameOf, floatOf)
      case Ok(db) =>
        ExtendsTx(tx, db);
        Tx(db, db)
      case Err(_) =>
        ExtendsRefl(tx.committed);
        Tx(tx.committed, tx.committed)
  }

  lemma ExtendsTx(tx: Tx, db: Db)
    requires Extends(tx.working, db)
    ensures TxSound(tx) ==> TxSound(Tx(db, db)) && Extends(tx.committed, db)
  {
    ExtendsRefl(db);
    if TxSound(tx) {
      ExtendsTrans(tx.committed, tx.working, db);
    }
  }

  /** The loop of `import_season` over the event schedule. */
  function ImportEvents(tx: Tx, seasonId: int, events: seq<Event>, nameOf: string -> string,
                        floatOf: string -> Option<real>): (t: Tx)
    ensures TxSound(tx) ==> TxSound(t) && Extends(tx.committed, t.committed)
    decreases |events|
  {
    if events == [] then tx
    else
      var t1 := ImportEvent(tx, seasonId, events[0], nameOf, floatOf);
      var t := ImportEvents(t1, seasonId, events[1..], nameOf, floatOf);
      TxChain(tx, t1, t);
      t
  }

  lemma TxChain(tx: Tx, t1: Tx, t: Tx)
    requires TxSound(tx) ==> TxSound(t1) && Extends(tx.committed, t1.committed)
    requires TxSound(t1) ==> TxSound(t) && Extends(t1.committed, t.committed)
    ensures TxSound(tx) ==> TxSound(t) && Extends(tx.committed, t.committed)
  {
    if TxSound(tx) {
      ExtendsTrans(tx.committed, t1.committed, t.committed);
    }
  }

  /** `import_season` as written: the season is flushed but not committed, so
      the first rollback removes it; what is left committed when the session
      closes is the result.  Only a lookup that finds two seasons raises. */
  function ImportSeasonAsWritten(db: Db, year: int, events: seq<Event>, nameOf: string -> string,
                                 floatOf: string -> Option<real>): (r: Result<Db, Failure>)
    ensures Consistent(db) ==> r.Ok?
    ensures r.Ok? ==> Extends(db, r.value)
  {
    SeasonKeepsConsistent(db, year);
    var s :- GetOrCreateSeason(db, year);
    AppendExtends(db, SeasonRow(Season(year)));
    Ok(ImportEvents(Tx(db, s.0), s.1, events, nameOf, floatOf).committed)
  }

  /** `import_season` with the season committed before the first event, so a
      failing event rolls back only its own rows. */
  function ImportSeason(db: Db, year: int, events: seq<Event>, nameOf: string -> string,
                        floatOf: string -> Option<real>): (r: Result<Db, Failure>)
    ensures Consistent(db) ==> r.Ok?
    ensures r.Ok? ==> Extends(db, r.value)
    ensures r.Ok? ==> exists i :: 0 <= i < |r.value.seasons| && r.value.seasons[i].year == year
  {
    SeasonKeepsConsistent(db, year);
    var s :- GetOrCreateSeason(db, year);
    AppendExtends(db, SeasonRow(Season(year)));
    var final := ImportEvents(Tx(s.0, s.0), s.1, events, nameOf, floatOf).committed;
    ExtendsTrans(db, s.0, final);
    assert final.seasons[s.1 - 1] == s.0.seasons[s.1 - 1];
    Ok(final)
  }

  /** With the season committed first, a failing event is as if it were not
      in the schedule. */
  lemma FailedEventInvisible(c: Db, seasonId: int, bad: Event, rest: seq<Event>, nameOf: string -> string,
                             floatOf: string -> Option<real>)
    requires bad.date.Some? && EventWork(c, seasonId, bad, nameOf, floatOf).Err?
    ensures ImportEvents(Tx(c, c), seasonId, [bad] + rest, nameOf, floatOf) ==
            ImportEvents(Tx(c, c), seasonId, rest, nameOf, floatOf)
  {
    assert ([bad] + rest)[1..] == rest;
  }

  /** After the season has been rolled back, no event can store anything:
      each one either has no round or breaks the season foreign key. */
  lemma {:induction false} NothingAfterSeasonLost(db: Db, events: seq<Event>, nameOf: string -> string,
                                                  floatOf: string -> Option<real>)
    requires Consistent(db)
    ensures ImportEvents(Tx(db, db), |db.seasons| + 1, events, nameOf, floatOf) == Tx(db, db)
    decreases |events|
  {
    if events != [] {
      var ev := events[0];
      if ev.date.Some? {
        if ev.roundNumber.Some? {
          forall i | 0 <= i < |db.meetings|
            ensures MeetingKey(db.meetings[i]) != (ev.roundNumber.value, |db.seasons| + 1)
          {
            assert ValidId(db.meetings[i].seasonId, |db.seasons|);
          }
        }
        assert EventWork(db, |db.seasons| + 1, ev, nameOf, floatOf).Err?;
      }
      NothingAfterSeasonLost(db, events[1..], nameOf, floatOf);
    }
  }

  /** As written, when the season is new and the first dated event fails,
      the whole import commits nothing: the season goes with the rollback,
      and every later meeting refers to it. */
  lemma SeasonRollbackAsWritten(db: Db, year: int, events: seq<Event>, nameOf: string -> string,
                                floatOf: string -> Option<real>)
    requires Consistent(db)
    requires forall i :: 0 <= i < |db.seasons| ==> db.seasons[i].year != year
    requires |events| > 0 && events[0].date.Some?
    requires EventWork(Append(db, SeasonRow(Season(year))), |db.seasons| + 1, events[0], nameOf, floatOf).Err?
    ensures ImportSeasonAsWritten(db, year, events, nameOf, floatOf) == Ok(db)
  {
    var w := Append(db, SeasonRow(Season(year)));
    assert Admissible(db, SeasonRow(Season(year)));
    assert Lookup(db.seasons, SeasonYear, year) == Ok(None);
    assert GetOrCreateSeason(db, year) == Ok((w, |db.seasons| + 1));
    assert ImportEvent(Tx(db, w), |db.seasons| + 1, events[0], nameOf, floatOf) == Tx(db, db);
    NothingAfterSeasonLost(db, events[1..], nameOf, floatOf);
  }

  /** A schedule whose first dated event has no round (so it raises) and
      whose second is well formed, none of whose sessions load. */
  const BadEvent := Event(Some(1), None, "A", None, None, map[])
  const GoodEvent := Event(Some(2), Some(1), "B", None, None, map[])

  /** On an empty database, the import as written commits nothing for that
      schedule, not even the season. */
  lemma SeasonRollbackExample(nameOf: string -> string, floatOf: string -> Option<real>)
    ensures ImportSeasonAsWritten(Empty, 2024, [BadEvent, GoodEvent], nameOf, floatOf) == Ok(Empty)
  {
    SeasonRollbackAsWritten(Empty, 2024, [BadEvent, GoodEvent], nameOf, floatOf);
  }

  /** The season table holding only the 2024 season. */
  const SeasonOnly := Append(Empty, SeasonRow(Season(2024)))

  lemma GoodEventStored(nameOf: string -> string, floatOf: string -> Option<real>)
    ensures EventWork(SeasonOnly, 1, GoodEvent, nameOf, floatOf) ==
            Ok(SeasonOnly.(meetings := [NewMeeting(GoodEvent, 1, 1, nameOf)]))
  {
    var m := NewMeeting(GoodEvent, 1, 1, nameOf);
    var w' := SeasonOnly.(meetings := [m]);
    assert SeasonOnly.meetings == [] && |SeasonOnly.seasons| == 1;
    assert Admissible(SeasonOnly, MeetingRow(m));
    assert SeasonOnly.meetings + [m] == [m];
    assert GetOrCreateMeeting(SeasonOnly, GoodEvent, 1, nameOf) == Ok((w', 1));
    NoSessionsLoaded(w', 1, GoodEvent, SessionIdentifiers, floatOf);
  }

  /** The corrected import of the same schedule keeps the season and the
      meeting of the second event. */
  lemma SeasonKeptExample(nameOf: string -> string, floatOf: string -> Option<real>)
    ensures var r := ImportSeason(Empty, 2024, [BadEvent, GoodEvent], nameOf, floatOf);
      r.Ok? && |r.value.seasons| == 1 && |r.value.meetings| == 1
  {
    var w := SeasonOnly;
    assert GetOrCreateSeason(Empty, 2024) == Ok((w, 1));
    FailedEventInvisible(w, 1, BadEvent, [GoodEvent], nameOf, floatOf);
    GoodEventStored(nameOf, floatOf);
    var w' := w.(meetings := [NewMeeting(GoodEvent, 1, 1, nameOf)]);
    assert ImportEvents(Tx(w, w), 1, [GoodEvent], nameOf, floatOf) == Tx(w', w');
  }
}

=== FILE: normalise.dfy ===
/** The pure normalisers of the ingestion pipeline: meeting standard names,
    lap-time parsing, result-status flags, the fastest-lap bonus rule
    (backend/create_db_v2.py) and GMT-offset parsing (backend/create_db.py). */
module Normalise {

  import opened Wrappers
  import opened Text
  import opened Failures

  // ---------------------------------------------------------------------------
  // Meeting standard names

  /** Sponsor tokens in the order they are removed (create_db_v2.py:110-115). */
  const SponsorsAsWritten: seq<string> := [
    "FORMULA 1", "ARAMCO", "GULF AIR", "STC", "ROLEX", "MSC CRUISES",
    "LENOVO", "CRYPTO.COM", "TAG HEUER", "PIRELLI", "AWS", "QATAR AIRWAYS",
    "MOËT & CHANDON", "HEINEKEN", "SINGAPORE AIRLINES", "ETIHAD AIRWAYS",
    "LOUIS VUITTON", "HEINEKEN SILVER"
  ]

  /** The same tokens with "HEINEKEN SILVER" moved before "HEINEKEN", so that
      the longer token is still intact when its turn comes. */
  const Sponsors: seq<string> := [
    "FORMULA 1", "ARAMCO", "GULF AIR", "STC", "ROLEX", "MSC CRUISES",
    "LENOVO", "CRYPTO.COM", "TAG HEUER", "PIRELLI", "AWS", "QATAR AIRWAYS",
    "MOËT & CHANDON", "HEINEKEN SILVER", "HEINEKEN", "SINGAPORE AIRLINES",
    "ETIHAD AIRWAYS", "LOUIS VUITTON"
  ]

  /** Special-case keys and their overrides, in dictionary order
      (create_db_v2.py:123-132). */
  const SpecialCases: seq<(string, string)> := [
    ("EMILIA", "EMILIA-ROMAGNA GRAND PRIX"),
    ("SÃO PAULO", "SAO PAULO GRAND PRIX"),
    ("SAO PAULO", "SAO PAULO GRAND PRIX"),
    ("CIUDAD DE MÉXICO", "MEXICAN GRAND PRIX"),
    ("MEXICO", "MEXICAN GRAND PRIX"),
    ("ESPAÑA", "SPANISH GRAND PRIX"),
    ("ÖSTERREICH", "AUSTRIAN GRAND PRIX"),
    ("ITALIA", "ITALIAN GRAND PRIX")
  ]

  ghost predicate NonEmptyTokens(tokens: seq<string>) {
    forall k :: 0 <= k < |tokens| ==> tokens[k] != []
  }

  /** `name.replace(sponsor, '').strip()`. */
  function RemoveOne(name: string, sponsor: string): (r: string)
    requires sponsor != []
    ensures |r| <= |name|
  {
    Strip(ReplaceAll(name, sponsor, []))
  }

  /** `for sponsor in sponsors[from..]: name = name.replace(sponsor, '').strip()`. */
  function RemoveFrom(name: string, sponsors: seq<string>, from: nat): (r: string)
    requires NonEmptyTokens(sponsors) && from <= |sponsors|
    ensures |r| <= |name|
    decreases |sponsors| - from
  {
    if from == |sponsors| then name
    else RemoveFrom(RemoveOne(name, sponsors[from]), sponsors, from + 1)
  }

  function RemoveSponsors(name: string, sponsors: seq<string>): (r: string)
    requires NonEmptyTokens(sponsors)
    ensures |r| <= |name|
  {
    RemoveFrom(name, sponsors, 0)
  }

  /** The index of the first special-case key that occurs in `name`, or
      `|cases|` when none does. */
  function FirstCase(name: string, cases: seq<(string, string)>, from: nat): (k: nat)
    requires from <= |cases|
    ensures from <= k <= |cases|
    ensures forall j :: from <= j < k ==> !Contains(name, cases[j].0)
    ensures k < |cases| ==> Contains(name, cases[k].0)
    decreases |cases| - from
  {
    if from == |cases| then from
    else if Contains(name, cases[from].0) then from
    else FirstCase(name, cases, from + 1)
  }

  /** The override of the first key in `cases` that `name` contains, or
      `otherwise` when it contains none. */
  function Pick(name: string, cases: seq<(string, string)>, otherwise: string): (r: string)
    ensures forall k :: 0 <= k < |cases| ==>
      (Contains(name, cases[k].0) && forall j :: 0 <= j < k ==> !Contains(name, cases[j].0))
      ==> r == cases[k].1
    ensures (forall k :: 0 <= k < |cases| ==> !Contains(name, cases[k].0)) ==> r == otherwise
  {
    var k := FirstCase(name, cases, 0);
    if k < |cases| then cases[k].1 else otherwise
  }

  /** The sponsor-stripped, whitespace-collapsed, upper-cased name that the
      special cases are matched against. */
  function Residue(official: string, sponsors: seq<string>): (r: string)
    requires NonEmptyTokens(sponsors)
    ensures Collapsed(r) && NoEdgeSpace(r)
  {
    Collapse(RemoveSponsors(Upper(official), sponsors))
  }

  /** `create_standard_name` over a given sponsor list: the first special-case
      key (in table order) found in the residue decides the result; with no
      key, the residue itself, or the upper-cased official name when the
      residue is empty. */
  function StandardNameWith(official: string, sponsors: seq<string>): (r: string)
    requires NonEmptyTokens(sponsors)
    ensures var name := Residue(official, sponsors);
      forall k :: 0 <= k < |SpecialCases| ==>
        (Contains(name, SpecialCases[k].0) && forall j :: 0 <= j < k ==> !Contains(name, SpecialCases[j].0))
        ==> r == SpecialCases[k].1
    ensures var name := Residue(official, sponsors);
      (forall k :: 0 <= k < |SpecialCases| ==> !Contains(name, SpecialCases[k].0)) ==>
        r == if name != [] then name else Upper(official)
  {
    var name := Residue(official, sponsors);
    Pick(name, SpecialCases, if name != [] then name else Upper(official))
  }

  /** `create_standard_name` exactly as the source orders its sponsors. */
  function StandardNameAsWritten(official: string): (r: string)
    ensures var name := Residue(official, SponsorsAsWritten);
      forall k :: 0 <= k < |SpecialCases| ==>
        (Contains(name, SpecialCases[k].0) && forall j :: 0 <= j < k ==> !Contains(name, SpecialCases[j].0))
        ==> r == SpecialCases[k].1
    ensures var name := Residue(official, SponsorsAsWritten);
      (forall k :: 0 <= k < |SpecialCases| ==> !Contains(name, SpecialCases[k].0)) ==>
        r == if name != [] then name else Upper(official)
  {
    StandardNameWith(official, SponsorsAsWritten)
  }

  /** `create_standard_name` with the corrected sponsor order. */
  function StandardName(official: string): (r: string)
    ensures var name := Residue(official, Sponsors);
      forall k :: 0 <= k < |SpecialCases| ==>
        (Contains(name, SpecialCases[k].0) && forall j :: 0 <= j < k ==> !Contains(name, SpecialCases[j].0))
        ==> r == SpecialCases[k].1
    ensures var name := Residue(official, Sponsors);
      (forall k :: 0 <= k < |SpecialCases| ==> !Contains(name, SpecialCases[k].0)) ==>
        r == if name != [] then name else Upper(official)
  {
    StandardNameWith(official, Sponsors)
  }

  /** Only the upper-cased official name matters. */
  lemma StandardNameIgnoresCase(official: string, sponsors: seq<string>)
    requires NonEmptyTokens(sponsors)
    ensures StandardNameWith(Upper(official), sponsors) == StandardNameWith(official, sponsors)
  {
    UpperIdempotent(official);
  }

  /** A token the name does not hold is a no-op on an already stripped name. */
  lemma SkipAbsent(name: string, sponsors: seq<string>, k: nat)
    requires NonEmptyTokens(sponsors) && k < |sponsors|
    requires !Contains(name, sponsors[k]) && Strip(name) == name
    ensures RemoveFrom(name, sponsors, k) == RemoveFrom(name, sponsors, k + 1)
  {
  }

  lemma RemoveOneAbsent(name: string, sponsor: string)
    requires sponsor != [] && !Contains(name, sponsor) && Strip(name) == name
    ensures RemoveOne(name, sponsor) == name
  {
  }

  /** A stripped name holding none of the tokens is left as it is. */
  lemma {:induction false} RemoveFromNone(name: string, sponsors: seq<string>, from: nat)
    requires NonEmptyTokens(sponsors) && from <= |sponsors|
    requires Strip(name) == name
    requires forall k :: from <= k < |sponsors| ==> !Contains(name, sponsors[k])
    ensures RemoveFrom(name, sponsors, from) == name
    decreases |sponsors| - from
  {
    if from < |sponsors| {
      var t := sponsors[from];
      RemoveOneAbsent(name, t);
      RemoveFromNone(name, sponsors, from + 1);
    }
  }

  /** A clean name is upper case, single-spaced and holds no sponsor token:
      it is its own residue. */
  lemma CleanResidue(name: string, sponsors: seq<string>)
    requires NonEmptyTokens(sponsors)
    requires Upper(name) == name && Collapse(name) == name
    requires forall k :: 0 <= k < |sponsors| ==> !Contains(name, sponsors[k])
    ensures Residue(name, sponsors) == name
  {
    StripOfTrimmed(name);
    RemoveFromNone(name, sponsors, 0);
  }

  /** A non-empty clean name that holds no special-case key is its own
      standard name. */
  lemma StandardNameOfCleanName(name: string, sponsors: seq<string>)
    requires NonEmptyTokens(sponsors)
    requires name != [] && Upper(name) == name && Collapse(name) == name
    requires forall k :: 0 <= k < |sponsors| ==> !Contains(name, sponsors[k])
    requires forall k :: 0 <= k < |SpecialCases| ==> !Contains(name, SpecialCases[k].0)
    ensures StandardNameWith(name, sponsors) == name
  {
    CleanResidue(name, sponsors);
  }

  // ---------------------------------------------------------------------------
  // Lap times

  /** What `parse_lap_time` can be handed by a results row. */
  datatype TimeValue =
    | Missing                  // `pd.isna` holds: None, NaN or NaT
    | Duration(seconds: real)  // a Timedelta, which has `total_seconds`
    | Number(value: real)      // an int, float or bool
    | Text(text: string)       // a str
    | Other                    // any other object

  /** `parse_lap_time`.  `floatOf` is Python's `float()` on a string, `None`
      where it raises. */
  function ParseLapTime(v: TimeValue, floatOf: string -> Option<real>): (r: Option<real>)
    ensures v.Missing? || v.Other? ==> r.None?
    ensures v.Duration? ==> r == Some(v.seconds)
    ensures v.Number? ==> r == Some(v.value)
    ensures v.Text? && ':' !in v.text ==> r == floatOf(v.text)
    ensures v.Text? && multiset(v.text)[':'] >= 2 ==> r.None?
  {
    match v
    case Missing => None
    case Duration(sec) => Some(sec)
    case Number(x) => Some(x)
    case Other => None
    case Text(s) =>
      if ':' in s then
        var parts := SplitOn(s, ':');
        if |parts| == 2 then
          var minutes := floatOf(parts[0]);
          var seconds := floatOf(parts[1]);
          if minutes.Some? && seconds.Some? then Some(minutes.value * 60.0 + seconds.value)
          else None
        else
          None
      else
        floatOf(s)
  }

  /** `"m:s"` with two parseable fields is `m * 60 + s` seconds. */
  lemma LapTimeOfFields(m: string, sec: string, floatOf: string -> Option<real>)
    requires ':' !in m && ':' !in sec
    ensures ParseLapTime(Text(m + ":" + sec), floatOf) ==
      if floatOf(m).Some? && floatOf(sec).Some? then Some(floatOf(m).value * 60.0 + floatOf(sec).value)
      else None
  {
    SplitTwoFields(m, sec);
  }

  /** `"m:s".split(':')` is `[m, s]` for fields without a colon. */
  lemma SplitTwoFields(m: string, sec: string)
    requires ':' !in m && ':' !in sec
    ensures ':' in m + ":" + sec && SplitOn(m + ":" + sec, ':') == [m, sec]
  {
    var s := m + ":" + sec;
    var parts := [m, sec];
    assert JoinOn(parts, ':') == s by {
      assert parts[1..] == [sec];
    }
    SplitJoin(parts, ':');
    assert s[|m|] == ':';
  }

  // ---------------------------------------------------------------------------
  // Result status

  /** `driver_result.get('Status', '')` before `str()`. */
  datatype StatusValue = NoStatus | NotANumber | StatusText(text: string)

  /** `str(driver_result.get('Status', ''))`: a missing key gives the empty
      string and a NaN gives `"nan"`. */
  function StatusString(v: StatusValue): (s: string)
    ensures v.NoStatus? ==> s == []
    ensures v.NotANumber? ==> s == "nan"
    ensures v.StatusText? ==> s == v.text
  {
    match v
    case NoStatus => ""
    case NotANumber => "nan"
    case StatusText(t) => t
  }

  datatype StatusFlags = StatusFlags(dnf: bool, dns: bool, dsq: bool, stored: Option<string>)

  function Min(a: int, b: int): int {
    if a < b then a else b
  }

  /** The three flags of `create_session_result`, each read independently from
      the status text, and the stored status `status[:50] if status else None`. */
  function ClassifyStatus(status: string): (f: StatusFlags)
    ensures f.dnf <==> (exists i :: OccursAt(status, "DNF", i)) || (exists i :: OccursAt(status, "Retired", i))
    ensures f.dns <==> (exists i :: OccursAt(status, "DNS", i)) || (exists i :: OccursAt(status, "Did not start", i))
    ensures f.dsq <==> (exists i :: OccursAt(status, "DSQ", i)) || (exists i :: OccursAt(status, "Disqualified", i))
    ensures f.stored.None? <==> status == []
    ensures f.stored.Some? ==> f.stored.value == status[..Min(|status|, 50)]
  {
    ContainsIff(status, "DNF");
    ContainsIff(status, "Retired");
    ContainsIff(status, "DNS");
    ContainsIff(status, "Did not start");
    ContainsIff(status, "DSQ");
    ContainsIff(status, "Disqualified");
    StatusFlags(
      Contains(status, "DNF") || Contains(status, "Retired"),
      Contains(status, "DNS") || Contains(status, "Did not start"),
      Contains(status, "DSQ") || Contains(status, "Disqualified"),
      if status != [] then Some(status[..Min(|status|, 50)]) else None)
  }

  /** A missing status is stored as NULL with no flag raised; a NaN status
      is stored as the text `nan`, also with no flag. */
  lemma StatusMissingOrNaN()
    ensures ClassifyStatus(StatusString(NoStatus)) == StatusFlags(false, false, false, None)
    ensures ClassifyStatus(StatusString(NotANumber)) == StatusFlags(false, false, false, Some("nan"))
  {
    var nan := StatusString(NotANumber);
    NotContainsByChar(nan, "DNF", 'D');
    NotContainsByChar(nan, "DNS", 'D');
    NotContainsByChar(nan, "DSQ", 'D');
    NotContainsByChar(nan, "Retired", 'R');
    NotContainsByChar(nan, "Did not start", 'D');
    NotContainsByChar(nan, "Disqualified", 'D');
    assert nan[..Min(|nan|, 50)] == nan;
  }

  /** The flags are not exclusive: one text can raise all three. */
  lemma StatusFlagsIndependent()
    ensures var f := ClassifyStatus("DNF DNS DSQ"); f.dnf && f.dns && f.dsq
  {
    var s := "DNF DNS DSQ";
    assert OccursAt(s, "DNF", 0);
    assert OccursAt(s, "DNS", 4);
    assert OccursAt(s, "DSQ", 8);
  }

  // ---------------------------------------------------------------------------
  // Fastest-lap bonus

  /** Points for finishing positions 1 to 10. */
  const PositionPoints: seq<int> := [25, 18, 15, 12, 10, 8, 6, 4, 2, 1]

  /** Python `xs[i]`: a negative index counts from the end, anything else out
      of range raises `IndexError` (`None` here). */
  function PyIndex<T>(xs: seq<T>, i: int): (r: Option<T>)
    ensures 0 <= i < |xs| ==> r == Some(xs[i])
    ensures -|xs| <= i < 0 ==> r == Some(xs[|xs| + i])
    ensures r.None? <==> i >= |xs| || i < -|xs|
  {
    if 0 <= i < |xs| then Some(xs[i])
    else if -|xs| <= i < 0 then Some(xs[|xs| + i])
    else None
  }

  /** `fastest_lap_point` of `create_points_scored`: a present FastestLap, a
      truthy position of at most 10, and more points than that position pays.
      A position of -10 or below makes the table lookup raise. */
  function FastestLapPoint(hasFastestLap: bool, position: Option<int>, points: real): (r: Result<bool, Failure>)
    ensures r.Err? <==> hasFastestLap && position.Some? && position.value <= -10
    ensures r.Err? ==> r.error == IndexError
    ensures r == Ok(true) ==> hasFastestLap && position.Some? && position.value != 0 && position.value <= 10
    ensures !hasFastestLap || position.None? || position.value > 10 ==> r == Ok(false)
  {
    if hasFastestLap && position.Some? && position.value != 0 && position.value <= 10 then
      match PyIndex(PositionPoints, position.value - 1)
      case None => Err(IndexError)
      case Some(expected) => Ok(points > expected as real)
    else
      Ok(false)
  }

  /** For the positions a results table holds, the bonus is exactly the rule
      "FastestLap present, 1 <= position <= 10, points above the table". */
  lemma FastestLapRule(hasFastestLap: bool, position: Option<int>, points: real)
    requires position.None? || position.value >= 0
    ensures FastestLapPoint(hasFastestLap, position, points) ==
      Ok(hasFastestLap && position.Some? && 1 <= position.value <= 10
         && points > PositionPoints[position.value - 1] as real)
  {
  }

  /** A negative position is read from the end of the table, as Python does. */
  lemma FastestLapNegativePosition()
    ensures FastestLapPoint(true, Some(-1), 3.0) == Ok(true)
    ensures FastestLapPoint(true, Some(-10), 30.0) == Err(IndexError)
  {
  }

  // ---------------------------------------------------------------------------
  // GMT offsets (backend/create_db.py)

  /** `parse_offset`: the sign comes from a leading `-`; after every leading
      `+`/`-` is stripped, exactly three `:`-separated integer fields must
      remain, giving `h * 3600 + m * 60 + s` seconds.  Anything else raises
      (`None`).  The source multiplies by a sign of -1 or 1; negation is the
      same thing. */
  function ParseOffset(s: string): (r: Option<int>)
    ensures r.Some? ==> multiset(LStripChars(s, {'+', '-'}))[':'] == 2
    ensures r.None? <==> OffsetFields(LStripChars(s, {'+', '-'})).None?
    ensures r.Some? && StartsWith(s, "-") ==> r.value == -OffsetFields(LStripChars(s, {'+', '-'})).value
    ensures r.Some? && !StartsWith(s, "-") ==> r.value == OffsetFields(LStripChars(s, {'+', '-'})).value
  {
    var fields := OffsetFields(LStripChars(s, {'+', '-'}));
    if StartsWith(s, "-") then Negate(fields) else fields
  }

  /** The unsigned part of `parse_offset`: `h, m, s = map(int, t.split(':'))`. */
  function OffsetFields(t: string): (r: Option<int>)
    ensures r.Some? ==> multiset(t)[':'] == 2
  {
    var parts := SplitOn(t, ':');
    if |parts| != 3 then
      None
    else
      var h :- ParseInt(parts[0]);
      var m :- ParseInt(parts[1]);
      var sec :- ParseInt(parts[2]);
      Some(h * 3600 + m * 60 + sec)
  }

  function Negate(r: Option<int>): (n: Option<int>)
    ensures n.None? <==> r.None?
    ensures n.Some? ==> n.value == -r.value
  {
    match r
    case None => None
    case Some(x) => Some(-x)
  }

  /** Only the first character decides the sign: a leading `-` negates the
      offset of the rest, a leading `+` leaves it as it is. */
  lemma OffsetSign(t: string)
    requires t == [] || t[0] !in {'+', '-'}
    ensures ParseOffset("-" + t) == Negate(ParseOffset(t))
    ensures ParseOffset("+" + t) == ParseOffset(t)
  {
    var chars := {'+', '-'};
    assert LStripChars(t, chars) == t;
    assert LStripChars("-" + t, chars) == t by {
      assert ("-" + t)[1..] == t;
    }
    assert LStripChars("+" + t, chars) == t by {
      assert ("+" + t)[1..] == t;
    }
    assert !StartsWith(t, "-") && !StartsWith("+" + t, "-");
  }

  /** A field as the OpenF1 offsets write it: at least two digits. */
  function Pad2(n: nat): (r: string)
    ensures |r| >= 2 && AllDigits(r)
  {
    if n < 10 then "0" + NatToString(n) else NatToString(n)
  }

  lemma LeadingZeroValue(d: char)
    requires IsDigit(d)
    ensures DigitsValue(['0', d]) == DigitValue(d)
  {
    assert ['0', d][..1] == ['0'];
    assert ['0'][..0] == [];
  }

  lemma ParsePad2(n: nat)
    ensures ParseInt(Pad2(n)).Some? && ParseInt(Pad2(n)).value == n
  {
    if n < 10 {
      var d := DigitChar(n);
      assert Pad2(n) == ['0', d];
      ParseIntDigits(['0', d]);
      LeadingZeroValue(d);
    } else {
      ParseIntOfIntToString(n);
    }
  }

  /** Hours, minutes and seconds written `HH:MM:SS`. */
  function Clock(h: nat, m: nat, sec: nat): (r: string)
    ensures r != [] && IsDigit(r[0])
  {
    Pad2(h) + ":" + Pad2(m) + ":" + Pad2(sec)
  }

  /** An offset written `[-]HH:MM:SS`, as the OpenF1 sessions carry it. */
  function FormatOffset(negative: bool, h: nat, m: nat, sec: nat): string {
    (if negative then "-" else "") + Clock(h, m, sec)
  }

  lemma JoinThree(a: string, b: string, c: string)
    ensures JoinOn([a, b, c], ':') == a + ":" + b + ":" + c
  {
    assert [a, b, c][1..] == [b, c];
    assert [b, c][1..] == [c];
    assert JoinOn([b, c], ':') == b + [':'] + c;
    assert JoinOn([a, b, c], ':') == a + [':'] + (b + [':'] + c);
  }

  lemma FieldsOf(t: string, h: string, m: string, sec: string, x: int, y: int, z: int)
    requires SplitOn(t, ':') == [h, m, sec]
    requires ParseInt(h) == Some(x) && ParseInt(m) == Some(y) && ParseInt(sec) == Some(z)
    ensures OffsetFields(t).Some? && OffsetFields(t).value == x * 3600 + y * 60 + z
  {
    var parts := SplitOn(t, ':');
    var a, b, c := ParseInt(parts[0]), ParseInt(parts[1]), ParseInt(parts[2]);
    assert a == Some(x) && b == Some(y) && c == Some(z);
  }

  /** The three fields `HH`, `MM`, `SS` read back. */
  lemma ReadFields(h: nat, m: nat, sec: nat)
    ensures OffsetFields(Clock(h, m, sec)).Some?
    ensures OffsetFields(Clock(h, m, sec)).value == h * 3600 + m * 60 + sec
  {
    var t := Clock(h, m, sec);
    JoinThree(Pad2(h), Pad2(m), Pad2(sec));
    assert ':' !in Pad2(h) && ':' !in Pad2(m) && ':' !in Pad2(sec);
    SplitJoin([Pad2(h), Pad2(m), Pad2(sec)], ':');
    ParsePad2(h);
    ParsePad2(m);
    ParsePad2(sec);
    FieldsOf(t, Pad2(h), Pad2(m), Pad2(sec), h, m, sec);
  }

  lemma DigitFirst(t: string)
    requires t != [] && IsDigit(t[0])
    ensures !StartsWith(t, "-")
    ensures LStripChars(t, {'+', '-'}) == t
  {
    assert t[..1][0] == t[0];
  }

  lemma NoMinus(t: string)
    requires !StartsWith(t, "-")
    ensures ParseOffset(t) == OffsetFields(LStripChars(t, {'+', '-'}))
  {
  }

  /** Without a leading sign, the offset is its fields. */
  lemma UnsignedOffset(t: string)
    requires t != [] && IsDigit(t[0])
    ensures ParseOffset(t) == OffsetFields(t)
  {
    DigitFirst(t);
    NoMinus(t);
  }

  lemma ReadClock(h: nat, m: nat, sec: nat)
    ensures ParseOffset(Clock(h, m, sec)).Some?
    ensures ParseOffset(Clock(h, m, sec)).value == h * 3600 + m * 60 + sec
  {
    ReadFields(h, m, sec);
    UnsignedOffset(Clock(h, m, sec));
  }

  lemma MinusFirst(t: string)
    requires t != [] && IsDigit(t[0])
    ensures LStripChars("-" + t, {'+', '-'}) == t
    ensures StartsWith("-" + t, "-")
  {
    DigitFirst(t);
    assert ("-" + t)[1..] == t;
  }

  lemma MinusOffset(t: string)
    requires t != [] && IsDigit(t[0])
    ensures ParseOffset("-" + t) == Negate(OffsetFields(t))
  {
    MinusFirst(t);
  }

  lemma ReadNegativeClock(h: nat, m: nat, sec: nat)
    ensures ParseOffset("-" + Clock(h, m, sec)).Some?
    ensures ParseOffset("-" + Clock(h, m, sec)).value == -(h * 3600 + m * 60 + sec)
  {
    ReadFields(h, m, sec);
    MinusOffset(Clock(h, m, sec));
  }

  /** Reading back a formatted offset gives the signed number of seconds. */
  lemma ParseFormatOffset(negative: bool, h: nat, m: nat, sec: nat)
    ensures ParseOffset(FormatOffset(negative, h, m, sec)).Some?
    ensures ParseOffset(FormatOffset(negative, h, m, sec)).value ==
      if negative then -(h * 3600 + m * 60 + sec) else h * 3600 + m * 60 + sec
  {
    var f := FormatOffset(negative, h, m, sec);
    if negative {
      assert f == "-" + Clock(h, m, sec);
      ReadNegativeClock(h, m, sec);
    } else {
      assert f == [] + Clock(h, m, sec);
      assert f == Clock(h, m, sec);
      ReadClock(h, m, sec);
    }
  }
}

=== FILE: query_cleaner.dfy ===
/** `QueryCleaner`: the rewrite that turns the string literals of a generated
    SQL query into named bind parameters before the query is run.

    Each pass is one `re.sub(r"<field>\s?=\s?'([^']+)'", ...)`: scanning left
    to right, every non-overlapping match becomes `<field> = :<prefix>_<k>`
    for the k-th match of the pass, and the quoted text is recorded as a
    `MatchData`.  The pattern is deterministic (an optional space is taken
    when present, and `[^']+` runs to the next quote), which is what
    `MatchHead` computes. */
module QueryCleaner {
  import opened Wrappers
  import opened Text

  /** `MatchData(type, key, data)`; `type` is a Dafny keyword. */
  datatype MatchData = MatchData(typeName: string, key: string, data: string)

  /** One replacement pass: the column it looks for, the prefix of the keys
      it generates and the type it records. */
  datatype Pattern = Pattern(field: string, prefix: string, typeName: string)

  const DriverName := Pattern("full_name", "driver", "driver_full_name")
  const Acronym := Pattern("name_acronym", "acronym", "driver_acronym")
  const MeetingName := Pattern("meeting_official_name", "meeting", "meeting_name")
  const MeetingLocation := Pattern("location", "location", "meeting_location")
  const MeetingStandardName := Pattern("meeting_standard_name", "standard_name", "meeting_standard_name")
  const SessionName := Pattern("session_name", "session", "session_name")
  const SessionType := Pattern("session_type", "session_type", "session_type")
  const Compound := Pattern("compound", "compound", "tyre_compound")

  const DriverPasses := [DriverName, Acronym]
  const MeetingPasses := [MeetingName, MeetingLocation, MeetingStandardName]
  const SessionPasses := [SessionName, SessionType]
  const StintPasses := [Compound]

  /** The bind parameter `f"{prefix}_{counter}"`. */
  function KeyOf(prefix: string, n: int): string {
    prefix + "_" + IntToString(n)
  }

  // ---------------------------------------------------------------------------
  // One match

  /** `\s?` is one whitespace character or nothing. */
  ghost predicate OptSpace(x: string) {
    x == [] || (|x| == 1 && IsSpace(x[0]))
  }

  /** The language of the pattern: `t` is `<field>\s?=\s?'<lit>'` with a
      non-empty, quote-free `lit`. */
  ghost predicate Matches(t: string, field: string, lit: string) {
    lit != [] && '\'' !in lit &&
    exists sp1, sp2 :: OptSpace(sp1) && OptSpace(sp2) && t == Assignment(field, sp1, sp2, lit)
  }

  /** `<field><sp1>=<sp2>'<lit>'`. */
  function Assignment(field: string, sp1: string, sp2: string, lit: string): string {
    field + (sp1 + ("=" + (sp2 + ("'" + (lit + "'")))))
  }

  /** Past one optional whitespace character at `j`. */
  function SkipSpace(s: string, j: nat): (r: nat)
    requires j <= |s|
    ensures r == j || (j < |s| && r == j + 1 && IsSpace(s[j]))
    ensures r == j ==> j == |s| || !IsSpace(s[j])
  {
    if j < |s| && IsSpace(s[j]) then j + 1 else j
  }

  /** The first quote at or after `j`, or `|s|` when there is none. */
  function CloseQuote(s: string, j: nat): (r: nat)
    requires j <= |s|
    ensures j <= r <= |s|
    ensures forall k :: j <= k < r ==> s[k] != '\''
    ensures r < |s| ==> s[r] == '\''
    decreases |s| - j
  {
    if j == |s| || s[j] == '\'' then j else CloseQuote(s, j + 1)
  }

  /** The match of the pattern at the head of `t`, if any: its length and
      the quoted text. */
  function MatchHead(t: string, field: string): (m: Option<(nat, string)>)
    ensures m.Some? ==> 0 < m.value.0 <= |t|
  {
    if !StartsWith(t, field) then None
    else MatchEquals(t, SkipSpace(t, |field|))
  }

  /** The rest of a match once the column name and a space are behind `a`. */
  function MatchEquals(s: string, a: nat): (m: Option<(nat, string)>)
    requires a <= |s|
    ensures m.Some? ==> a < m.value.0 <= |s|
  {
    if a == |s| || s[a] != '=' then None
    else MatchQuoted(s, SkipSpace(s, a + 1))
  }

  /** The quoted literal of a match, its opening quote expected at `b`. */
  function MatchQuoted(s: string, b: nat): (m: Option<(nat, string)>)
    requires b <= |s|
    ensures m.Some? ==> b < m.value.0 <= |s|
  {
    if b == |s| || s[b] != '\'' then None
    else
      var c := CloseQuote(s, b + 1);
      if c == |s| || c == b + 1 then None
      else Some((c + 1, s[b + 1..c]))
  }

  /** What `MatchHead` finds is a match of the pattern. */
  lemma MatchHeadSound(t: string, field: string)
    requires MatchHead(t, field).Some?
    ensures Matches(t[..MatchHead(t, field).value.0], field, MatchHead(t, field).value.1)
  {
    var a := SkipSpace(t, |field|);
    var b := SkipSpace(t, a + 1);
    var c := CloseQuote(t, b + 1);
    assert MatchHead(t, field) == Some((c + 1, t[b + 1..c]));
    MatchFromParts(t, field, a, b, c);
  }

  /** Positions that `MatchHead` accepts delimit a match of the pattern. */
  lemma MatchFromParts(t: string, field: string, a: nat, b: nat, c: nat)
    requires |field| <= a < b < c < |t| && c > b + 1 && t[..|field|] == field
    requires a == |field| || (a == |field| + 1 && IsSpace(t[|field|]))
    requires b == a + 1 || (b == a + 2 && IsSpace(t[a + 1]))
    requires t[a] == '=' && t[b] == '\'' && t[c] == '\''
    requires forall k :: b + 1 <= k < c ==> t[k] != '\''
    ensures Matches(t[..c + 1], field, t[b + 1..c])
  {
    var lit := t[b + 1..c];
    var sp1 := t[|field|..a];
    var sp2 := t[a + 1..b];
    assert OptSpace(sp1) by {
      if a > |field| {
        assert sp1[0] == t[|field|];
      }
    }
    assert OptSpace(sp2) by {
      if b > a + 1 {
        assert sp2[0] == t[a + 1];
      }
    }
    assert '\'' !in lit by {
      forall k | 0 <= k < |lit| ensures lit[k] != '\'' {
        assert lit[k] == t[b + 1 + k];
      }
    }
    Assemble(t, |field|, a, b, c);
    assert OptSpace(sp1) && OptSpace(sp2) && t[..c + 1] == Assignment(field, sp1, sp2, lit);
  }

  lemma Assemble(t: string, f: nat, a: nat, b: nat, c: nat)
    requires f <= a < b < c < |t|
    requires t[a] == '=' && t[b] == '\'' && t[c] == '\''
    ensures t[..c + 1] == Assignment(t[..f], t[f..a], t[a + 1..b], t[b + 1..c])
  {
    var r6 := t[b + 1..c + 1];
    assert r6 == t[b + 1..c] + "'";
    var r5 := t[b..c + 1];
    assert r5 == "'" + r6;
    var r4 := t[a + 1..c + 1];
    assert r4 == t[a + 1..b] + r5;
    var r3 := t[a..c + 1];
    assert r3 == "=" + r4;
    var r2 := t[f..c + 1];
    assert r2 == t[f..a] + r3;
    assert t[..c + 1] == t[..f] + r2;
  }

  /** Where the pieces of an assignment sit. */
  lemma AssignmentParts(field: string, sp1: string, sp2: string, lit: string)
    ensures var u := Assignment(field, sp1, sp2, lit);
      var q := |field| + |sp1| + 1 + |sp2|;
      |u| == q + |lit| + 2 && u[..|field|] == field && u[|field|..|field| + |sp1|] == sp1 &&
      u[|field| + |sp1|] == '=' && u[|field| + |sp1| + 1..q] == sp2 && u[q] == '\'' &&
      u[q + 1..q + 1 + |lit|] == lit && u[q + 1 + |lit|] == '\''
  {
    var r4 := lit + "'";
    var r3 := "'" + r4;
    var r2 := sp2 + r3;
    var r1 := "=" + r2;
    var r0 := sp1 + r1;
    var u := field + r0;
    assert u[|field|..] == r0;
    assert r0[|sp1|..] == r1;
    assert r2[|sp2|..] == r3;
    assert r1[1..] == r2;
  }

  /** A match of the pattern at the head of `t` is the one `MatchHead`
      finds. */
  lemma MatchHeadComplete(t: string, e: nat, field: string, lit: string)
    requires e <= |t| && Matches(t[..e], field, lit)
    ensures MatchHead(t, field) == Some((e, lit))
  {
    var sp1, sp2 :| OptSpace(sp1) && OptSpace(sp2) && t[..e] == Assignment(field, sp1, sp2, lit);
    AssignmentAt(t, e, field, sp1, sp2, lit);
    var a := |field| + |sp1|;
    var b := a + 1 + |sp2|;
    MatchHeadFromParts(t, field, a, b, e - 1);
  }

  /** The pieces of an assignment that `t[..e]` is, as positions in `t`. */
  lemma AssignmentAt(t: string, e: nat, field: string, sp1: string, sp2: string, lit: string)
    requires e <= |t| && OptSpace(sp1) && OptSpace(sp2) && t[..e] == Assignment(field, sp1, sp2, lit)
    ensures var a := |field| + |sp1|;
      var b := a + 1 + |sp2|;
      b + 1 + |lit| == e - 1 && t[..|field|] == field &&
      SkipSpace(t, |field|) == a && t[a] == '=' && SkipSpace(t, a + 1) == b && t[b] == '\'' &&
      t[b + 1..e - 1] == lit && t[e - 1] == '\''
  {
    AssignmentParts(field, sp1, sp2, lit);
    PiecesAt(t, e, field, sp1, sp2, lit);
  }

  /** The pieces of an assignment found in `t[..e]`, as positions in `t`. */
  lemma PiecesAt(t: string, e: nat, field: string, sp1: string, sp2: string, lit: string)
    requires e <= |t| && OptSpace(sp1) && OptSpace(sp2)
    requires var u := t[..e];
      var q := |field| + |sp1| + 1 + |sp2|;
      |u| == q + |lit| + 2 && u[..|field|] == field && u[|field|..|field| + |sp1|] == sp1 &&
      u[|field| + |sp1|] == '=' && u[|field| + |sp1| + 1..q] == sp2 && u[q] == '\'' &&
      u[q + 1..q + 1 + |lit|] == lit && u[q + 1 + |lit|] == '\''
    ensures var a := |field| + |sp1|;
      var b := a + 1 + |sp2|;
      b + 1 + |lit| == e - 1 && t[..|field|] == field &&
      SkipSpace(t, |field|) == a && t[a] == '=' && SkipSpace(t, a + 1) == b && t[b] == '\'' &&
      t[b + 1..e - 1] == lit && t[e - 1] == '\''
  {
    var q := |field| + |sp1| + 1 + |sp2|;
    var a := |field| + |sp1|;
    SliceOfPrefix(t, e, 0, |field|);
    SliceOfPrefix(t, e, |field|, a);
    SliceOfPrefix(t, e, a + 1, q);
    SliceOfPrefix(t, e, q + 1, q + 1 + |lit|);
    assert t[..|field|] == t[0..|field|];
    SkipAt(t, |field|, sp1, '=');
    SkipAt(t, a + 1, sp2, '\'');
  }

  /** Past an optional space followed by a character that is not one. */
  lemma SkipAt(s: string, j: nat, x: string, next: char)
    requires OptSpace(x) && j + |x| < |s| && s[j..j + |x|] == x && s[j + |x|] == next
    requires next == '=' || next == '\''
    ensures SkipSpace(s, j) == j + |x|
  {
    if x != [] {
      assert s[j] == x[0];
    }
  }

  /** `MatchHead` from the positions of the pieces. */
  lemma MatchHeadFromParts(t: string, field: string, a: nat, b: nat, c: nat)
    requires |field| <= a < b < c < |t| && c > b + 1
    requires t[..|field|] == field
    requires SkipSpace(t, |field|) == a && t[a] == '='
    requires SkipSpace(t, a + 1) == b && t[b] == '\''
    requires t[c] == '\'' && '\'' !in t[b + 1..c]
    ensures MatchHead(t, field) == Some((c + 1, t[b + 1..c]))
  {
    forall k | b + 1 <= k < c ensures t[k] != '\'' {
      assert t[k] == t[b + 1..c][k - b - 1];
    }
    CloseQuoteAt(t, b + 1, c);
  }

  lemma SliceOfPrefix(t: string, e: nat, x: nat, y: nat)
    requires x <= y <= e <= |t|
    ensures t[..e][x..y] == t[x..y]
  {
  }

  lemma {:induction false} CloseQuoteAt(s: string, j: nat, c: nat)
    requires j <= c < |s| && s[c] == '\'' && forall k :: j <= k < c ==> s[k] != '\''
    ensures CloseQuote(s, j) == c
    decreases c - j
  {
    if j < c {
      CloseQuoteAt(s, j + 1, c);
    }
  }

  // ---------------------------------------------------------------------------
  // One pass

  /** What replaces the k-th match of a pass: `f"{field} = :{prefix}_{k}"`. */
  function Replacement(p: Pattern, k: int): string {
    p.field + " = :" + KeyOf(p.prefix, k)
  }

  /** What the k-th match of a pass records. */
  function Item(p: Pattern, k: int, lit: string): MatchData {
    MatchData(p.typeName, KeyOf(p.prefix, k), lit)
  }

  /** One step of the scan `re.sub` makes: a character copied as it is, or
      a match and the text between its quotes. */
  datatype Piece = Copied(c: char) | Found(lit: string)

  /** The scan over `t`: where the pattern matches at the head, the whole
      match is taken and the scan goes on after it; otherwise one character
      is copied.  A match only looks forward, so the scan of a suffix does
      not depend on what comes before it. */
  function Scan(t: string, field: string): seq<Piece>
    decreases |t|
  {
    if t == [] then []
    else match MatchHead(t, field)
      case Some(m) => [Found(m.1)] + Scan(t[m.0..], field)
      case None => [Copied(t[0])] + Scan(t[1..], field)
  }

  /** The substitution over a scan: copied characters stay, and the k-th
      match, counting from `n`, becomes the k-th replacement and records
      the k-th item. */
  function Render(ps: seq<Piece>, p: Pattern, n: int): (string, seq<MatchData>)
    decreases |ps|
  {
    if ps == [] then ([], [])
    else match ps[0]
      case Copied(c) =>
        var rest := Render(ps[1..], p, n);
        ([c] + rest.0, rest.1)
      case Found(lit) =>
        var rest := Render(ps[1..], p, n + 1);
        (Replacement(p, n) + rest.0, [Item(p, n, lit)] + rest.1)
  }

  /** `re.sub` of one pattern over `t`, the counter of the pass standing at
      `n - 1`: the text rewritten and the items recorded. */
  function Rewrite(t: string, p: Pattern, n: int): (string, seq<MatchData>) {
    Render(Scan(t, p.field), p, n)
  }

  /** The k-th item of a pass: its type, the key `<prefix>_<k>` and
      non-empty, quote-free text. */
  ghost predicate ItemOk(d: MatchData, p: Pattern, k: int) {
    d.typeName == p.typeName && d.key == KeyOf(p.prefix, k) && d.data != [] && '\'' !in d.data
  }

  ghost predicate ItemsFrom(data: seq<MatchData>, p: Pattern, n: int) {
    forall k :: 0 <= k < |data| ==> ItemOk(data[k], p, n + k)
  }

  lemma ItemsCons(d: MatchData, rest: seq<MatchData>, p: Pattern, n: int)
    requires ItemOk(d, p, n) && ItemsFrom(rest, p, n + 1)
    ensures ItemsFrom([d] + rest, p, n)
  {
    var data := [d] + rest;
    forall k | 0 <= k < |data| ensures ItemOk(data[k], p, n + k) {
      if k > 0 {
        assert data[k] == rest[k - 1];
        assert ItemOk(rest[k - 1], p, (n + 1) + (k - 1));
      }
    }
  }

  /** Every match of a scan holds non-empty, quote-free text. */
  ghost predicate LitsOk(ps: seq<Piece>) {
    forall k :: 0 <= k < |ps| && ps[k].Found? ==> ps[k].lit != [] && '\'' !in ps[k].lit
  }

  lemma LitsCons(x: Piece, rest: seq<Piece>)
    requires x.Found? ==> x.lit != [] && '\'' !in x.lit
    requires LitsOk(rest)
    ensures LitsOk([x] + rest)
  {
    var ps := [x] + rest;
    forall k | 0 < k < |ps| ensures ps[k] == rest[k - 1] {
    }
  }

  lemma {:induction false} ScanLits(t: string, field: string)
    ensures LitsOk(Scan(t, field))
    decreases |t|
  {
    if t != [] {
      match MatchHead(t, field)
      case Some(m) =>
        MatchHeadSound(t, field);
        ScanLits(t[m.0..], field);
        LitsCons(Found(m.1), Scan(t[m.0..], field));
      case None =>
        ScanLits(t[1..], field);
        LitsCons(Copied(t[0]), Scan(t[1..], field));
    }
  }

  lemma {:induction false} RenderItems(ps: seq<Piece>, p: Pattern, n: int)
    requires LitsOk(ps)
    ensures ItemsFrom(Render(ps, p, n).1, p, n)
    decreases |ps|
  {
    if ps != [] {
      var rest := ps[1..];
      assert LitsOk(rest) by {
        forall k | 0 <= k < |rest| ensures rest[k] == ps[k + 1] {
        }
      }
      match ps[0]
      case Copied(c) =>
        RenderItems(rest, p, n);
      case Found(lit) =>
        RenderItems(rest, p, n + 1);
        ItemsCons(Item(p, n, lit), Render(rest, p, n + 1).1, p, n);
    }
  }

  /** The items of a pass carry its type, consecutive keys from the counter
      on, and the non-empty, quote-free text between the quotes. */
  lemma RewriteItems(t: string, p: Pattern, n: int)
    ensures ItemsFrom(Rewrite(t, p, n).1, p, n)
  {
    ScanLits(t, p.field);
    RenderItems(Scan(t, p.field), p, n);
  }

  /** One pass over a whole query, its counter starting at 1. */
  function Pass(s: string, p: Pattern): (r: (string, seq<MatchData>))
    ensures forall k :: 0 <= k < |r.1| ==> r.1[k].typeName == p.typeName && r.1[k].key == KeyOf(p.prefix, k + 1)
    ensures forall k :: 0 <= k < |r.1| ==> r.1[k].data != [] && '\'' !in r.1[k].data
  {
    RewriteItems(s, p, 1);
    var r := Rewrite(s, p, 1);
    assert forall k :: 0 <= k < |r.1| ==> ItemOk(r.1[k], p, 1 + k);
    r
  }

  /** Where no match starts the character is copied. */
  lemma RewriteCopied(t: string, p: Pattern, n: int)
    requires t != [] && !StartsWith(t, p.field)
    ensures var rest := Rewrite(t[1..], p, n);
      Rewrite(t, p, n) == ([t[0]] + rest.0, rest.1)
  {
    var ps := Scan(t, p.field);
    assert ps == [Copied(t[0])] + Scan(t[1..], p.field);
    assert ps[1..] == Scan(t[1..], p.field);
  }

  /** A pass whose column does not occur changes nothing and records
      nothing. */
  lemma {:induction false} NoFieldUnchanged(t: string, p: Pattern, n: int)
    requires !Contains(t, p.field)
    ensures Rewrite(t, p, n) == (t, [])
    decreases |t|
  {
    if t != [] {
      RewriteCopied(t, p, n);
      NoFieldUnchanged(t[1..], p, n);
      assert [t[0]] + t[1..] == t;
    }
  }

  /** A prefix in which the column cannot start is copied as it is. */
  lemma {:induction false} SkipPrefix(a: string, b: string, p: Pattern, n: int)
    requires p.field != [] && p.field[0] !in a
    ensures Rewrite(a + b, p, n) == (a + Rewrite(b, p, n).0, Rewrite(b, p, n).1)
    decreases |a|
  {
    var r := Rewrite(b, p, n);
    if a != [] {
      var t := a + b;
      assert t[0] == a[0];
      assert !StartsWith(t, p.field) by {
        if |p.field| <= |t| {
          assert t[..|p.field|][0] == t[0];
        }
      }
      RewriteCopied(t, p, n);
      assert t[1..] == a[1..] + b;
      SkipPrefix(a[1..], b, p, n);
      assert [a[0]] + (a[1..] + r.0) == a + r.0;
    } else {
      assert a + b == b;
      assert a + r.0 == r.0;
    }
  }

  /** A match at the head of the text is replaced by `<field> = :<key>`,
      whichever optional spaces it had around `=`. */
  lemma MatchFirst(p: Pattern, sp1: string, sp2: string, lit: string, b: string, n: int)
    requires OptSpace(sp1) && OptSpace(sp2) && lit != [] && '\'' !in lit
    ensures var rest := Rewrite(b, p, n + 1);
      Rewrite(Assignment(p.field, sp1, sp2, lit) + b, p, n) ==
        (Replacement(p, n) + rest.0, [Item(p, n, lit)] + rest.1)
  {
    var m := Assignment(p.field, sp1, sp2, lit);
    var t := m + b;
    assert t[0..|m|] == m;
    MatchHeadComplete(t, |m|, p.field, lit);
    ScanFound(t, p.field, (|m|, lit));
    assert t[|m|..] == b;
  }

  lemma ScanFound(t: string, field: string, m: (nat, string))
    requires MatchHead(t, field) == Some(m)
    ensures m.0 <= |t| && Scan(t, field) == [Found(m.1)] + Scan(t[m.0..], field)
  {
  }

  // ---------------------------------------------------------------------------
  // Several passes

  /** The passes of one `clean_*` method, or of `clean_query`, in order: each
      pass rewrites the output of the one before, and the extracted lists
      are concatenated. */
  function RunPasses(q: string, passes: seq<Pattern>): (r: (string, seq<MatchData>))
    decreases |passes|
  {
    if passes == [] then (q, [])
    else
      var first := Pass(q, passes[0]);
      var rest := RunPasses(first.0, passes[1..]);
      (rest.0, first.1 + rest.1)
  }

  lemma {:induction false} RunPassesAppend(q: string, a: seq<Pattern>, b: seq<Pattern>)
    ensures var ra := RunPasses(q, a);
      var rb := RunPasses(ra.0, b);
      RunPasses(q, a + b) == (rb.0, ra.1 + rb.1)
    decreases |a|
  {
    if a != [] {
      assert (a + b)[0] == a[0] && (a + b)[1..] == a[1..] + b;
      var first := Pass(q, a[0]);
      RunPassesAppend(first.0, a[1..], b);
      var ra := RunPasses(first.0, a[1..]);
      var rb := RunPasses(ra.0, b);
      assert first.1 + (ra.1 + rb.1) == (first.1 + ra.1) + rb.1;
    } else {
      assert a + b == b;
      var rb := RunPasses(q, b);
      assert RunPasses(q, a).1 + rb.1 == rb.1;
    }
  }

  function CleanDriverInfo(q: string): (string, seq<MatchData>) {
    RunPasses(q, DriverPasses)
  }

  function CleanMeetingInfo(q: string): (string, seq<MatchData>) {
    RunPasses(q, MeetingPasses)
  }

  function CleanSessionInfo(q: string): (string, seq<MatchData>) {
    RunPasses(q, SessionPasses)
  }

  function CleanStintInfo(q: string): (string, seq<MatchData>) {
    RunPasses(q, StintPasses)
  }

  /** `clean_query`: strip, then the driver, meeting, session and stint
      passes, the extracted lists concatenated in that order. */
  function CleanQuery(q: string): (r: (string, seq<MatchData>)) {
    var d := CleanDriverInfo(Strip(q));
    var m := CleanMeetingInfo(d.0);
    var s := CleanSessionInfo(m.0);
    var t := CleanStintInfo(s.0);
    (t.0, d.1 + m.1 + s.1 + t.1)
  }

  const AllPasses := DriverPasses + MeetingPasses + SessionPasses + StintPasses

  /** Four groups of passes run one after another are their concatenation. */
  lemma FourGroups(q: string, a: seq<Pattern>, b: seq<Pattern>, c: seq<Pattern>, d: seq<Pattern>)
    ensures var ra := RunPasses(q, a);
      var rb := RunPasses(ra.0, b);
      var rc := RunPasses(rb.0, c);
      var rd := RunPasses(rc.0, d);
      RunPasses(q, a + b + c + d) == (rd.0, ra.1 + rb.1 + rc.1 + rd.1)
  {
    var ra := RunPasses(q, a);
    var rb := RunPasses(ra.0, b);
    var rc := RunPasses(rb.0, c);
    var rd := RunPasses(rc.0, d);
    RunPassesAppend(q, a, b);
    assert RunPasses(q, a + b) == (rb.0, ra.1 + rb.1);
    RunPassesAppend(q, a + b, c);
    assert RunPasses(q, a + b + c) == (rc.0, ra.1 + rb.1 + rc.1);
    RunPassesAppend(q, a + b + c, d);
  }

  /** `clean_query` is the eight passes run one after another over the
      stripped query. */
  lemma CleanQueryPasses(q: string)
    ensures CleanQuery(q) == RunPasses(Strip(q), AllPasses)
  {
    FourGroups(Strip(q), DriverPasses, MeetingPasses, SessionPasses, StintPasses);
  }

  // ---------------------------------------------------------------------------
  // Distinct keys

  /** No two extracted items share a bind parameter. */
  ghost predicate KeysDistinct(data: seq<MatchData>) {
    forall a, b :: 0 <= a < b < |data| ==> data[a].key != data[b].key
  }

  /** Key prefixes are labels and no two passes share one. */
  ghost predicate DistinctPrefixes(passes: seq<Pattern>) {
    && (forall j :: 0 <= j < |passes| ==> IsLabel(passes[j].prefix))
    && (forall a, b :: 0 <= a < b < |passes| ==> passes[a].prefix != passes[b].prefix)
  }

  /** `key` is `<prefix>_<n>` for one of the passes. */
  ghost predicate KeyOfSome(key: string, passes: seq<Pattern>) {
    exists j, n :: 0 <= j < |passes| && key == KeyOf(passes[j].prefix, n)
  }

  lemma KeysOfDifferentPrefixes(p: string, q: string, n: int, m: int)
    requires IsLabel(p) && IsLabel(q) && p != q
    ensures KeyOf(p, n) != KeyOf(q, m)
  {
    assert IsLabel(p + "_") && IsLabel(q + "_");
    if KeyOf(p, n) == KeyOf(q, m) {
      assert (p + "_") + IntToString(n) == (q + "_") + IntToString(m);
      LabelsSeparate(p + "_", q + "_", IntToString(n), IntToString(m));
      DropUnderscore(p, q);
      assert false;
    }
  }

  lemma DropUnderscore(p: string, q: string)
    requires p + "_" == q + "_"
    ensures p == q
  {
    assert p == (p + "_")[..|p|] && q == (q + "_")[..|q|];
  }

  lemma KeysOfOnePass(p: string, n: int, m: int)
    requires n != m
    ensures KeyOf(p, n) != KeyOf(p, m)
  {
    if KeyOf(p, n) == KeyOf(p, m) {
      assert IntToString(n) == KeyOf(p, n)[|p| + 1..];
      IntToStringInjective(n, m);
    }
  }

  /** Passes with distinct prefixes extract pairwise distinct keys. */
  lemma {:induction false} RunPassesDistinct(q: string, passes: seq<Pattern>)
    requires DistinctPrefixes(passes)
    ensures var data := RunPasses(q, passes).1;
      KeysDistinct(data) && forall k :: 0 <= k < |data| ==> KeyOfSome(data[k].key, passes)
    decreases |passes|
  {
    if passes != [] {
      var first := Pass(q, passes[0]);
      var tail := passes[1..];
      assert DistinctPrefixes(tail) by {
        forall a, b | 0 <= a < b < |tail| ensures tail[a].prefix != tail[b].prefix {
          assert tail[a] == passes[a + 1] && tail[b] == passes[b + 1];
        }
      }
      RunPassesDistinct(first.0, tail);
      var rest := RunPasses(first.0, tail).1;
      assert first.1 + rest == RunPasses(q, passes).1;
      JoinDistinct(first.1, rest, passes);
    }
  }

  /** The items of a first pass followed by those of later passes with other
      prefixes have pairwise distinct keys, each of one of the passes. */
  lemma JoinDistinct(first: seq<MatchData>, rest: seq<MatchData>, passes: seq<Pattern>)
    requires passes != [] && DistinctPrefixes(passes)
    requires forall k :: 0 <= k < |first| ==> first[k].key == KeyOf(passes[0].prefix, k + 1)
    requires KeysDistinct(rest) && forall k :: 0 <= k < |rest| ==> KeyOfSome(rest[k].key, passes[1..])
    ensures KeysDistinct(first + rest)
    ensures forall k :: 0 <= k < |first + rest| ==> KeyOfSome((first + rest)[k].key, passes)
  {
    var data := first + rest;
    var tail := passes[1..];
    forall a, b | 0 <= a < b < |data| ensures data[a].key != data[b].key {
      if b < |first| {
        KeysOfOnePass(passes[0].prefix, a + 1, b + 1);
      } else if a < |first| {
        assert data[b] == rest[b - |first|];
        var j, n :| 0 <= j < |tail| && rest[b - |first|].key == KeyOf(tail[j].prefix, n);
        assert tail[j] == passes[j + 1];
        KeysOfDifferentPrefixes(passes[0].prefix, tail[j].prefix, a + 1, n);
      } else {
        assert data[a] == rest[a - |first|] && data[b] == rest[b - |first|];
      }
    }
    forall k | 0 <= k < |data| ensures KeyOfSome(data[k].key, passes) {
      if k < |first| {
        assert data[k].key == KeyOf(passes[0].prefix, k + 1);
      } else {
        assert data[k] == rest[k - |first|];
        var j, n :| 0 <= j < |tail| && rest[k - |first|].key == KeyOf(tail[j].prefix, n);
        assert tail[j] == passes[j + 1];
      }
    }
  }

  /** The eight key prefixes of `clean_query`. */
  const Prefixes := ["driver", "acronym", "meeting", "location", "standard_name", "session", "session_type", "compound"]

  lemma AllPassesDistinct()
    ensures DistinctPrefixes(AllPasses)
  {
    assert forall j :: 0 <= j < |AllPasses| ==> AllPasses[j].prefix == Prefixes[j];
    PrefixesAreLabels();
    PrefixesDiffer();
  }

  lemma PrefixesAreLabels()
    ensures forall j :: 0 <= j < |Prefixes| ==> IsLabel(Prefixes[j])
  {
  }

  lemma PrefixesDiffer()
    ensures forall a, b :: 0 <= a < b < |Prefixes| ==> Prefixes[a] != Prefixes[b]
  {
    assert "acronym"[0] != "meeting"[0] && "acronym"[0] != "session"[0] && "meeting"[0] != "session"[0];
    assert "location"[0] != "compound"[0];
  }

  /** All keys one `clean_query` call extracts are pairwise distinct. */
  lemma CleanQueryKeysDistinct(q: string)
    ensures KeysDistinct(CleanQuery(q).1)
  {
    CleanQueryPasses(q);
    AllPassesDistinct();
    RunPassesDistinct(Strip(q), AllPasses);
  }

  /** A query none of whose eight columns occurs comes back stripped, with
      nothing extracted. */
  lemma {:induction false} NoColumnUnchanged(q: string, passes: seq<Pattern>)
    requires forall j :: 0 <= j < |passes| ==> !Contains(q, passes[j].field)
    ensures RunPasses(q, passes) == (q, [])
    decreases |passes|
  {
    if passes != [] {
      NoFieldUnchanged(q, passes[0], 1);
      assert Pass(q, passes[0]) == (q, []);
      forall j | 0 <= j < |passes[1..]| ensures !Contains(q, passes[1..][j].field) {
        assert passes[1..][j] == passes[j + 1];
      }
      NoColumnUnchanged(q, passes[1..]);
      assert Pass(q, passes[0]).1 + RunPasses(q, passes[1..]).1 == [];
    }
  }

  lemma CleanQueryNoColumn(q: string)
    requires forall j :: 0 <= j < |AllPasses| ==> !Contains(Strip(q), AllPasses[j].field)
    ensures CleanQuery(q) == (Strip(q), [])
  {
    CleanQueryPasses(q);
    NoColumnUnchanged(Strip(q), AllPasses);
  }

  // ---------------------------------------------------------------------------
  // Two matches of one pass

  /** Two matches of a pass, with text around them in which the column
      cannot start, become `<field> = :<prefix>_1` and `<field> = :<prefix>_2`
      and record their texts in order, whatever their spacing around `=`:
      `compound = 'SOFT' OR compound='MEDIUM'` gives `compound_1` and
      `compound_2`. */
  lemma TwoMatches(p: Pattern, a: string, sp1: string, sp2: string, lit1: string,
                   o: string, sp3: string, sp4: string, lit2: string)
    requires p.field != [] && p.field[0] !in a && p.field[0] !in o
    requires OptSpace(sp1) && OptSpace(sp2) && lit1 != [] && '\'' !in lit1
    requires OptSpace(sp3) && OptSpace(sp4) && lit2 != [] && '\'' !in lit2
    ensures Pass(a + Assignment(p.field, sp1, sp2, lit1) + o + Assignment(p.field, sp3, sp4, lit2), p) ==
      (a + Replacement(p, 1) + o + Replacement(p, 2), [Item(p, 1, lit1), Item(p, 2, lit2)])
  {
    var m1 := Assignment(p.field, sp1, sp2, lit1);
    var m2 := Assignment(p.field, sp3, sp4, lit2);
    var r1 := Replacement(p, 1);
    var r2 := Replacement(p, 2);
    var i1 := Item(p, 1, lit1);
    var i2 := Item(p, 2, lit2);
    PrefixThenLast(p, o, sp3, sp4, lit2, 2);
    PrefixThenMatch(p, a, sp1, sp2, lit1, o + m2, 1);
    Assoc4(a, m1, o, m2);
    Assoc4(a, r1, o, r2);
    assert [i1] + [i2] == [i1, i2];
  }

  lemma Assoc4<T>(a: seq<T>, b: seq<T>, c: seq<T>, d: seq<T>)
    ensures a + b + c + d == a + (b + (c + d))
  {
  }

  lemma RightUnit<T>(a: seq<T>)
    ensures a + [] == a
  {
  }

  /** Text in which the column cannot start, then a match. */
  lemma PrefixThenMatch(p: Pattern, a: string, sp1: string, sp2: string, lit: string, b: string, n: int)
    requires p.field != [] && p.field[0] !in a
    requires OptSpace(sp1) && OptSpace(sp2) && lit != [] && '\'' !in lit
    ensures var rest := Rewrite(b, p, n + 1);
      Rewrite(a + (Assignment(p.field, sp1, sp2, lit) + b), p, n) ==
        (a + (Replacement(p, n) + rest.0), [Item(p, n, lit)] + rest.1)
  {
    SkipPrefix(a, Assignment(p.field, sp1, sp2, lit) + b, p, n);
    MatchFirst(p, sp1, sp2, lit, b, n);
  }

  /** Text in which the column cannot start, then a match that ends the
      text. */
  lemma PrefixThenLast(p: Pattern, a: string, sp1: string, sp2: string, lit: string, n: int)
    requires p.field != [] && p.field[0] !in a
    requires OptSpace(sp1) && OptSpace(sp2) && lit != [] && '\'' !in lit
    ensures Rewrite(a + Assignment(p.field, sp1, sp2, lit), p, n) == (a + Replacement(p, n), [Item(p, n, lit)])
  {
    LastMatch(p, sp1, sp2, lit, n);
    SkipPrefix(a, Assignment(p.field, sp1, sp2, lit), p, n);
  }

  /** A match that ends the text. */
  lemma LastMatch(p: Pattern, sp1: string, sp2: string, lit: string, n: int)
    requires OptSpace(sp1) && OptSpace(sp2) && lit != [] && '\'' !in lit
    ensures Rewrite(Assignment(p.field, sp1, sp2, lit), p, n) == (Replacement(p, n), [Item(p, n, lit)])
  {
    var t := Assignment(p.field, sp1, sp2, lit);
    MatchFirst(p, sp1, sp2, lit, [], n);
    RightUnit(t);
    assert Rewrite([], p, n + 1) == ([], []);
    RightUnit(Replacement(p, n));
    RightUnit([Item(p, n, lit)]);
  }
}

=== FILE: query_flow.dfy ===
/** `QueryFlow`: `run_query_flow`, which answers one user question.  The
    question is stored, the language model turns it into SQL, the query
    cleaner lifts the literal values out of it, each value is looked up in
    the vector store, the query is run, and the model's interpretation of
    the rows is stored and returned.  The language model, the vector search
    and the database are parameters; a model call that raises is `None`. */
module QueryFlow {
  import opened Wrappers
  import opened Text
  import QueryCleaner
  import SqlChain
  import opened ChatHistory

  /** What `execute_query` does: return rows, or raise. */
  datatype Execution<R> = Rows(rows: seq<R>) | Failed

  /** Everything one run produces. */
  datatype Flow<R> = Flow(
    history: History,                      // the histories afterwards
    shown: seq<Message>,                   // the history the model is shown
    sql: string,                           // the query the model wrote
    cleaned: string,                       // the query with its values replaced by placeholders
    params: map<string, SqlChain.Value>,   // the values bound to the placeholders
    results: seq<R>,                       // the rows, or none when the query failed
    answer: string)                        // the stored and returned interpretation

  /** What a run gives: the flow of a run that answered, or the histories
      left behind when a model call raised, which the caller sees as the
      exception. */
  datatype Run<R> = Answered(flow: Flow<R>) | Raised(history: History)

  /** The Redis history window that both model calls are shown. */
  function Shown(h: History, user: string): seq<Message> {
    RedisGet(h, user, DefaultLimit)
  }

  /** The window shown to the model once `question` is stored. */
  function Window(h: History, user: string, question: string): seq<Message> {
    Shown(RedisSetNext(h, user, question, "user"), user)
  }

  /** `m` is the last message of `xs`. */
  predicate EndsWith(xs: seq<Message>, m: Message) {
    xs != [] && xs[|xs| - 1] == m
  }

  /** A window of at least one message ends with the message appended last. */
  lemma LastEndsWith(xs: seq<Message>, m: Message, limit: int)
    requires limit > 0
    ensures EndsWith(Last(xs + [m], limit), m)
  {
    var r := Last(xs + [m], limit);
    assert r[|r| - 1] == (xs + [m])[|xs|];
  }

  /** Step 0 and step 1: store the question as a human message, then ask
      the model for SQL, showing it the history window, which now ends with
      the question.  The question is stored before the model is called, so
      it stays when the call raises. */
  function Ask(h: History, user: string, question: string,
               toSql: (seq<Message>, string) -> Option<string>): (r: (History, seq<Message>, Option<string>))
    ensures Get(r.0, user) == Get(h, user) + [Human(question)]
    ensures OthersUnchanged(h, r.0, user)
    ensures r.1 == Shown(r.0, user) && r.1 == Window(h, user, question)
    ensures EndsWith(r.1, Human(question)) && |r.1| <= DefaultLimit
    ensures r.2.None? <==> toSql(r.1, question).None?
    ensures r.2.Some? ==> r.2.value == SqlChain.ExtractSql(toSql(r.1, question).value)
  {
    var h1 := RedisSetNext(h, user, question, "user");
    assert Get(h1, user) == Get(h, user) + [Human(question)];
    LastEndsWith(Get(h, user), Human(question), DefaultLimit);
    assert EndsWith(Last(Get(h1, user), DefaultLimit), Human(question));
    var shown := Shown(h1, user);
    match toSql(shown, question)
    case None => (h1, shown, None)
    case Some(reply) => (h1, shown, Some(Strip(SqlChain.ExtractSql(reply))))
  }

  /** Step 5's last act: store the interpretation as an AI message. */
  function StoreAnswer(h: History, user: string, answer: string): (h': History)
    ensures Get(h', user) == Get(h, user) + [Ai(answer)]
    ensures OthersUnchanged(h, h', user)
  {
    assert "system" != "user";
    RedisSetNext(h, user, answer, "system")
  }

  /** `params` holds, under each extracted value's key, the value its
      vector search gives, and nothing else. */
  predicate Binds(data: seq<QueryCleaner.MatchData>, params: map<string, SqlChain.Value>,
                  search: QueryCleaner.MatchData -> SqlChain.Search) {
    |params| == |data| &&
    forall k :: 0 <= k < |data| ==>
      data[k].key in params && params[data[k].key] == SqlChain.FetchParam(data[k], search(data[k])).1
  }

  /** Steps 2 and 3: clean the query and look each extracted value up.  The
      source skips the lookups when nothing was extracted; the fold over no
      items is the empty map all the same. */
  function Bind(sql: string, search: QueryCleaner.MatchData -> SqlChain.Search): (r: (string, map<string, SqlChain.Value>))
    ensures r.0 == QueryCleaner.CleanQuery(sql).0
    ensures Binds(QueryCleaner.CleanQuery(sql).1, r.1, search)
  {
    var cleaned := QueryCleaner.CleanQuery(sql);
    var data := cleaned.1;
    var searches := seq(|data|, k requires 0 <= k < |data| => search(data[k]));
    SqlChain.CleanQueryParams(sql, searches);
    var params := if data == [] then map[] else SqlChain.Params(data, searches);
    (cleaned.0, params)
  }

  /** The rows of steps 2 to 4: none when the query raised. */
  function QueryRows<R>(sql: string, search: QueryCleaner.MatchData -> SqlChain.Search,
                        execute: (string, map<string, SqlChain.Value>) -> Execution<R>): seq<R> {
    var bound := Bind(sql, search);
    match execute(bound.0, bound.1)
    case Rows(rows) => rows
    case Failed => []
  }

  /** Steps 2 to 5 once the model wrote `sql` and explained the rows as
      `reply`: bind the values, run the query, store the answer. */
  function Answer<R>(h: History, user: string, shown: seq<Message>, sql: string,
                     search: QueryCleaner.MatchData -> SqlChain.Search,
                     execute: (string, map<string, SqlChain.Value>) -> Execution<R>,
                     reply: string): (f: Flow<R>)
    ensures Get(f.history, user) == Get(h, user) + [Ai(f.answer)]
    ensures OthersUnchanged(h, f.history, user)
    ensures f.shown == shown && f.sql == sql
    ensures f.cleaned == QueryCleaner.CleanQuery(sql).0
    ensures Binds(QueryCleaner.CleanQuery(sql).1, f.params, search)
    ensures execute(f.cleaned, f.params).Failed? ==> f.results == []
    ensures execute(f.cleaned, f.params).Rows? ==> f.results == execute(f.cleaned, f.params).rows
    ensures f.results == QueryRows(sql, search, execute)
    ensures NoEdgeSpace(f.answer) && f.answer == Strip(reply)
  {
    var bound := Bind(sql, search);
    var answer := Strip(reply);
    Flow(StoreAnswer(h, user, answer), shown, sql, bound.0, bound.1, QueryRows(sql, search, execute), answer)
  }

  /** `run_query_flow`.  `toSql` is the model asked for SQL, `interpret` the
      model asked to explain the rows; both see the history window and the
      question, and both run outside the `try`, so an exception from either
      leaves the stored question without an answer.  `search` is the vector
      store's top hit for an extracted value, `execute` the database; their
      failures are caught. */
  function RunQueryFlow<R>(
    h: History, user: string, question: string,
    toSql: (seq<Message>, string) -> Option<string>,
    search: QueryCleaner.MatchData -> SqlChain.Search,
    execute: (string, map<string, SqlChain.Value>) -> Execution<R>,
    interpret: (seq<Message>, string, seq<R>) -> Option<string>): (r: Run<R>)
    ensures toSql(Window(h, user, question), question).None? ==> r.Raised?
    ensures toSql(Window(h, user, question), question).Some? ==>
      var sql := SqlChain.ExtractSql(toSql(Window(h, user, question), question).value);
      (r.Raised? <==> interpret(Window(h, user, question), question, QueryRows(sql, search, execute)).None?)
    ensures r.Raised? ==>
      Get(r.history, user) == Get(h, user) + [Human(question)] &&
      OthersUnchanged(h, r.history, user)
    ensures r.Answered? ==>
      var f := r.flow;
      && Get(f.history, user) == Get(h, user) + [Human(question)] + [Ai(f.answer)]
      && OthersUnchanged(h, f.history, user)
      && f.shown == Window(h, user, question)
      && EndsWith(f.shown, Human(question)) && |f.shown| <= DefaultLimit
      && toSql(f.shown, question).Some?
      && f.sql == SqlChain.ExtractSql(toSql(f.shown, question).value)
      && f.cleaned == QueryCleaner.CleanQuery(f.sql).0
      && Binds(QueryCleaner.CleanQuery(f.sql).1, f.params, search)
      && (execute(f.cleaned, f.params).Failed? ==> f.results == [])
      && (execute(f.cleaned, f.params).Rows? ==> f.results == execute(f.cleaned, f.params).rows)
      && interpret(f.shown, question, f.results).Some?
      && NoEdgeSpace(f.answer) && f.answer == Strip(interpret(f.shown, question, f.results).value)
  {
    var asked := Ask(h, user, question, toSql);
    match asked.2
    case None => Raised(asked.0)
    case Some(sql) =>
      match interpret(asked.1, question, QueryRows(sql, search, execute))
      case None => Raised(asked.0)
      case Some(reply) => Answered(Answer(asked.0, user, asked.1, sql, search, execute, reply))
  }

  /** After a run that raised, the next question is shown to the model right
      after the unanswered one: the window ends with two human messages. */
  lemma RaisedThenAsk(h: History, h': History, user: string, q1: string, q2: string)
    requires Get(h', user) == Get(h, user) + [Human(q1)]
    ensures var w := Window(h', user, q2);
      |w| >= 2 && w[|w| - 2] == Human(q1) && w[|w| - 1] == Human(q2)
  {
    var xs := Get(h, user) + [Human(q1)] + [Human(q2)];
    assert Get(RedisSetNext(h', user, q2, "user"), user) == xs;
    var w := Last(xs, DefaultLimit);
    assert |w| >= 2;
    assert w == xs[|xs| - |w|..];
    assert w[|w| - 2] == xs[|xs| - 2] && w[|w| - 1] == xs[|xs| - 1];
  }

  /** A run appends the question and then the answer, so afterwards the
      user's human window ends with the question: the stored answer does not
      count as a human message. */
  lemma QuestionThenAnswerHumans(h: History, h': History, user: string, question: string, answer: string, limit: int)
    requires Get(h', user) == Get(h, user) + [Human(question)] + [Ai(answer)]
    ensures RedisGetHumans(h', user, limit) == Last(Humans(Get(h, user)) + [Human(question)], limit)
  {
    assert Get(h', user) == Get(h, user) + [Human(question), Ai(answer)];
    HumansAppend(Get(h, user), [Human(question), Ai(answer)]);
    assert Humans([Human(question), Ai(answer)]) == [Human(question)] + Humans([Ai(answer)]);
    assert Humans([Ai(answer)]) == [] + Humans([]);
  }
}

=== FILE: sponsor_order.dfy ===
/** The order of the sponsor list of `create_standard_name`
    (backend/create_db_v2.py:110-118), worked through on the 2023 Las Vegas
    meeting: the as-written order leaves "SILVER" behind, the corrected order
    does not.  Each fact about a concrete string is its own small lemma. */
module SponsorOrder {

  import opened Text
  import opened Normalise

  lemma ReplaceLeading(rest: string, pat: string)
    requires pat != [] && !Contains(" " + rest, pat)
    ensures ReplaceAll(pat + " " + rest, pat, []) == " " + rest
  {
    var name := pat + " " + rest;
    assert name[..|pat|] == pat;
    assert name[|pat|..] == " " + rest;
  }

  lemma StripLeadingSpace(rest: string)
    requires Strip(rest) == rest
    ensures Strip(" " + rest) == rest
  {
    StripSurrounded(" ", rest, []);
    assert " " + rest + [] == " " + rest;
  }

  lemma DropLeading(name: string, rest: string, sponsors: seq<string>, k: nat)
    requires NonEmptyTokens(sponsors) && k < |sponsors|
    requires name == sponsors[k] + " " + rest
    requires !Contains(" " + rest, sponsors[k]) && Strip(rest) == rest
    ensures RemoveFrom(name, sponsors, k) == RemoveFrom(rest, sponsors, k + 1)
  {
    ReplaceLeading(rest, sponsors[k]);
    StripLeadingSpace(rest);
  }

  lemma SkipCase(name: string, cases: seq<(string, string)>, j: nat, c: char)
    requires j < |cases| && c in cases[j].0 && c !in name
    ensures FirstCase(name, cases, j) == FirstCase(name, cases, j + 1)
  {
    NotContainsByChar(name, cases[j].0, c);
  }

  /** A name holding none of `M Ã O C Ñ Ö T` contains no special-case key. */
  lemma NoSpecialCase(name: string)
    requires 'M' !in name && 'Ã' !in name && 'O' !in name && 'C' !in name
    requires 'Ñ' !in name && 'Ö' !in name && 'T' !in name
    ensures FirstCase(name, SpecialCases, 0) == |SpecialCases|
  {
    SkipCase(name, SpecialCases, 0, 'M');
    SkipCase(name, SpecialCases, 1, 'Ã');
    SkipCase(name, SpecialCases, 2, 'O');
    SkipCase(name, SpecialCases, 3, 'C');
    NoLaterSpecialCase(name);
  }

  lemma NoLaterSpecialCase(name: string)
    requires 'M' !in name && 'Ñ' !in name && 'Ö' !in name && 'T' !in name
    ensures FirstCase(name, SpecialCases, 4) == |SpecialCases|
  {
    SkipCase(name, SpecialCases, 4, 'M');
    SkipCase(name, SpecialCases, 5, 'Ñ');
    SkipCase(name, SpecialCases, 6, 'Ö');
    SkipCase(name, SpecialCases, 7, 'T');
  }

  /** None of the thirteen tokens that both orders start with occurs in `name`. */
  predicate LeadingAbsent(name: string, sponsors: seq<string>)
    requires 13 <= |sponsors|
  {
    && !Contains(name, sponsors[0]) && !Contains(name, sponsors[1])
    && !Contains(name, sponsors[2]) && !Contains(name, sponsors[3])
    && !Contains(name, sponsors[4]) && !Contains(name, sponsors[5])
    && !Contains(name, sponsors[6]) && !Contains(name, sponsors[7])
    && !Contains(name, sponsors[8]) && !Contains(name, sponsors[9])
    && !Contains(name, sponsors[10]) && !Contains(name, sponsors[11])
    && !Contains(name, sponsors[12])
  }

  /** The removal loop when only token 13 occurs, at the very front. */
  lemma RemoveOnlyFourteenth(name: string, tail: string, sponsors: seq<string>)
    requires NonEmptyTokens(sponsors) && |sponsors| == 18
    requires Strip(name) == name && LeadingAbsent(name, sponsors)
    requires name == sponsors[13] + " " + tail
    requires !Contains(" " + tail, sponsors[13]) && Strip(tail) == tail
    requires !Contains(tail, sponsors[14]) && !Contains(tail, sponsors[15])
    requires !Contains(tail, sponsors[16]) && !Contains(tail, sponsors[17])
    ensures RemoveSponsors(name, sponsors) == tail
  {
    SkipAbsent(name, sponsors, 0);
    SkipAbsent(name, sponsors, 1);
    SkipAbsent(name, sponsors, 2);
    SkipAbsent(name, sponsors, 3);
    SkipAbsent(name, sponsors, 4);
    SkipAbsent(name, sponsors, 5);
    SkipAbsent(name, sponsors, 6);
    SkipAbsent(name, sponsors, 7);
    SkipAbsent(name, sponsors, 8);
    SkipAbsent(name, sponsors, 9);
    SkipAbsent(name, sponsors, 10);
    SkipAbsent(name, sponsors, 11);
    SkipAbsent(name, sponsors, 12);
    DropLeading(name, tail, sponsors, 13);
    SkipAbsent(tail, sponsors, 14);
    SkipAbsent(tail, sponsors, 15);
    SkipAbsent(tail, sponsors, 16);
    SkipAbsent(tail, sponsors, 17);
  }

  lemma LasVegasLacks0()
    ensures !Contains("HEINEKEN SILVER LAS VEGAS", SponsorsAsWritten[0])
  {
    NotContainsByChar("HEINEKEN SILVER LAS VEGAS", SponsorsAsWritten[0], 'F');
  }

  lemma LasVegasLacks1()
    ensures !Contains("HEINEKEN SILVER LAS VEGAS", SponsorsAsWritten[1])
  {
    NotContainsByChar("HEINEKEN SILVER LAS VEGAS", SponsorsAsWritten[1], 'M');
  }

  lemma LasVegasLacks2()
    ensures !Contains("HEINEKEN SILVER LAS VEGAS", SponsorsAsWritten[2])
  {
    NotContainsByChar("HEINEKEN SILVER LAS VEGAS", SponsorsAsWritten[2], 'U');
  }

  lemma LasVegasLacks3()
    ensures !Contains("HEINEKEN SILVER LAS VEGAS", SponsorsAsWritten[3])
  {
    NotContainsByChar("HEINEKEN SILVER LAS VEGAS", SponsorsAsWritten[3], 'T');
  }

  lemma LasVegasLacks4()
    ensures !Contains("HEINEKEN SILVER LAS VEGAS", SponsorsAsWritten[4])
  {
    NotContainsByChar("HEINEKEN SILVER LAS VEGAS", SponsorsAsWritten[4], 'O');
  }

  lemma LasVegasLacks5()
    ensures !Contains("HEINEKEN SILVER LAS VEGAS", SponsorsAsWritten[5])
  {
    NotContainsByChar("HEINEKEN SILVER LAS VEGAS", SponsorsAsWritten[5], 'M');
  }

  lemma LasVegasLacks6()
    ensures !Contains("HEINEKEN SILVER LAS VEGAS", SponsorsAsWritten[6])
  {
    NotContainsByChar("HEINEKEN SILVER LAS VEGAS", SponsorsAsWritten[6], 'O');
  }

  lemma LasVegasLacks7()
    ensures !Contains("HEINEKEN SILVER LAS VEGAS", SponsorsAsWritten[7])
  {
    NotContainsByChar("HEINEKEN SILVER LAS VEGAS", SponsorsAsWritten[7], 'C');
  }

  lemma LasVegasLacks8()
    ensures !Contains("HEINEKEN SILVER LAS VEGAS", SponsorsAsWritten[8])
  {
    NotContainsByChar("HEINEKEN SILVER LAS VEGAS", SponsorsAsWritten[8], 'T');
  }

  lemma LasVegasLacks9()
    ensures !Contains("HEINEKEN SILVER LAS VEGAS", SponsorsAsWritten[9])
  {
    NotContainsByChar("HEINEKEN SILVER LAS VEGAS", SponsorsAsWritten[9], 'P');
  }

  lemma LasVegasLacks10()
    ensures !Contains("HEINEKEN SILVER LAS VEGAS", SponsorsAsWritten[10])
  {
    NotContainsByChar("HEINEKEN SILVER LAS VEGAS", SponsorsAsWritten[10], 'W');
  }

  lemma LasVegasLacks11()
    ensures !Contains("HEINEKEN SILVER LAS VEGAS", SponsorsAsWritten[11])
  {
    NotContainsByChar("HEINEKEN SILVER LAS VEGAS", SponsorsAsWritten[11], 'Q');
  }

  lemma LasVegasLacks12()
    ensures !Contains("HEINEKEN SILVER LAS VEGAS", SponsorsAsWritten[12])
  {
    NotContainsByChar("HEINEKEN SILVER LAS VEGAS", SponsorsAsWritten[12], 'M');
  }

  lemma SilverLasVegasLacks13()
    ensures !Contains(" " + "SILVER LAS VEGAS", SponsorsAsWritten[13])
  {
    NotContainsByChar(" " + "SILVER LAS VEGAS", SponsorsAsWritten[13], 'H');
  }

  lemma SilverLasVegasLacks14()
    ensures !Contains("SILVER LAS VEGAS", SponsorsAsWritten[14])
  {
    NotContainsByChar("SILVER LAS VEGAS", SponsorsAsWritten[14], 'P');
  }

  lemma SilverLasVegasLacks15()
    ensures !Contains("SILVER LAS VEGAS", SponsorsAsWritten[15])
  {
    NotContainsByChar("SILVER LAS VEGAS", SponsorsAsWritten[15], 'T');
  }

  lemma SilverLasVegasLacks16()
    ensures !Contains("SILVER LAS VEGAS", SponsorsAsWritten[16])
  {
    NotContainsByChar("SILVER LAS VEGAS", SponsorsAsWritten[16], 'O');
  }

  lemma SilverLasVegasLacks17()
    ensures !Contains("SILVER LAS VEGAS", SponsorsAsWritten[17])
  {
    NotContainsByChar("SILVER LAS VEGAS", SponsorsAsWritten[17], 'H');
  }

  lemma LasVegasLacks13()
    ensures !Contains(" " + "LAS VEGAS", Sponsors[13])
  {
    NotContainsByChar(" " + "LAS VEGAS", Sponsors[13], 'H');
  }

  lemma LasVegasLacks14()
    ensures !Contains("LAS VEGAS", Sponsors[14])
  {
    NotContainsByChar("LAS VEGAS", Sponsors[14], 'H');
  }

  lemma LasVegasLacks15()
    ensures !Contains("LAS VEGAS", Sponsors[15])
  {
    NotContainsByChar("LAS VEGAS", Sponsors[15], 'P');
  }

  lemma LasVegasLacks16()
    ensures !Contains("LAS VEGAS", Sponsors[16])
  {
    NotContainsByChar("LAS VEGAS", Sponsors[16], 'T');
  }

  lemma LasVegasLacks17()
    ensures !Contains("LAS VEGAS", Sponsors[17])
  {
    NotContainsByChar("LAS VEGAS", Sponsors[17], 'O');
  }

  lemma LasVegasStripped()
    ensures Strip("HEINEKEN SILVER LAS VEGAS") == "HEINEKEN SILVER LAS VEGAS"
  {
    StripOfTrimmed("HEINEKEN SILVER LAS VEGAS");
  }

  lemma SilverLasVegasStripped()
    ensures Strip("SILVER LAS VEGAS") == "SILVER LAS VEGAS"
  {
    StripOfTrimmed("SILVER LAS VEGAS");
  }

  lemma LasVegasTailStripped()
    ensures Strip("LAS VEGAS") == "LAS VEGAS"
  {
    LasVegasCollapsed();
    StripOfTrimmed("LAS VEGAS");
  }

  /** The first thirteen tokens are the same in both orders. */
  lemma LeadingTokensShared()
    ensures forall k :: 0 <= k < 13 ==> SponsorsAsWritten[k] == Sponsors[k]
  {
  }

  lemma LasVegasLeadingAbsent()
    ensures LeadingAbsent("HEINEKEN SILVER LAS VEGAS", SponsorsAsWritten)
  {
    LasVegasLacks0();
    LasVegasLacks1();
    LasVegasLacks2();
    LasVegasLacks3();
    LasVegasLacks4();
    LasVegasLacks5();
    LasVegasLacks6();
    LasVegasLacks7();
    LasVegasLacks8();
    LasVegasLacks9();
    LasVegasLacks10();
    LasVegasLacks11();
    LasVegasLacks12();
  }

  lemma LasVegasLeadingAbsentCorrected()
    ensures LeadingAbsent("HEINEKEN SILVER LAS VEGAS", Sponsors)
  {
    LasVegasLeadingAbsent();
    LeadingTokensShared();
  }

  lemma AsWrittenWellFormed()
    ensures NonEmptyTokens(SponsorsAsWritten) && |SponsorsAsWritten| == 18
    ensures "HEINEKEN SILVER LAS VEGAS" == SponsorsAsWritten[13] + " " + "SILVER LAS VEGAS"
  {
  }

  lemma CorrectedWellFormed()
    ensures NonEmptyTokens(Sponsors) && |Sponsors| == 18
    ensures "HEINEKEN SILVER LAS VEGAS" == Sponsors[13] + " " + "LAS VEGAS"
  {
  }

  /** In the source's order "HEINEKEN" (index 13) is removed before
      "HEINEKEN SILVER" (index 17) gets its turn, so "SILVER" survives. */
  lemma HeinekenSilverShadowed()
    ensures RemoveSponsors("HEINEKEN SILVER LAS VEGAS", SponsorsAsWritten) == "SILVER LAS VEGAS"
  {
    AsWrittenWellFormed();
    LasVegasLeadingAbsent();
    LasVegasStripped();
    SilverLasVegasStripped();
    SilverLasVegasLacks13();
    SilverLasVegasLacks14();
    SilverLasVegasLacks15();
    SilverLasVegasLacks16();
    SilverLasVegasLacks17();
    RemoveOnlyFourteenth("HEINEKEN SILVER LAS VEGAS", "SILVER LAS VEGAS", SponsorsAsWritten);
  }

  /** In the corrected order the whole token is removed. */
  lemma HeinekenSilverRemoved()
    ensures RemoveSponsors("HEINEKEN SILVER LAS VEGAS", Sponsors) == "LAS VEGAS"
  {
    CorrectedWellFormed();
    LasVegasLeadingAbsentCorrected();
    LasVegasStripped();
    LasVegasTailStripped();
    LasVegasLacks13();
    LasVegasLacks14();
    LasVegasLacks15();
    LasVegasLacks16();
    LasVegasLacks17();
    RemoveOnlyFourteenth("HEINEKEN SILVER LAS VEGAS", "LAS VEGAS", Sponsors);
  }

  /** "HEINEKEN" comes before the longer token that contains it in the source's
      list, and after it in the corrected list. */
  lemma SponsorPositions()
    ensures SponsorsAsWritten[13] == "HEINEKEN" && SponsorsAsWritten[17] == "HEINEKEN SILVER"
    ensures Contains(SponsorsAsWritten[17], SponsorsAsWritten[13])
    ensures Sponsors[13] == "HEINEKEN SILVER" && Sponsors[14] == "HEINEKEN"
  {
    assert StartsWith("HEINEKEN SILVER", "HEINEKEN");
  }

  lemma LasVegasUpper()
    ensures Upper("HEINEKEN SILVER LAS VEGAS") == "HEINEKEN SILVER LAS VEGAS"
  {
  }

  lemma SilverLasVegasCollapsed()
    ensures Collapse("SILVER LAS VEGAS") == "SILVER LAS VEGAS"
  {
    assert NoSpace("SILVER") && NoSpace("LAS") && NoSpace("VEGAS");
    ThreeWordsCollapsed("SILVER", "LAS", "VEGAS");
    assert "SILVER" + " " + ("LAS" + " " + "VEGAS") == "SILVER LAS VEGAS";
  }

  lemma LasVegasCollapsed()
    ensures Collapse("LAS VEGAS") == "LAS VEGAS"
  {
    assert NoSpace("LAS") && NoSpace("VEGAS");
    TwoWordsCollapsed("LAS", "VEGAS");
    assert "LAS" + " " + "VEGAS" == "LAS VEGAS";
  }

  lemma TwoWordsCollapsed(a: string, b: string)
    requires a != [] && NoSpace(a) && b != [] && NoSpace(b)
    ensures Collapse(a + " " + b) == a + " " + b
  {
    var ws := [a, b];
    assert JoinSpace(ws) == a + " " + JoinSpace([b]);
    CollapseJoined(ws);
  }

  lemma ThreeWordsCollapsed(a: string, b: string, c: string)
    requires a != [] && NoSpace(a) && b != [] && NoSpace(b) && c != [] && NoSpace(c)
    ensures Collapse(a + " " + (b + " " + c)) == a + " " + (b + " " + c)
  {
    var ws := [a, b, c];
    assert ws[1..] == [b, c] && [b, c][1..] == [c];
    assert JoinSpace([b, c]) == b + " " + c;
    assert JoinSpace(ws) == a + " " + (b + " " + c);
    CollapseJoined(ws);
  }

  lemma SilverLasVegasNoCase()
    ensures FirstCase("SILVER LAS VEGAS", SpecialCases, 0) == |SpecialCases|
  {
    NoSpecialCase("SILVER LAS VEGAS");
  }

  lemma LasVegasNoCase()
    ensures FirstCase("LAS VEGAS", SpecialCases, 0) == |SpecialCases|
  {
    NoSpecialCase("LAS VEGAS");
  }

  /** As written, the standard name of the Las Vegas meeting keeps "SILVER". */
  lemma LasVegasAsWritten()
    ensures StandardNameAsWritten("HEINEKEN SILVER LAS VEGAS") == "SILVER LAS VEGAS"
  {
    LasVegasUpper();
    HeinekenSilverShadowed();
    SilverLasVegasCollapsed();
    SilverLasVegasNoCase();
  }

  /** With the corrected order it is "LAS VEGAS". */
  lemma LasVegasCorrected()
    ensures StandardName("HEINEKEN SILVER LAS VEGAS") == "LAS VEGAS"
  {
    LasVegasUpper();
    HeinekenSilverRemoved();
    LasVegasCollapsed();
    LasVegasNoCase();
  }
}

=== FILE: sql_chain.dfy ===
/** `SqlChain`: the deterministic pieces of the question-to-SQL chain —
    `extract_sql`, which takes the SQL out of the model's reply, and the
    parameter lookup of `run_query_flow`, which replaces every extracted
    literal by the closest value stored in its vector collection.  The model
    call, the vector search and the SQL execution are oracles. */
module SqlChain {
  import opened Wrappers
  import opened Text
  import QueryCleaner
  import Vocabulary

  // ---------------------------------------------------------------------------
  // `extract_sql`

  /** A character `s` matches under `re.IGNORECASE`: `s`, `S`, and the long s
      U+017F, which folds to `s`. */
  predicate IsS(c: char) {
    c == 's' || c == 'S' || c == 'ſ'
  }

  /** Three backticks start at `i`. */
  predicate TicksAt(s: string, i: nat) {
    i + 3 <= |s| && s[i] == '`' && s[i + 1] == '`' && s[i + 2] == '`'
  }

  /** The opening fence "```sql", in any case, starts at `i`. */
  predicate FenceAt(s: string, i: nat) {
    i + 6 <= |s| && TicksAt(s, i) && IsS(s[i + 3]) &&
    (s[i + 4] == 'q' || s[i + 4] == 'Q') && (s[i + 5] == 'l' || s[i + 5] == 'L')
  }

  /** The first opening fence at or after `i`. */
  function FindFence(s: string, i: nat): (r: Option<nat>)
    ensures r.Some? ==> i <= r.value && r.value + 6 <= |s|
    decreases |s| - i
  {
    if i + 6 > |s| then None
    else if FenceAt(s, i) then Some(i)
    else FindFence(s, i + 1)
  }

  /** The first three backticks at or after `i`. */
  function FindTicks(s: string, i: nat): (r: Option<nat>)
    ensures r.Some? ==> i <= r.value && r.value + 3 <= |s|
    decreases |s| - i
  {
    if i + 3 > |s| then None
    else if TicksAt(s, i) then Some(i)
    else FindTicks(s, i + 1)
  }

  /** `p` is the first opening fence at or after `from`. */
  ghost predicate FirstFence(s: string, from: nat, p: nat) {
    from <= p && FenceAt(s, p) && forall j :: from <= j < p ==> !FenceAt(s, j)
  }

  /** `q` is the first closing "```" at or after `from`. */
  ghost predicate FirstTicks(s: string, from: nat, q: nat) {
    from <= q && TicksAt(s, q) && forall j :: from <= j < q ==> !TicksAt(s, j)
  }

  /** The search finds the first fence. */
  lemma {:induction false} FindFenceIs(s: string, i: nat, p: nat)
    requires FirstFence(s, i, p)
    ensures FindFence(s, i) == Some(p)
    decreases p - i
  {
    if i < p {
      assert !FenceAt(s, i);
      FindFenceIs(s, i + 1, p);
    }
  }

  /** The search finds nothing where there is no fence. */
  lemma {:induction false} FindFenceNone(s: string, i: nat)
    requires forall j :: i <= j ==> !FenceAt(s, j)
    ensures FindFence(s, i) == None
    decreases |s| - i
  {
    if i + 6 <= |s| {
      FindFenceNone(s, i + 1);
    }
  }

  /** The search finds the first "```". */
  lemma {:induction false} FindTicksIs(s: string, i: nat, q: nat)
    requires FirstTicks(s, i, q)
    ensures FindTicks(s, i) == Some(q)
    decreases q - i
  {
    if i < q {
      assert !TicksAt(s, i);
      FindTicksIs(s, i + 1, q);
    }
  }

  lemma {:induction false} FindTicksNone(s: string, i: nat)
    requires forall j :: i <= j ==> !TicksAt(s, j)
    ensures FindTicks(s, i) == None
    decreases |s| - i
  {
    if i + 3 <= |s| {
      FindTicksNone(s, i + 1);
    }
  }

  /** `extract_sql`: the text between the first "```sql" and the next "```",
      stripped, or the whole reply stripped when there is no such pair.  The
      pattern's `\s*` on either side of the lazy group only takes whitespace
      that the final `strip()` removes anyway, so the group is taken here as
      everything between the fence and the closing backticks. */
  function ExtractSql(text: string): (r: string)
    ensures NoEdgeSpace(r) && Strip(r) == r
  {
    var body := Body(text);
    StripIdempotent(body);
    Strip(body)
  }

  /** The part of the reply `extract_sql` strips: what lies between the
      first fence and the next "```", or the whole reply. */
  function Body(text: string): string {
    match FindFence(text, 0)
    case None => text
    case Some(p) =>
      match FindTicks(text, p + 6)
      case None => text
      case Some(q) => text[p + 6..q]
  }

  /** With a fence and a closing "```" after it, the result is what lies
      between the first fence and the next "```", stripped. */
  lemma ExtractSqlBetween(text: string, p: nat, q: nat)
    requires FirstFence(text, 0, p) && FirstTicks(text, p + 6, q)
    ensures ExtractSql(text) == Strip(text[p + 6..q])
  {
    FindFenceIs(text, 0, p);
    FindTicksIs(text, p + 6, q);
    assert Body(text) == text[p + 6..q];
  }

  /** Without a fence, the result is the reply stripped. */
  lemma ExtractSqlNoFence(text: string)
    requires forall j :: !FenceAt(text, j)
    ensures ExtractSql(text) == Strip(text)
  {
    FindFenceNone(text, 0);
    assert Body(text) == text;
  }

  /** With a fence but no "```" after it, the result is the reply stripped. */
  lemma ExtractSqlUnclosed(text: string, p: nat)
    requires FirstFence(text, 0, p) && forall j :: p + 6 <= j ==> !TicksAt(text, j)
    ensures ExtractSql(text) == Strip(text)
  {
    FindFenceIs(text, 0, p);
    FindTicksNone(text, p + 6);
    assert Body(text) == text;
  }

  /** A reply that wraps a backtick-free statement in a fence, with nothing
      but whitespace between the fence and the statement and before the
      closing "```", and no backtick before the fence, gives back the
      statement, stripped. */
  lemma ExtractSqlFenced(a: string, w1: string, body: string, w2: string, b: string)
    requires '`' !in a && '`' !in body && AllSpace(w1) && AllSpace(w2)
    ensures ExtractSql(a + "```sql" + w1 + body + w2 + "```" + b) == Strip(body)
  {
    var inner := w1 + body + w2;
    NoTicks(w1, body, w2);
    FencedBody(a, inner, b);
    assert a + "```sql" + w1 + body + w2 + "```" + b == a + ("```sql" + (inner + ("```" + b)));
    StripSurrounded(w1, body, w2);
  }

  /** The body of a fenced, backtick-free statement is the statement. */
  lemma FencedBody(a: string, inner: string, b: string)
    requires '`' !in a && '`' !in inner
    ensures Body(a + ("```sql" + (inner + ("```" + b)))) == inner
  {
    var f := "```sql";
    var c := "```" + b;
    var text := a + (f + (inner + c));
    FenceFound(a, f, inner + c);
    var x := a + f;
    assert text == x + (inner + c);
    TicksFound(x, inner, c);
    assert text[|x|..|x| + |inner|] == inner;
  }

  /** After backtick-free text, a fence is the first one. */
  lemma FenceFound(a: string, f: string, t: string)
    requires '`' !in a && FenceAt(f, 0)
    ensures FindFence(a + (f + t), 0) == Some(|a|)
  {
    var text := a + (f + t);
    forall j | 0 <= j < |a| ensures !FenceAt(text, j) {
      assert text[j] == a[j];
    }
    assert forall j :: 0 <= j < 6 ==> text[|a| + j] == f[j];
    FindFenceIs(text, 0, |a|);
  }

  /** After backtick-free text, the next "```" is the first one. */
  lemma TicksFound(x: string, inner: string, c: string)
    requires '`' !in inner && TicksAt(c, 0)
    ensures FindTicks(x + (inner + c), |x|) == Some(|x| + |inner|)
  {
    var text := x + (inner + c);
    forall j | |x| <= j < |x| + |inner| ensures !TicksAt(text, j) {
      assert text[j] == inner[j - |x|];
    }
    assert forall j :: 0 <= j < 3 ==> text[|x| + |inner| + j] == c[j];
    FindTicksIs(text, |x|, |x| + |inner|);
  }

  lemma NoTicks(w1: string, body: string, w2: string)
    requires '`' !in body && AllSpace(w1) && AllSpace(w2)
    ensures '`' !in w1 + body + w2
  {
  }

  // The pattern itself: "```sql", a greedy `\s*`, a lazy group, a greedy
  // `\s*` and "```", searched left to right.  Backtracking the greedy runs
  // never helps: a shorter run leaves a whitespace character where the next
  // part of the pattern needs a backtick or the group.

  /** The end of the whitespace run starting at `i`. */
  function SkipSpaces(s: string, i: nat): (k: nat)
    requires i <= |s|
    ensures i <= k <= |s| && (forall j :: i <= j < k ==> IsSpace(s[j])) && (k == |s| || !IsSpace(s[k]))
    decreases |s| - i
  {
    if i < |s| && IsSpace(s[i]) then SkipSpaces(s, i + 1) else i
  }

  /** `\s*```` matches at `e`. */
  predicate CloseAt(s: string, e: nat)
    requires e <= |s|
  {
    TicksAt(s, SkipSpaces(s, e))
  }

  /** The lazy group `(.*?)` from `e`: the first end at which the rest of the
      pattern matches. */
  function LazyEnd(s: string, e: nat): (r: Option<nat>)
    requires e <= |s|
    ensures r.Some? ==> e <= r.value <= |s|
    decreases |s| - e
  {
    if CloseAt(s, e) then Some(e)
    else if e == |s| then None
    else LazyEnd(s, e + 1)
  }

  /** The group the pattern captures at a fence, if it matches there. */
  function MatchAtFence(s: string, p: nat): (r: Option<(nat, nat)>)
    requires FenceAt(s, p)
    ensures r.Some? ==> r.value.0 <= r.value.1 <= |s|
  {
    var g := SkipSpaces(s, p + 6);
    var e := LazyEnd(s, g);
    if e.Some? then Some((g, e.value)) else None
  }

  /** `re.search`: the group of the leftmost position where the pattern
      matches. */
  function RegexSearch(s: string, i: nat): (r: Option<(nat, nat)>)
    ensures r.Some? ==> r.value.0 <= r.value.1 <= |s|
    decreases |s| - i
  {
    if i + 6 > |s| then None
    else if FenceAt(s, i) && MatchAtFence(s, i).Some? then MatchAtFence(s, i)
    else RegexSearch(s, i + 1)
  }

  /** `extract_sql` read literally: the captured group stripped, or the reply
      stripped. */
  function ExtractSqlRegex(text: string): string {
    var m := RegexSearch(text, 0);
    if m.Some? then Strip(text[m.value.0..m.value.1]) else Strip(text)
  }

  /** Taking the group between the fence and the first "```", spaces
      included, gives what the pattern gives. */
  lemma ExtractSqlIsRegex(text: string)
    ensures ExtractSqlRegex(text) == ExtractSql(text)
  {
    FindFenceSpec(text, 0);
    var fence := FindFence(text, 0);
    if fence.None? {
      RegexNone(text, 0);
      ExtractSqlNoFence(text);
    } else {
      var p := fence.value;
      FindTicksSpec(text, p + 6);
      var close := FindTicks(text, p + 6);
      if close.None? {
        RegexUnclosed(text, p);
        ExtractSqlUnclosed(text, p);
      } else {
        RegexClosed(text, p, close.value);
        ExtractSqlBetween(text, p, close.value);
      }
    }
  }

  /** A first fence with no "```" after it: the pattern matches nowhere. */
  lemma RegexUnclosed(text: string, p: nat)
    requires FirstFence(text, 0, p) && forall j :: p + 6 <= j ==> !TicksAt(text, j)
    ensures ExtractSqlRegex(text) == Strip(text)
  {
    RegexSkip(text, 0, p);
    LazyEndNone(text, SkipSpaces(text, p + 6));
    forall i | p < i ensures !FenceAt(text, i) {
      if FenceAt(text, i) {
        FenceAfterFence(text, p, i);
      }
    }
    RegexNone(text, p + 1);
    assert RegexSearch(text, 0) == None;
  }

  /** A first fence and the first "```" after it: the pattern matches at the
      fence, and its group strips to what lies between the two. */
  lemma RegexClosed(text: string, p: nat, q: nat)
    requires FirstFence(text, 0, p) && FirstTicks(text, p + 6, q)
    ensures ExtractSqlRegex(text) == Strip(text[p + 6..q])
  {
    RegexSkip(text, 0, p);
    var g := SkipSpaces(text, p + 6);
    assert g <= q;
    LazyEndFound(text, p + 6, g, q);
    var e := LazyEnd(text, g).value;
    assert RegexSearch(text, 0) == Some((g, e));
    GroupStrip(text, p + 6, g, e, q);
  }

  /** What the search lemmas say, in the form the agreement proof uses. */
  lemma FindFenceSpec(s: string, i: nat)
    ensures FindFence(s, i).Some? ==> FirstFence(s, i, FindFence(s, i).value)
    ensures FindFence(s, i).None? ==> forall j :: i <= j ==> !FenceAt(s, j)
    decreases |s| - i
  {
    if i + 6 <= |s| && !FenceAt(s, i) {
      FindFenceSpec(s, i + 1);
    }
  }

  lemma FindTicksSpec(s: string, i: nat)
    ensures FindTicks(s, i).Some? ==> FirstTicks(s, i, FindTicks(s, i).value)
    ensures FindTicks(s, i).None? ==> forall j :: i <= j ==> !TicksAt(s, j)
    decreases |s| - i
  {
    if i + 3 <= |s| && !TicksAt(s, i) {
      FindTicksSpec(s, i + 1);
    }
  }

  /** No fence from `i` on: the search finds nothing. */
  lemma {:induction false} RegexNone(s: string, i: nat)
    requires forall j :: i <= j ==> !FenceAt(s, j)
    ensures RegexSearch(s, i) == None
    decreases |s| - i
  {
    if i + 6 <= |s| {
      RegexNone(s, i + 1);
    }
  }

  /** The search passes over positions that are not fences. */
  lemma {:induction false} RegexSkip(s: string, i: nat, p: nat)
    requires i <= p && forall j :: i <= j < p ==> !FenceAt(s, j)
    ensures RegexSearch(s, i) == RegexSearch(s, p)
    decreases p - i
  {
    if i < p {
      assert !FenceAt(s, i);
      RegexSkip(s, i + 1, p);
    }
  }

  /** A fence cannot start inside another one, so a later fence starts past
      the first one's six characters. */
  lemma FenceAfterFence(s: string, p: nat, i: nat)
    requires FenceAt(s, p) && p < i && FenceAt(s, i)
    ensures p + 6 <= i
  {
  }

  /** No "```" from `e` on: the lazy group never closes. */
  lemma {:induction false} LazyEndNone(s: string, e: nat)
    requires e <= |s| && forall j :: e <= j ==> !TicksAt(s, j)
    ensures LazyEnd(s, e) == None
    decreases |s| - e
  {
    if e < |s| {
      LazyEndNone(s, e + 1);
    }
  }

  /** With `q` the first "```" from `from`, the lazy group from `e` closes at
      some end between `e` and `q` followed only by whitespace up to `q`. */
  lemma {:induction false} LazyEndFound(s: string, from: nat, e: nat, q: nat)
    requires FirstTicks(s, from, q) && from <= e <= q
    ensures LazyEnd(s, e).Some?
    ensures var e' := LazyEnd(s, e).value;
      e <= e' <= q && forall j :: e' <= j < q ==> IsSpace(s[j])
    decreases q - e
  {
    if !CloseAt(s, e) {
      LazyEndFound(s, from, e + 1, q);
    }
  }

  /** The group between the whitespace runs strips to what lies between the
      fence and the closing "```". */
  lemma GroupStrip(s: string, a: nat, g: nat, e: nat, q: nat)
    requires a <= g <= e <= q <= |s|
    requires forall j :: a <= j < g ==> IsSpace(s[j])
    requires forall j :: e <= j < q ==> IsSpace(s[j])
    ensures Strip(s[g..e]) == Strip(s[a..q])
  {
    assert s[a..q] == s[a..g] + s[g..e] + s[e..q];
    assert AllSpace(s[a..g]) by {
      assert forall j :: 0 <= j < g - a ==> s[a..g][j] == s[a + j];
    }
    assert AllSpace(s[e..q]) by {
      assert forall j :: 0 <= j < q - e ==> s[e..q][j] == s[e + j];
    }
    StripSurrounded(s[a..g], s[g..e], s[e..q]);
  }

  // ---------------------------------------------------------------------------
  // `_fetch_param`

  /** A payload value, as far as the lookup looks at it. */
  datatype Value = Null | Str(s: string) | Int(i: int) | Bool(b: bool)

  /** Python truthiness. */
  predicate Truthy(v: Value) {
    match v
    case Null => false
    case Str(s) => s != []
    case Int(i) => i != 0
    case Bool(b) => b
  }

  /** A payload, as its entries in insertion order.  A payload read from the
      vector store is a JSON object, so its keys are distinct
      (`DistinctKeys`); on a sequence with a repeated key, `Get` reads the
      first entry under that key. */
  type Payload = seq<(string, Value)>

  /** No key occurs twice, as in a Python dict. */
  predicate DistinctKeys(payload: Payload) {
    forall i, j :: 0 <= i < j < |payload| ==> payload[i].0 != payload[j].0
  }

  /** `payload.get(k)`: the value stored under `k`, or `None`. */
  function Get(payload: Payload, k: string): (v: Value)
    ensures v != Null ==> exists i :: 0 <= i < |payload| && payload[i] == (k, v)
    ensures (forall i :: 0 <= i < |payload| ==> payload[i].0 != k) ==> v == Null
    ensures forall i :: 0 <= i < |payload| && payload[i].0 == k && (forall j :: 0 <= j < i ==> payload[j].0 != k) ==>
      v == payload[i].1
    decreases |payload|
  {
    if payload == [] then Null
    else if payload[0].0 == k then payload[0].1
    else
      var v := Get(payload[1..], k);
      assert forall i :: 1 <= i < |payload| ==> payload[i] == payload[1..][i - 1];
      v
  }

  /** In a payload with distinct keys, `Get` gives the value of the one entry
      under the key. */
  lemma GetDistinct(payload: Payload, k: string, i: nat)
    requires DistinctKeys(payload) && i < |payload| && payload[i].0 == k
    ensures Get(payload, k) == payload[i].1
  {
  }

  /** The top hit of a search: the point's payload, which may be absent. */
  datatype Hit = Hit(payload: Option<Payload>)

  /** What `similarity_search_async` gives: the hits, or an exception. */
  datatype Search = Raised | Hits(hits: seq<Hit>)

  /** `payload.get("text") or payload.get("value") or next(iter(payload.values()), None)`:
      the last alternative is taken as it is, truthy or not. */
  function Choose(payload: Payload): (v: Value)
    ensures Truthy(Get(payload, "text")) ==> v == Get(payload, "text")
    ensures !Truthy(Get(payload, "text")) && Truthy(Get(payload, "value")) ==> v == Get(payload, "value")
    ensures !Truthy(Get(payload, "text")) && !Truthy(Get(payload, "value")) ==>
      v == (if payload == [] then Null else payload[0].1)
  {
    var text := Get(payload, "text");
    if Truthy(text) then text
    else
      var value := Get(payload, "value");
      if Truthy(value) then value
      else if payload == [] then Null
      else payload[0].1
  }

  /** `_fetch_param`: the item's key, with the chosen payload value of the top
      hit, or the item's own literal when the search raises, finds nothing, or
      the choice is `None`. */
  function FetchParam(item: QueryCleaner.MatchData, search: Search): (r: (string, Value))
    ensures r.0 == item.key && r.1 != Null
    ensures search.Raised? || (search.Hits? && search.hits == []) ==> r.1 == Str(item.data)
    ensures search.Hits? && search.hits != [] ==>
      var chosen := Choose(search.hits[0].payload.GetOr([]));
      r.1 == (if chosen == Null then Str(item.data) else chosen)
  {
    match search
    case Raised => (item.key, Str(item.data))
    case Hits(hits) =>
      if hits == [] then (item.key, Str(item.data))
      else
        var chosen := Choose(hits[0].payload.GetOr([]));
        (item.key, if chosen != Null then chosen else Str(item.data))
  }

  /** The payload the uploader stores with a point. */
  function PayloadOf(p: Vocabulary.Point): Payload {
    [("text", Str(p.text)), ("source_id", Int(p.sourceId))]
  }

  /** A hit on a point the uploader stored resolves to that point's text,
      whatever the literal was: the uploader never stores an empty text. */
  lemma FetchUploaded(item: QueryCleaner.MatchData, p: Vocabulary.Point, rest: seq<Hit>)
    requires p.text != []
    ensures FetchParam(item, Hits([Hit(Some(PayloadOf(p)))] + rest)) == (item.key, Str(p.text))
  {
    assert Get(PayloadOf(p), "text") == Str(p.text);
  }

  /** An empty text is falsy, so a payload whose text is empty and that has
      no truthy `value` yields its first entry — the empty text itself — and
      not the literal. */
  lemma FetchEmptyText(item: QueryCleaner.MatchData, sourceId: int)
    ensures FetchParam(item, Hits([Hit(Some([("text", Str([])), ("source_id", Int(sourceId))]))])) ==
      (item.key, Str([]))
  {
    var payload := [("text", Str([])), ("source_id", Int(sourceId))];
    assert Get(payload, "text") == Str([]);
    assert Get(payload, "value") == Null by {
      assert payload[0].0 != "value" && payload[1].0 != "value";
    }
  }

  /** A hit without a payload counts as an empty payload: the literal is
      kept. */
  lemma FetchNoPayload(item: QueryCleaner.MatchData, rest: seq<Hit>)
    ensures FetchParam(item, Hits([Hit(None)] + rest)) == (item.key, Str(item.data))
    ensures FetchParam(item, Hits([Hit(Some([]))] + rest)) == (item.key, Str(item.data))
  {
  }

  // ---------------------------------------------------------------------------
  // The parameters of `run_query_flow`

  /** `{k: v for k, v in fetched}`, the `k`-th item looked up with the `k`-th
      search: a later item overwrites an earlier one with the same key. */
  function Params(data: seq<QueryCleaner.MatchData>, searches: seq<Search>): (m: map<string, Value>)
    requires |searches| == |data|
    ensures m.Keys == set k | 0 <= k < |data| :: data[k].key
    decreases |data|
  {
    if data == [] then map[]
    else
      var n := |data| - 1;
      var front := Params(data[..n], searches[..n]);
      assert forall k :: 0 <= k < n ==> data[..n][k] == data[k];
      var f := FetchParam(data[n], searches[n]);
      front[f.0 := f.1]
  }

  /** The entry of each key is the lookup of the last item with that key. */
  lemma {:induction false} ParamsLast(data: seq<QueryCleaner.MatchData>, searches: seq<Search>, k: nat)
    requires |searches| == |data| && k < |data|
    requires forall j :: k < j < |data| ==> data[j].key != data[k].key
    ensures Params(data, searches)[data[k].key] == FetchParam(data[k], searches[k]).1
    decreases |data|
  {
    var n := |data| - 1;
    if k < n {
      ParamsLast(data[..n], searches[..n], k);
      assert data[..n][k] == data[k] && searches[..n][k] == searches[k];
      assert forall j :: k < j < n ==> data[..n][j] == data[j];
    }
  }

  /** With distinct keys every item has its own entry: one entry per item,
      holding that item's lookup. */
  lemma ParamsDistinct(data: seq<QueryCleaner.MatchData>, searches: seq<Search>)
    requires |searches| == |data| && QueryCleaner.KeysDistinct(data)
    ensures |Params(data, searches)| == |data|
    ensures forall k :: 0 <= k < |data| ==> Params(data, searches)[data[k].key] == FetchParam(data[k], searches[k]).1
  {
    forall k | 0 <= k < |data| ensures Params(data, searches)[data[k].key] == FetchParam(data[k], searches[k]).1 {
      ParamsLast(data, searches, k);
    }
    KeysCount(data);
  }

  /** Distinct keys make as many keys as items. */
  lemma {:induction false} KeysCount(data: seq<QueryCleaner.MatchData>)
    requires QueryCleaner.KeysDistinct(data)
    ensures |set k | 0 <= k < |data| :: data[k].key| == |data|
    decreases |data|
  {
    if data != [] {
      var n := |data| - 1;
      var front := data[..n];
      KeysCount(front);
      var s := set k | 0 <= k < n :: front[k].key;
      assert (set k | 0 <= k < |data| :: data[k].key) == s + {data[n].key};
      assert data[n].key !in s;
    }
  }

  /** `clean_query` followed by the lookups: every placeholder key the cleaner
      wrote has exactly one parameter, holding the lookup of its own
      literal. */
  lemma CleanQueryParams(q: string, searches: seq<Search>)
    requires |searches| == |QueryCleaner.CleanQuery(q).1|
    ensures var data := QueryCleaner.CleanQuery(q).1;
      var m := Params(data, searches);
      |m| == |data| &&
      forall k :: 0 <= k < |data| ==> data[k].key in m && m[data[k].key] == FetchParam(data[k], searches[k]).1
  {
    var data := QueryCleaner.CleanQuery(q).1;
    QueryCleaner.CleanQueryKeysDistinct(q);
    ParamsDistinct(data, searches);
  }
}

=== FILE: store.dfy ===
/** The relational store of the F1 database: the tables of the ORM models,
    their constraints, and the natural-key get-or-create pattern the importers
    build every row with.

    A table is a sequence of rows; the row at index `i` has id `i + 1`, the
    value an autoincrement key starting at 1 gives it.  A foreign key is such
    an id. */
module Store {
  import opened Wrappers
  import opened Failures

  // ---------------------------------------------------------------------------
  // Rows

  datatype Season = Season(year: int)

  /** A race weekend.  `dateStart` is an abstract day number; `gmtOffset` is
      in seconds. */
  datatype Meeting = Meeting(
    seasonId: int,
    meetingKey: int,
    countryName: Option<string>,
    countryCode: Option<string>,
    dateStart: Option<int>,
    gmtOffset: Option<int>,
    location: Option<string>,
    officialName: Option<string>,
    standardName: Option<string>)

  datatype Session = Session(meetingId: int, name: string, sessionType: string, sessionKey: int)

  datatype Driver = Driver(number: Option<int>, fullName: Option<string>, acronym: Option<string>)

  datatype SessionDriver = SessionDriver(driverId: int, sessionId: int)

  datatype Stint = Stint(sessionDriverId: int, compound: Option<string>, stintNumber: int, tyreAge: Option<int>)

  /** `lap_number` is NOT NULL, so it is an `int` and not an `Option`. */
  datatype Lap = Lap(
    stintId: int,
    lapNumber: int,
    sector1: Option<real>,
    sector2: Option<real>,
    sector3: Option<real>,
    pitOutLap: bool,
    duration: Option<real>)

  datatype SessionResult = SessionResult(
    sessionDriverId: int,
    lapsCompleted: int,
    dnf: bool,
    dns: bool,
    dsq: bool,
    finalPosition: Option<int>,
    fastestLapTime: Option<real>,
    totalTime: Option<real>,
    status: Option<string>)

  datatype StartGrid = StartGrid(sessionDriverId: int, gridPosition: int, qualyTime: Option<real>)

  /** `points_earned` is NOT NULL, so it is a `real` and not an `Option`. */
  datatype PointsScored = PointsScored(sessionResultId: int, points: real, position: Option<int>, fastestLapPoint: bool)

  datatype Db = Db(
    seasons: seq<Season>,
    meetings: seq<Meeting>,
    sessions: seq<Session>,
    drivers: seq<Driver>,
    sessionDrivers: seq<SessionDriver>,
    stints: seq<Stint>,
    laps: seq<Lap>,
    results: seq<SessionResult>,
    grids: seq<StartGrid>,
    points: seq<PointsScored>)

  /** The database right after `drop_all` / `create_all`. */
  const Empty: Db := Db([], [], [], [], [], [], [], [], [], [])

  /** An id names a row of a table with `n` rows. */
  predicate ValidId(id: int, n: int) {
    1 <= id <= n
  }

  // ---------------------------------------------------------------------------
  // Natural keys: the columns each get-or-create selects on

  function SeasonYear(s: Season): int { s.year }

  function MeetingKey(m: Meeting): (int, int) { (m.meetingKey, m.seasonId) }

  function SessionKey(s: Session): (int, string) { (s.meetingId, s.sessionType) }

  function DriverNumber(d: Driver): Option<int> { d.number }

  function SessionDriverKey(sd: SessionDriver): (int, int) { (sd.driverId, sd.sessionId) }

  function StintKey(st: Stint): (int, int) { (st.sessionDriverId, st.stintNumber) }

  // ---------------------------------------------------------------------------
  // Natural-key lookup

  /** The indices of the rows whose key is `k`, in increasing order. */
  function Hits<T, K(==)>(rows: seq<T>, key: T -> K, k: K): (hs: seq<nat>)
    ensures forall j :: 0 <= j < |hs| ==> hs[j] < |rows| && key(rows[hs[j]]) == k
    ensures forall i :: 0 <= i < |rows| && key(rows[i]) == k ==> i in hs
    ensures forall a, b :: 0 <= a < b < |hs| ==> hs[a] < hs[b]
    decreases |rows|
  {
    if rows == [] then []
    else
      var hs := Hits(rows[..|rows| - 1], key, k);
      if key(rows[|rows| - 1]) == k then hs + [|rows| - 1] else hs
  }

  /** `select(...).where(key == k)` then `scalar_one_or_none()`: the id of the
      only matching row, `None` when no row matches, `MultipleResultsFound`
      when two or more do. */
  function Lookup<T, K(==)>(rows: seq<T>, key: T -> K, k: K): (r: Result<Option<nat>, Failure>)
    ensures r == Ok(None) <==> forall i :: 0 <= i < |rows| ==> key(rows[i]) != k
    ensures r.Ok? && r.value.Some? ==>
      ValidId(r.value.value, |rows|) && key(rows[r.value.value - 1]) == k &&
      forall i :: 0 <= i < |rows| && key(rows[i]) == k ==> i == r.value.value - 1
    ensures r.Err? <==> exists i, j :: 0 <= i < j < |rows| && key(rows[i]) == k && key(rows[j]) == k
    ensures r.Err? ==> r.error == MultipleResultsFound
  {
    var hs := Hits(rows, key, k);
    if |hs| == 0 then Ok(None)
    else if |hs| == 1 then Ok(Some(hs[0] + 1))
    else
      assert key(rows[hs[0]]) == k && key(rows[hs[1]]) == k;
      Err(MultipleResultsFound)
  }

  /** No two rows share a key. */
  ghost predicate Unique<T, K>(rows: seq<T>, key: T -> K) {
    forall i, j :: 0 <= i < |rows| && 0 <= j < |rows| && key(rows[i]) == key(rows[j]) ==> i == j
  }

  /** At most one row of the table has key `k`. */
  ghost predicate AtMostOne<T, K>(rows: seq<T>, key: T -> K, k: K) {
    forall i, j :: 0 <= i < |rows| && 0 <= j < |rows| && key(rows[i]) == k && key(rows[j]) == k ==> i == j
  }

  /** Over a table whose keys are unique the lookup never raises. */
  lemma LookupOfUnique<T, K>(rows: seq<T>, key: T -> K, k: K)
    requires Unique(rows, key)
    ensures Lookup(rows, key, k).Ok?
  {
  }

  // ---------------------------------------------------------------------------
  // Get-or-create

  /** The get-or-create pattern: the id of the row keyed `k` if there is one,
      else the id of `made` appended.  `made` is built only when nothing
      matches, so an error in building it surfaces only then; `admissible` is
      the table's constraint check, which the flush enforces. */
  function GetOrCreate<T, K(==)>(rows: seq<T>, key: T -> K, k: K, made: Result<T, Failure>, admissible: T -> bool)
    : (r: Result<(seq<T>, nat), Failure>)
    requires made.Ok? ==> key(made.value) == k
    ensures r.Ok? ==> ValidId(r.value.1, |r.value.0|) && key(r.value.0[r.value.1 - 1]) == k
    ensures r.Ok? && r.value.0 != rows ==>
      made.Ok? && r.value == (rows + [made.value], |rows| + 1) &&
      forall i :: 0 <= i < |rows| ==> key(rows[i]) != k
    ensures (forall i :: 0 <= i < |rows| ==> key(rows[i]) != k) ==>
      r == if made.Err? then Err(made.error)
           else if admissible(made.value) then Ok((rows + [made.value], |rows| + 1))
           else Err(IntegrityError)
    ensures Unique(rows, key) ==> forall i :: 0 <= i < |rows| && key(rows[i]) == k ==> r == Ok((rows, i + 1))
    ensures (exists i, j :: 0 <= i < j < |rows| && key(rows[i]) == k && key(rows[j]) == k) ==>
      r == Err(MultipleResultsFound)
  {
    var found :- Lookup(rows, key, k);
    match found
    case Some(id) => Ok((rows, id))
    case None =>
      var row :- made;
      if admissible(row) then Ok((rows + [row], |rows| + 1)) else Err(IntegrityError)
  }

  /** A row with the key is found whenever no other row shares that key,
      however the table's other keys repeat: `scalar_one_or_none` looks only
      at the rows that match. */
  lemma GetOrCreateFound<T, K>(rows: seq<T>, key: T -> K, k: K, made: Result<T, Failure>, admissible: T -> bool, i: nat)
    requires made.Ok? ==> key(made.value) == k
    requires AtMostOne(rows, key, k)
    requires i < |rows| && key(rows[i]) == k
    ensures GetOrCreate(rows, key, k, made, admissible) == Ok((rows, i + 1))
  {
    var found := Lookup(rows, key, k);
    assert found != Ok(None);
  }

  /** Idempotence: once a get-or-create for `k` succeeded, a second one for
      the same key returns the same id and adds nothing, whatever it would have
      built. */
  lemma GetOrCreateTwice<T, K>(rows: seq<T>, key: T -> K, k: K,
                                   made: Result<T, Failure>, admissible: T -> bool,
                                   made2: Result<T, Failure>, admissible2: T -> bool)
    requires made.Ok? ==> key(made.value) == k
    requires made2.Ok? ==> key(made2.value) == k
    requires GetOrCreate(rows, key, k, made, admissible).Ok?
    ensures var first := GetOrCreate(rows, key, k, made, admissible).value;
      GetOrCreate(first.0, key, k, made2, admissible2) == Ok(first)
  {
    var first := GetOrCreate(rows, key, k, made, admissible).value;
    var again := Lookup(first.0, key, k);
    forall i | 0 <= i < |first.0| && key(first.0[i]) == k
      ensures i == first.1 - 1
    {
      if first.0 == rows {
        assert Lookup(rows, key, k) == Ok(Some(first.1));
      }
    }
    assert again == Ok(Some(first.1));
  }

  /** Get-or-create keeps a table's keys unique. */
  lemma GetOrCreateKeepsUnique<T, K>(rows: seq<T>, key: T -> K, k: K,
                                         made: Result<T, Failure>, admissible: T -> bool)
    requires made.Ok? ==> key(made.value) == k
    requires Unique(rows, key)
    requires GetOrCreate(rows, key, k, made, admissible).Ok?
    ensures Unique(GetOrCreate(rows, key, k, made, admissible).value.0, key)
  {
    var rows' := GetOrCreate(rows, key, k, made, admissible).value.0;
    if rows' != rows {
      forall i, j | 0 <= i < |rows'| && 0 <= j < |rows'| && key(rows'[i]) == key(rows'[j])
        ensures i == j
      {
        if i < |rows| && j < |rows| {
          assert rows'[i] == rows[i] && rows'[j] == rows[j];
        }
      }
    }
  }

  // ---------------------------------------------------------------------------
  // Constraints and inserts

  /** A row of any table. */
  datatype Row =
    | SeasonRow(season: Season)
    | MeetingRow(meeting: Meeting)
    | SessionRow(session: Session)
    | DriverRow(driver: Driver)
    | SessionDriverRow(sessionDriver: SessionDriver)
    | StintRow(stint: Stint)
    | LapRow(lap: Lap)
    | ResultRow(result: SessionResult)
    | GridRow(grid: StartGrid)
    | PointsRow(pointsScored: PointsScored)

  /** What a flush checks of a new row: the UNIQUE constraints on
      `season.year` and on a non-null `driver.driver_number` (NULLs never
      clash), and every FOREIGN KEY naming an existing row.  The natural keys
      of meetings, sessions, session drivers and stints are not constraints of
      the schema. */
  predicate Admissible(db: Db, row: Row): (ok: bool)
    ensures row.DriverRow? && row.driver.number.None? ==> ok
    ensures row.SeasonRow? && (exists i :: 0 <= i < |db.seasons| && db.seasons[i].year == row.season.year) ==> !ok
    ensures row.PointsRow? && !ValidId(row.pointsScored.sessionResultId, |db.results|) ==> !ok
  {
    match row
    case SeasonRow(s) => forall i :: 0 <= i < |db.seasons| ==> db.seasons[i].year != s.year
    case MeetingRow(m) => ValidId(m.seasonId, |db.seasons|)
    case SessionRow(s) => ValidId(s.meetingId, |db.meetings|)
    case DriverRow(d) => d.number.None? || forall i :: 0 <= i < |db.drivers| ==> db.drivers[i].number != d.number
    case SessionDriverRow(sd) => ValidId(sd.driverId, |db.drivers|) && ValidId(sd.sessionId, |db.sessions|)
    case StintRow(st) => ValidId(st.sessionDriverId, |db.sessionDrivers|)
    case LapRow(l) => ValidId(l.stintId, |db.stints|)
    case ResultRow(r) => ValidId(r.sessionDriverId, |db.sessionDrivers|)
    case GridRow(g) => ValidId(g.sessionDriverId, |db.sessionDrivers|)
    case PointsRow(p) => ValidId(p.sessionResultId, |db.results|)
  }

  /** The row added at the end of its table. */
  function Append(db: Db, row: Row): Db {
    match row
    case SeasonRow(s) => db.(seasons := db.seasons + [s])
    case MeetingRow(m) => db.(meetings := db.meetings + [m])
    case SessionRow(s) => db.(sessions := db.sessions + [s])
    case DriverRow(d) => db.(drivers := db.drivers + [d])
    case SessionDriverRow(sd) => db.(sessionDrivers := db.sessionDrivers + [sd])
    case StintRow(st) => db.(stints := db.stints + [st])
    case LapRow(l) => db.(laps := db.laps + [l])
    case ResultRow(r) => db.(results := db.results + [r])
    case GridRow(g) => db.(grids := db.grids + [g])
    case PointsRow(p) => db.(points := db.points + [p])
  }

  /** An appended row always changes the store. */
  lemma AppendChanges(db: Db, row: Row)
    ensures Append(db, row) != db
  {
    match row
    case SeasonRow(_) => assert |Append(db, row).seasons| == |db.seasons| + 1;
    case MeetingRow(_) => assert |Append(db, row).meetings| == |db.meetings| + 1;
    case SessionRow(_) => assert |Append(db, row).sessions| == |db.sessions| + 1;
    case DriverRow(_) => assert |Append(db, row).drivers| == |db.drivers| + 1;
    case SessionDriverRow(_) => assert |Append(db, row).sessionDrivers| == |db.sessionDrivers| + 1;
    case StintRow(_) => assert |Append(db, row).stints| == |db.stints| + 1;
    case LapRow(_) => assert |Append(db, row).laps| == |db.laps| + 1;
    case ResultRow(_) => assert |Append(db, row).results| == |db.results| + 1;
    case GridRow(_) => assert |Append(db, row).grids| == |db.grids| + 1;
    case PointsRow(_) => assert |Append(db, row).points| == |db.points| + 1;
  }

  /** `session.add(row)` and the flush that follows. */
  function Insert(db: Db, row: Row): (r: Result<Db, Failure>)
    ensures r.Ok? <==> Admissible(db, row)
    ensures r.Ok? ==> r.value == Append(db, row)
    ensures r.Err? ==> r.error == IntegrityError
  {
    if Admissible(db, row) then Ok(Append(db, row)) else Err(IntegrityError)
  }

  /** Every constraint of the schema holds of the stored rows. */
  ghost predicate Consistent(db: Db) {
    && (forall i, j :: 0 <= i < |db.seasons| && 0 <= j < |db.seasons| && db.seasons[i].year == db.seasons[j].year ==> i == j)
    && (forall i, j :: (0 <= i < |db.drivers| && 0 <= j < |db.drivers| &&
                        db.drivers[i].number.Some? && db.drivers[i].number == db.drivers[j].number) ==> i == j)
    && (forall i :: 0 <= i < |db.meetings| ==> ValidId(db.meetings[i].seasonId, |db.seasons|))
    && (forall i :: 0 <= i < |db.sessions| ==> ValidId(db.sessions[i].meetingId, |db.meetings|))
    && (forall i :: 0 <= i < |db.sessionDrivers| ==>
          ValidId(db.sessionDrivers[i].driverId, |db.drivers|) && ValidId(db.sessionDrivers[i].sessionId, |db.sessions|))
    && (forall i :: 0 <= i < |db.stints| ==> ValidId(db.stints[i].sessionDriverId, |db.sessionDrivers|))
    && (forall i :: 0 <= i < |db.laps| ==> ValidId(db.laps[i].stintId, |db.stints|))
    && (forall i :: 0 <= i < |db.results| ==> ValidId(db.results[i].sessionDriverId, |db.sessionDrivers|))
    && (forall i :: 0 <= i < |db.grids| ==> ValidId(db.grids[i].sessionDriverId, |db.sessionDrivers|))
    && (forall i :: 0 <= i < |db.points| ==> ValidId(db.points[i].sessionResultId, |db.results|))
  }

  /** Python truthiness of an optional string: present and non-empty. */
  predicate Truthy(v: Option<string>) {
    v.Some? && v.value != []
  }

  /** A driver row after the importer's update: the same number, and every
      non-empty name field kept. */
  predicate Refines(d: Driver, d': Driver) {
    && d'.number == d.number
    && (Truthy(d.fullName) ==> d'.fullName == d.fullName)
    && (Truthy(d.acronym) ==> d'.acronym == d.acronym)
  }

  /** `db'` holds every row of `db` under the same id: rows are only ever
      appended, and a driver row is only ever refined. */
  ghost predicate Extends(db: Db, db': Db) {
    && db.seasons <= db'.seasons && db.meetings <= db'.meetings && db.sessions <= db'.sessions
    && |db.drivers| <= |db'.drivers| && (forall i :: 0 <= i < |db.drivers| ==> Refines(db.drivers[i], db'.drivers[i]))
    && db.sessionDrivers <= db'.sessionDrivers && db.stints <= db'.stints
    && db.laps <= db'.laps && db.results <= db'.results && db.grids <= db'.grids && db.points <= db'.points
  }

  /** An insert succeeds exactly when the row meets the constraints; it then
      keeps every constraint and every stored row, and adds one row. */
  lemma InsertKeepsConsistent(db: Db, row: Row)
    requires Consistent(db)
    ensures Insert(db, row).Ok? <==> Admissible(db, row)
    ensures Insert(db, row).Err? ==> Insert(db, row).error == IntegrityError
    ensures Insert(db, row).Ok? ==> Consistent(Insert(db, row).value) && Extends(db, Insert(db, row).value)
  {
    if Admissible(db, row) {
      AppendExtends(db, row);
      match row
      case SeasonRow(s) => AppendSeason(db, s);
      case DriverRow(d) => AppendDriver(db, d);
      case _ => AppendChild(db, row);
    }
  }

  /** A season of a new year keeps the years unique. */
  lemma AppendSeason(db: Db, s: Season)
    requires Consistent(db) && Admissible(db, SeasonRow(s))
    ensures Consistent(Append(db, SeasonRow(s)))
  {
    var db' := Append(db, SeasonRow(s));
    forall i, j | 0 <= i < |db'.seasons| && 0 <= j < |db'.seasons| && db'.seasons[i].year == db'.seasons[j].year
      ensures i == j
    {
      if i < |db.seasons| && j < |db.seasons| {
        assert db'.seasons[i] == db.seasons[i] && db'.seasons[j] == db.seasons[j];
      }
    }
  }

  /** A driver without a number, or with a new one, keeps the numbers
      unique. */
  lemma AppendDriver(db: Db, d: Driver)
    requires Consistent(db) && Admissible(db, DriverRow(d))
    ensures Consistent(Append(db, DriverRow(d)))
  {
    var db' := Append(db, DriverRow(d));
    forall i, j | 0 <= i < |db'.drivers| && 0 <= j < |db'.drivers| &&
        db'.drivers[i].number.Some? && db'.drivers[i].number == db'.drivers[j].number
      ensures i == j
    {
      if i < |db.drivers| && j < |db.drivers| {
        assert db'.drivers[i] == db.drivers[i] && db'.drivers[j] == db.drivers[j];
      }
    }
  }

  /** A row whose parent exists keeps every reference valid. */
  lemma AppendChild(db: Db, row: Row)
    requires Consistent(db) && Admissible(db, row) && !row.SeasonRow? && !row.DriverRow?
    ensures Consistent(Append(db, row))
  {
  }

  /** Extension is a preorder: a chain of inserts keeps every earlier row. */
  lemma ExtendsTrans(a: Db, b: Db, c: Db)
    requires Extends(a, b) && Extends(b, c)
    ensures Extends(a, c)
  {
  }

  /** Appending a row keeps every stored row. */
  lemma AppendExtends(db: Db, row: Row)
    ensures Extends(db, Append(db, row))
  {
  }

  lemma ExtendsRefl(db: Db)
    ensures Extends(db, db)
  {
  }
}

=== FILE: text.dfy ===
/** Python and JavaScript string primitives the model relies on, over `seq<char>`.

    Character classes follow Python's `str.isspace()` exactly and JavaScript's
    `String.prototype.trim()` exactly; case mapping covers ASCII and the Latin-1
    letters only (see README, "Left out"). */
module Text {

  import opened Wrappers

  // ---------------------------------------------------------------------------
  // Character classes

  /** Python `str.isspace()` (also what `\s`, `strip()` and `split()` use). */
  predicate IsSpace(c: char) {
    || ('\t' <= c <= '\r')
    || ('\U{1C}' <= c <= '\U{1F}')
    || c == ' '
    || c == '\U{85}'
    || c == '\U{A0}'
    || c == '\U{1680}'
    || ('\U{2000}' <= c <= '\U{200A}')
    || c == '\U{2028}'
    || c == '\U{2029}'
    || c == '\U{202F}'
    || c == '\U{205F}'
    || c == '\U{3000}'
  }

  /** The characters JavaScript's `trim()` removes (WhiteSpace and LineTerminator). */
  predicate IsJsSpace(c: char) {
    || ('\t' <= c <= '\r')
    || c == ' '
    || c == '\U{A0}'
    || c == '\U{1680}'
    || ('\U{2000}' <= c <= '\U{200A}')
    || c == '\U{2028}'
    || c == '\U{2029}'
    || c == '\U{202F}'
    || c == '\U{205F}'
    || c == '\U{3000}'
    || c == '\U{FEFF}'
  }

  predicate IsDigit(c: char) {
    '0' <= c <= '9'
  }

  ghost predicate AllSpace(s: string) {
    forall i :: 0 <= i < |s| ==> IsSpace(s[i])
  }

  ghost predicate NoSpace(s: string) {
    forall i :: 0 <= i < |s| ==> !IsSpace(s[i])
  }

  ghost predicate AllDigits(s: string) {
    forall i :: 0 <= i < |s| ==> IsDigit(s[i])
  }

  // ---------------------------------------------------------------------------
  // Case mapping (ASCII and Latin-1 letters)

  /** The upper case of an ASCII or Latin-1 letter.  `ß` has no one-character
      upper case (Python gives `SS`) and is left as it is. */
  function UpperChar(c: char): (u: char)
    ensures 'a' <= c <= 'z' ==> u as int == c as int - 32
    ensures '\U{E0}' <= c <= '\U{FE}' && c != '\U{F7}' ==> u as int == c as int - 32
    ensures c == '\U{B5}' ==> u == '\U{39C}'
    ensures c == '\U{FF}' ==> u == '\U{178}'
    ensures !('a' <= c <= 'z') && !('\U{E0}' <= c <= '\U{FF}') && c != '\U{B5}' ==> u == c
    ensures c == '\U{F7}' ==> u == c
  {
    if 'a' <= c <= 'z' || ('\U{E0}' <= c <= '\U{FE}' && c != '\U{F7}') then
      (c as int - 32) as char
    else if c == '\U{B5}' then
      '\U{39C}'
    else if c == '\U{FF}' then
      '\U{178}'
    else
      c
  }

  /** The lower case of an ASCII or Latin-1 capital.  `×` is not a letter
      and is left as it is. */
  function LowerChar(c: char): (l: char)
    ensures 'A' <= c <= 'Z' ==> l as int == c as int + 32
    ensures '\U{C0}' <= c <= '\U{DE}' && c != '\U{D7}' ==> l as int == c as int + 32
    ensures c == '\U{D7}' ==> l == c
    ensures !('A' <= c <= 'Z') && !('\U{C0}' <= c <= '\U{DE}') ==> l == c
  {
    if 'A' <= c <= 'Z' || ('\U{C0}' <= c <= '\U{DE}' && c != '\U{D7}') then
      (c as int + 32) as char
    else
      c
  }

  /** Python `str.upper()`, restricted to the letters `UpperChar` maps. */
  function Upper(s: string): (r: string)
    ensures |r| == |s|
    ensures forall i :: 0 <= i < |s| ==> r[i] == UpperChar(s[i])
  {
    seq(|s|, i requires 0 <= i < |s| => UpperChar(s[i]))
  }

  /** Python `str.lower()`, restricted to the letters `LowerChar` maps. */
  function Lower(s: string): (r: string)
    ensures |r| == |s|
    ensures forall i :: 0 <= i < |s| ==> r[i] == LowerChar(s[i])
  {
    seq(|s|, i requires 0 <= i < |s| => LowerChar(s[i]))
  }

  lemma UpperIdempotent(s: string)
    ensures Upper(Upper(s)) == Upper(s)
  {
  }

  lemma LowerIdempotent(s: string)
    ensures Lower(Lower(s)) == Lower(s)
  {
  }

  // ---------------------------------------------------------------------------
  // Python strip()

  function TrimLeft(s: string): (r: string)
    ensures |r| <= |s| && r == s[|s| - |r|..]
    ensures r == [] || !IsSpace(r[0])
    ensures AllSpace(s[..|s| - |r|])
  {
    if s != [] && IsSpace(s[0]) then
      var r := TrimLeft(s[1..]);
      assert s[1..][..|s[1..]| - |r|] == s[1..|s| - |r|];
      r
    else
      s
  }

  function TrimRight(s: string): (r: string)
    ensures |r| <= |s| && r == s[..|r|]
    ensures r == [] || !IsSpace(r[|r| - 1])
    ensures AllSpace(s[|r|..])
  {
    if s != [] && IsSpace(s[|s| - 1]) then
      var r := TrimRight(s[..|s| - 1]);
      assert s[|r|..] == s[..|s| - 1][|r|..] + [s[|s| - 1]];
      r
    else
      s
  }

  /** Python `str.strip()` with no argument: whitespace removed from both ends,
      and nothing else. */
  function Strip(s: string): (r: string)
    ensures r == [] || (!IsSpace(r[0]) && !IsSpace(r[|r| - 1]))
    ensures |r| <= |s|
  {
    TrimRight(TrimLeft(s))
  }

  /** What `strip()` removed is whitespace, from the two ends only. */
  lemma StripSlice(s: string) returns (a: nat)
    ensures a + |Strip(s)| <= |s|
    ensures Strip(s) == s[a..a + |Strip(s)|]
    ensures AllSpace(s[..a])
    ensures AllSpace(s[a + |Strip(s)|..])
  {
    var t := TrimLeft(s);
    var r := TrimRight(t);
    a := |s| - |t|;
    SuffixSlices(s, a, |r|);
  }

  lemma SuffixSlices(s: string, a: nat, n: nat)
    requires a + n <= |s|
    ensures s[a..][..n] == s[a..a + n] && s[a..][n..] == s[a + n..]
  {
  }

  predicate NoEdgeSpace(s: string) {
    s == [] || (!IsSpace(s[0]) && !IsSpace(s[|s| - 1]))
  }

  lemma StripOfTrimmed(s: string)
    requires NoEdgeSpace(s)
    ensures Strip(s) == s
  {
  }

  lemma StripIdempotent(s: string)
    ensures Strip(Strip(s)) == Strip(s)
  {
    StripOfTrimmed(Strip(s));
  }

  lemma {:induction false} TrimLeftSpaces(a: string, s: string)
    requires AllSpace(a)
    ensures TrimLeft(a + s) == TrimLeft(s)
    decreases |a|
  {
    if a != [] {
      assert (a + s)[1..] == a[1..] + s;
      TrimLeftSpaces(a[1..], s);
    } else {
      assert a + s == s;
    }
  }

  lemma {:induction false} TrimRightSpaces(s: string, b: string)
    requires AllSpace(b)
    ensures TrimRight(s + b) == TrimRight(s)
    decreases |b|
  {
    if b != [] {
      assert (s + b)[..|s + b| - 1] == s + b[..|b| - 1];
      TrimRightSpaces(s, b[..|b| - 1]);
    } else {
      assert s + b == s;
    }
  }

  lemma {:induction false} TrimLeftAppend(s: string, b: string)
    requires !AllSpace(s)
    ensures TrimLeft(s + b) == TrimLeft(s) + b
    decreases |s|
  {
    if s != [] && IsSpace(s[0]) {
      assert (s + b)[1..] == s[1..] + b;
      assert !AllSpace(s[1..]) by {
        var i :| 0 <= i < |s| && !IsSpace(s[i]);
        assert s[1..][i - 1] == s[i];
      }
      TrimLeftAppend(s[1..], b);
    } else if s == [] {
      assert false;
    }
  }

  lemma TrimLeftAllSpace(s: string)
    requires AllSpace(s)
    ensures TrimLeft(s) == []
  {
    TrimLeftSpaces(s, []);
    assert s + [] == s;
  }

  /** Whitespace around a string never survives `strip()`. */
  lemma StripSurrounded(a: string, s: string, b: string)
    requires AllSpace(a) && AllSpace(b)
    ensures Strip(a + s + b) == Strip(s)
  {
    assert a + s + b == a + (s + b);
    TrimLeftSpaces(a, s + b);
    if AllSpace(s) {
      assert AllSpace(s + b);
      TrimLeftAllSpace(s + b);
      TrimLeftAllSpace(s);
    } else {
      TrimLeftAppend(s, b);
      TrimRightSpaces(TrimLeft(s), b);
    }
  }

  // ---------------------------------------------------------------------------
  // Substrings and replacement

  predicate StartsWith(s: string, p: string) {
    |p| <= |s| && s[..|p|] == p
  }

  /** Python `sub in s`. */
  predicate Contains(s: string, sub: string)
    decreases |s|
  {
    StartsWith(s, sub) || (s != [] && Contains(s[1..], sub))
  }

  lemma {:induction false} ContainsAt(s: string, sub: string, i: nat)
    requires i + |sub| <= |s| && s[i..i + |sub|] == sub
    ensures Contains(s, sub)
    decreases i
  {
    if i > 0 {
      assert s[1..][i - 1..i - 1 + |sub|] == s[i..i + |sub|];
      ContainsAt(s[1..], sub, i - 1);
    }
  }

  lemma {:induction false} ContainsWitness(s: string, sub: string) returns (i: nat)
    requires Contains(s, sub)
    ensures i + |sub| <= |s| && s[i..i + |sub|] == sub
    decreases |s|
  {
    if StartsWith(s, sub) {
      i := 0;
    } else {
      var j := ContainsWitness(s[1..], sub);
      assert s[1 + j..1 + j + |sub|] == s[1..][j..j + |sub|];
      i := j + 1;
    }
  }

  /** `sub` occurs in `s` starting at index `i`. */
  ghost predicate OccursAt(s: string, sub: string, i: int) {
    0 <= i && i + |sub| <= |s| && s[i..i + |sub|] == sub
  }

  /** `Contains` agrees with the positional reading of Python's `in`. */
  lemma ContainsIff(s: string, sub: string)
    ensures Contains(s, sub) <==> exists i :: OccursAt(s, sub, i)
  {
    if Contains(s, sub) {
      var i := ContainsWitness(s, sub);
      assert OccursAt(s, sub, i);
    }
    if exists i :: OccursAt(s, sub, i) {
      var i :| OccursAt(s, sub, i);
      ContainsAt(s, sub, i);
    }
  }

  /** A string cannot contain `sub` if some character of `sub` never occurs
      in it. */
  lemma NotContainsByChar(s: string, sub: string, c: char)
    requires c in sub && c !in s
    ensures !Contains(s, sub)
  {
    if Contains(s, sub) {
      var i := ContainsWitness(s, sub);
      assert false;
    }
  }

  /** Python `s.replace(pat, rep)` for a non-empty `pat`: every non-overlapping
      occurrence, scanning left to right, is replaced. */
  function ReplaceAll(s: string, pat: string, rep: string): (r: string)
    requires pat != []
    ensures !Contains(s, pat) ==> r == s
    ensures rep == [] ==> |r| <= |s|
    decreases |s|
  {
    if |s| < |pat| then
      s
    else if s[..|pat|] == pat then
      rep + ReplaceAll(s[|pat|..], pat, rep)
    else
      [s[0]] + ReplaceAll(s[1..], pat, rep)
  }

  /** Python `s.lstrip(chars)`: leading characters drawn from `chars` removed. */
  function LStripChars(s: string, chars: set<char>): (r: string)
    ensures |r| <= |s| && r == s[|s| - |r|..]
    ensures r == [] || r[0] !in chars
    ensures forall i :: 0 <= i < |s| - |r| ==> s[i] in chars
  {
    if s != [] && s[0] in chars then LStripChars(s[1..], chars) else s
  }

  /** Python `sep.join(parts)` for a one-character separator. */
  function JoinOn(parts: seq<string>, sep: char): string {
    if parts == [] then []
    else if |parts| == 1 then parts[0]
    else parts[0] + [sep] + JoinOn(parts[1..], sep)
  }

  /** Python `s.split(sep)` for a one-character separator: one more part than
      there are separators, none of them holding the separator, and joining
      them back gives `s`. */
  function SplitOn(s: string, sep: char): (parts: seq<string>)
    ensures |parts| == multiset(s)[sep] + 1
    ensures forall k :: 0 <= k < |parts| ==> sep !in parts[k]
    ensures JoinOn(parts, sep) == s
    decreases |s|
  {
    if sep !in s then
      assert multiset(s)[sep] == 0;
      [s]
    else
      var i := IndexOf(s, sep);
      var rest := SplitOn(s[i + 1..], sep);
      assert s == s[..i] + [sep] + s[i + 1..];
      assert multiset(s) == multiset(s[..i]) + multiset([sep]) + multiset(s[i + 1..]) by {
        calc {
          multiset(s);
          multiset(s[..i] + [sep] + s[i + 1..]);
          multiset(s[..i] + [sep]) + multiset(s[i + 1..]);
          multiset(s[..i]) + multiset([sep]) + multiset(s[i + 1..]);
        }
      }
      assert sep !in s[..i];
      [s[..i]] + rest
  }

  function IndexOf(s: string, c: char): (i: nat)
    requires c in s
    ensures i < |s| && s[i] == c && c !in s[..i]
  {
    if s[0] == c then 0 else
      var j := IndexOf(s[1..], c);
      assert s[1..][..j] == s[1..j + 1];
      j + 1
  }

  /** Splitting what was joined gives the parts back. */
  lemma {:induction false} SplitJoin(parts: seq<string>, sep: char)
    requires |parts| >= 1
    requires forall k :: 0 <= k < |parts| ==> sep !in parts[k]
    ensures SplitOn(JoinOn(parts, sep), sep) == parts
  {
    if |parts| > 1 {
      var s := JoinOn(parts, sep);
      var p := parts[0];
      assert s == p + [sep] + JoinOn(parts[1..], sep);
      assert sep in s by {
        assert s[|p|] == sep;
      }
      assert IndexOf(s, sep) == |p| by {
        var i := IndexOf(s, sep);
        if i < |p| {
          assert false;
        } else if i > |p| {
          assert false;
        }
      }
      assert s[|p| + 1..] == JoinOn(parts[1..], sep);
      assert s[..|p|] == p;
      SplitJoin(parts[1..], sep);
    }
  }

  // ---------------------------------------------------------------------------
  // Python split() and ' '.join(...)

  /** The longest prefix of `s` that holds no whitespace. */
  function TakeWord(s: string): (w: string)
    ensures |w| <= |s| && w == s[..|w|]
    ensures NoSpace(w)
    ensures |w| == |s| || IsSpace(s[|w|])
  {
    if s == [] || IsSpace(s[0]) then
      []
    else
      var w := TakeWord(s[1..]);
      assert [s[0]] + w == s[..|w| + 1];
      [s[0]] + w
  }

  /** Python `s.split()` with no argument: the maximal runs of non-whitespace. */
  function Words(s: string): (ws: seq<string>)
    ensures forall k :: 0 <= k < |ws| ==> ws[k] != [] && NoSpace(ws[k])
    decreases |s|
  {
    if s == [] then
      []
    else if IsSpace(s[0]) then
      Words(s[1..])
    else
      var w := TakeWord(s);
      [w] + Words(s[|w|..])
  }

  /** Python `' '.join(ws)`. */
  function JoinSpace(ws: seq<string>): string {
    if ws == [] then
      []
    else if |ws| == 1 then
      ws[0]
    else
      ws[0] + " " + JoinSpace(ws[1..])
  }

  /** Text whose only whitespace is single `' '` characters between words. */
  ghost predicate Collapsed(s: string) {
    forall i :: 0 <= i < |s| && IsSpace(s[i]) ==>
      && s[i] == ' '
      && 0 < i < |s| - 1
      && !IsSpace(s[i - 1])
      && !IsSpace(s[i + 1])
  }

  lemma {:induction false} JoinSpaceCollapsed(ws: seq<string>)
    requires forall k :: 0 <= k < |ws| ==> ws[k] != [] && NoSpace(ws[k])
    ensures Collapsed(JoinSpace(ws))
    ensures JoinSpace(ws) == [] <==> ws == []
    ensures ws != [] ==> !IsSpace(JoinSpace(ws)[0])
  {
    if |ws| > 1 {
      JoinSpaceCollapsed(ws[1..]);
      var w := ws[0];
      var rest := JoinSpace(ws[1..]);
      var r := w + " " + rest;
      forall i | 0 <= i < |r| && IsSpace(r[i])
        ensures r[i] == ' ' && 0 < i < |r| - 1 && !IsSpace(r[i - 1]) && !IsSpace(r[i + 1])
      {
        if i < |w| {
          assert false;
        } else if i == |w| {
          assert r[i + 1] == rest[0];
          assert r[i - 1] == w[|w| - 1];
        } else {
          assert r[i] == rest[i - |w| - 1];
          var j := i - |w| - 1;
          assert 0 < j;
          assert r[i - 1] == rest[j - 1];
          assert r[i + 1] == rest[j + 1];
        }
      }
    }
  }

  lemma {:induction false} TakeWordPrefix(w: string, t: string)
    requires NoSpace(w) && (t == [] || IsSpace(t[0]))
    ensures TakeWord(w + t) == w
    decreases |w|
  {
    if w != [] {
      assert (w + t)[1..] == w[1..] + t;
      TakeWordPrefix(w[1..], t);
    } else {
      assert w + t == t;
    }
  }

  /** `s.split()` undoes `' '.join(ws)` for non-empty words without
      whitespace. */
  lemma {:induction false} WordsJoin(ws: seq<string>)
    requires forall k :: 0 <= k < |ws| ==> ws[k] != [] && NoSpace(ws[k])
    ensures Words(JoinSpace(ws)) == ws
  {
    if |ws| == 1 {
      TakeWordPrefix(ws[0], []);
      assert ws[0] + [] == ws[0];
    } else if |ws| > 1 {
      var w := ws[0];
      var rest := JoinSpace(ws[1..]);
      var s := w + " " + rest;
      assert s == w + (" " + rest);
      TakeWordPrefix(w, " " + rest);
      assert s[|w|..] == " " + rest;
      assert (" " + rest)[1..] == rest;
      WordsJoin(ws[1..]);
      assert ws == [w] + ws[1..];
    }
  }

  /** A non-empty run without whitespace is one word. */
  lemma WordsSingle(w: string)
    requires w != [] && NoSpace(w)
    ensures Words(w) == [w]
  {
    TakeWordPrefix(w, []);
    assert w + [] == w;
  }

  /** One step of `Words` at a word. */
  lemma WordsAtWord(s: string)
    requires s != [] && !IsSpace(s[0])
    ensures Words(s) == [TakeWord(s)] + Words(s[|TakeWord(s)|..])
  {
  }

  /** One step of `Words` at whitespace. */
  lemma WordsAtSpace(s: string)
    requires s != [] && IsSpace(s[0])
    ensures Words(s) == Words(s[1..])
  {
  }

  /** A word ended by whitespace or by the end is taken whole. */
  lemma WordThenRest(w: string, t: string)
    requires w != [] && NoSpace(w) && (t == [] || IsSpace(t[0]))
    ensures Words(w + t) == [w] + Words(t)
  {
    TakeWordPrefix(w, t);
    WordsAtWord(w + t);
    assert (w + t)[|w|..] == t;
  }

  /** A whitespace character is a word boundary: the words on either side of
      it are the words of the two halves. */
  lemma {:induction false} WordsSplit(a: string, c: char, b: string)
    requires IsSpace(c)
    ensures Words(a + [c] + b) == Words(a) + Words(b)
    decreases |a|, 1
  {
    if a == [] {
      var t := [c] + b;
      assert a + [c] + b == t && t[1..] == b;
      WordsAtSpace(t);
    } else if IsSpace(a[0]) {
      WordsSplitSpace(a, c, b);
    } else {
      WordsSplitWord(a, c, b);
    }
  }

  /** `WordsSplit` when `a` starts with whitespace. */
  lemma {:induction false} WordsSplitSpace(a: string, c: char, b: string)
    requires IsSpace(c) && a != [] && IsSpace(a[0])
    ensures Words(a + [c] + b) == Words(a) + Words(b)
    decreases |a|, 0
  {
    var s := a + [c] + b;
    assert s[1..] == a[1..] + [c] + b;
    WordsAtSpace(s);
    WordsAtSpace(a);
    WordsSplit(a[1..], c, b);
  }

  /** `WordsSplit` when `a` starts with a word. */
  lemma {:induction false} WordsSplitWord(a: string, c: char, b: string)
    requires IsSpace(c) && a != [] && !IsSpace(a[0])
    ensures Words(a + [c] + b) == Words(a) + Words(b)
    decreases |a|, 0
  {
    var wa := TakeWord(a);
    var a' := a[|wa|..];
    var t := a' + [c] + b;
    assert a == wa + a';
    assert a + [c] + b == wa + t;
    WordThenRest(wa, a');
    WordThenRest(wa, t);
    WordsSplit(a', c, b);
  }

  /** `' '.join` of two non-empty lists puts one space between their joins. */
  lemma {:induction false} JoinSpaceAppend(xs: seq<string>, ys: seq<string>)
    requires xs != [] && ys != []
    ensures JoinSpace(xs + ys) == JoinSpace(xs) + " " + JoinSpace(ys)
    decreases |xs|
  {
    if |xs| == 1 {
      assert (xs + ys)[1..] == ys;
    } else {
      assert (xs + ys)[1..] == xs[1..] + ys;
      JoinSpaceAppend(xs[1..], ys);
    }
  }

  /** Python `' '.join(s.split())`: runs of whitespace become one space and the
      ends are trimmed. */
  function Collapse(s: string): (r: string)
    ensures Collapsed(r)
    ensures NoEdgeSpace(r)
  {
    var ws := Words(s);
    JoinSpaceCollapsed(ws);
    JoinSpace(ws)
  }

  /** Collapsing across a whitespace character collapses each side and puts
      one space between them when both keep a word. */
  lemma CollapseSplit(a: string, c: char, b: string)
    requires IsSpace(c)
    ensures Collapse(a + [c] + b) ==
      if Collapse(a) == [] then Collapse(b)
      else if Collapse(b) == [] then Collapse(a)
      else Collapse(a) + " " + Collapse(b)
  {
    WordsSplit(a, c, b);
    JoinSpaceCollapsed(Words(a));
    JoinSpaceCollapsed(Words(b));
    if Words(a) == [] {
      assert Words(a) + Words(b) == Words(b);
    } else if Words(b) == [] {
      assert Words(a) + Words(b) == Words(a);
    } else {
      JoinSpaceAppend(Words(a), Words(b));
    }
  }

  /** Collapsing twice is collapsing once. */
  lemma CollapseIdempotent(s: string)
    ensures Collapse(Collapse(s)) == Collapse(s)
  {
    WordsJoin(Words(s));
  }

  /** Text already joined by single spaces is left alone by `Collapse`. */
  lemma CollapseJoined(ws: seq<string>)
    requires forall k :: 0 <= k < |ws| ==> ws[k] != [] && NoSpace(ws[k])
    ensures Collapse(JoinSpace(ws)) == JoinSpace(ws)
  {
    WordsJoin(ws);
  }

  /** The non-whitespace characters of `s`, in order. */
  function Squeeze(s: string): (r: string)
    ensures NoSpace(r)
  {
    if s == [] then [] else (if IsSpace(s[0]) then [] else [s[0]]) + Squeeze(s[1..])
  }

  function Concat(ws: seq<string>): string {
    if ws == [] then [] else ws[0] + Concat(ws[1..])
  }

  lemma {:induction false} SqueezeAppend(a: string, b: string)
    ensures Squeeze(a + b) == Squeeze(a) + Squeeze(b)
    decreases |a|
  {
    if a != [] {
      assert (a + b)[1..] == a[1..] + b;
      SqueezeAppend(a[1..], b);
    } else {
      assert a + b == b;
    }
  }

  lemma {:induction false} SqueezeNoSpace(w: string)
    requires NoSpace(w)
    ensures Squeeze(w) == w
    decreases |w|
  {
    if w != [] {
      SqueezeNoSpace(w[1..]);
    }
  }

  lemma {:induction false} SqueezeWords(s: string)
    ensures Squeeze(s) == Concat(Words(s))
    decreases |s|
  {
    if s != [] {
      if IsSpace(s[0]) {
        SqueezeWords(s[1..]);
      } else {
        var w := TakeWord(s);
        assert s == w + s[|w|..];
        SqueezeAppend(w, s[|w|..]);
        SqueezeNoSpace(w);
        SqueezeWords(s[|w|..]);
      }
    }
  }

  lemma {:induction false} SqueezeJoin(ws: seq<string>)
    requires forall k :: 0 <= k < |ws| ==> NoSpace(ws[k])
    ensures Squeeze(JoinSpace(ws)) == Concat(ws)
  {
    if |ws| == 1 {
      SqueezeNoSpace(ws[0]);
      assert Concat(ws) == ws[0] + Concat([]);
    } else if |ws| > 1 {
      SqueezeJoin(ws[1..]);
      SqueezeAppend(ws[0] + " ", JoinSpace(ws[1..]));
      SqueezeAppend(ws[0], " ");
      SqueezeNoSpace(ws[0]);
    }
  }

  /** Collapsing whitespace keeps every other character, in order. */
  lemma CollapseKeepsText(s: string)
    ensures Squeeze(Collapse(s)) == Squeeze(s)
  {
    SqueezeWords(s);
    SqueezeJoin(Words(s));
  }

  lemma {:induction false} WordsEmpty(s: string)
    ensures Words(s) == [] <==> AllSpace(s)
    decreases |s|
  {
    if s != [] && IsSpace(s[0]) {
      WordsEmpty(s[1..]);
      assert AllSpace(s) <==> AllSpace(s[1..]) by {
        if AllSpace(s[1..]) {
          forall i | 0 <= i < |s| ensures IsSpace(s[i]) {
            if i > 0 {
              assert s[i] == s[1..][i - 1];
            }
          }
        }
      }
    }
  }

  /** `' '.join(s.split())` is empty exactly when `s` is all whitespace. */
  lemma CollapseEmpty(s: string)
    ensures Collapse(s) == [] <==> AllSpace(s)
  {
    WordsEmpty(s);
    JoinSpaceCollapsed(Words(s));
  }

  // ---------------------------------------------------------------------------
  // Decimal integers: Python str(n) and int(s)

  function DigitChar(d: nat): (c: char)
    requires d < 10
    ensures IsDigit(c) && c as int - '0' as int == d
  {
    ('0' as int + d) as char
  }

  function DigitValue(c: char): nat
    requires IsDigit(c)
  {
    c as int - '0' as int
  }

  /** Python `str(n)` for a non-negative integer. */
  function NatToString(n: nat): (r: string)
    ensures |r| >= 1 && AllDigits(r)
    ensures n < 10 <==> |r| == 1
    decreases n
  {
    if n < 10 then [DigitChar(n)] else NatToString(n / 10) + [DigitChar(n % 10)]
  }

  /** Python `str(i)` for any integer. */
  function IntToString(i: int): (r: string)
    ensures |r| >= 1
    ensures r[0] == '-' <==> i < 0
    ensures i < 0 ==> r[1..] == NatToString(-i)
    ensures i >= 0 ==> r == NatToString(i)
    ensures forall k :: 0 <= k < |r| ==> IsDigit(r[k]) || (k == 0 && r[k] == '-')
  {
    if i < 0 then "-" + NatToString(-i) else NatToString(i)
  }

  /** The value of a string of decimal digits (leading zeros allowed). */
  function DigitsValue(s: string): nat
    requires AllDigits(s)
  {
    if s == [] then 0 else DigitsValue(s[..|s| - 1]) * 10 + DigitValue(s[|s| - 1])
  }

  lemma {:induction false} NatToStringValue(n: nat)
    ensures DigitsValue(NatToString(n)) == n
    decreases n
  {
    if n >= 10 {
      var r := NatToString(n);
      assert r[..|r| - 1] == NatToString(n / 10);
      NatToStringValue(n / 10);
    }
  }

  lemma NatToStringInjective(a: nat, b: nat)
    requires NatToString(a) == NatToString(b)
    ensures a == b
  {
    NatToStringValue(a);
    NatToStringValue(b);
  }

  lemma IntToStringInjective(a: int, b: int)
    requires IntToString(a) == IntToString(b)
    ensures a == b
  {
    if a < 0 {
      NatToStringInjective(-a, -b);
    } else {
      NatToStringInjective(a, b);
    }
  }

  /** The value of a Python integer literal body read right to left: digits,
      with single underscores between two digits; `None` for anything else. */
  function ScanGroups(s: string): (r: Option<nat>)
    ensures r.Some? ==> s != [] && IsDigit(s[0]) && IsDigit(s[|s| - 1])
    decreases |s|
  {
    if s == [] || !IsDigit(s[|s| - 1]) then
      None
    else if |s| == 1 then
      Some(DigitValue(s[0]))
    else if s[|s| - 2] == '_' then
      var v :- ScanGroups(s[..|s| - 2]);
      Some(v * 10 + DigitValue(s[|s| - 1]))
    else
      var v :- ScanGroups(s[..|s| - 1]);
      Some(v * 10 + DigitValue(s[|s| - 1]))
  }

  /** Python `int(s)` on a `str`, for ASCII digits: surrounding whitespace, an
      optional sign, then ASCII digits with single underscores between digits.
      Anything else is `None` here, where Python raises, except text with
      other Unicode decimal digits (such as `１２`), which Python accepts and
      this model rejects. */
  function ParseInt(s: string): (r: Option<int>)
    ensures r.Some? ==> Strip(s) != []
  {
    var t := Strip(s);
    if t == [] then
      None
    else
      var body := if t[0] == '-' || t[0] == '+' then t[1..] else t;
      var digits :- ScanGroups(body);
      var magnitude: int := digits;
      Some(if t[0] == '-' then -magnitude else magnitude)
  }

  lemma {:induction false} ScanDigits(d: string)
    requires d != [] && AllDigits(d)
    ensures ScanGroups(d) == Some(DigitsValue(d))
    decreases |d|
  {
    if |d| > 1 {
      ScanDigits(d[..|d| - 1]);
    }
  }

  /** Underscores may group digits, but never two in a row nor at an end. */
  lemma UnderscoreGroups()
    ensures ScanGroups("1_000") == Some(1000)
    ensures ScanGroups("1__000") == None
    ensures ScanGroups("_1") == None && ScanGroups("1_") == None
  {
    assert "1_000"[..4] == "1_00" && "1_00"[..3] == "1_0" && "1_0"[..1] == "1";
    assert "1__000"[..4] == "1__0" && "1__0"[..2] == "1_";
    assert "_1"[..1] == "_";
  }

  /** A plain run of digits parses to its value. */
  lemma ParseIntDigits(d: string)
    requires d != [] && AllDigits(d)
    ensures ParseInt(d) == Some(DigitsValue(d) as int)
  {
    assert !IsSpace(d[0]) && !IsSpace(d[|d| - 1]);
    StripOfTrimmed(d);
    ScanDigits(d);
  }

  /** `int(str(i)) == i`. */
  lemma ParseIntOfIntToString(i: int)
    ensures ParseInt(IntToString(i)) == Some(i)
  {
    var s := IntToString(i);
    assert !IsSpace(s[|s| - 1]) by {
      assert IsDigit(s[|s| - 1]);
    }
    StripOfTrimmed(s);
    var n: nat := if i < 0 then -i else i;
    var body := NatToString(n);
    assert body == if s[0] == '-' || s[0] == '+' then s[1..] else s;
    ScanDigits(body);
    NatToStringValue(n);
  }

  /** `f"{a}_{b}"` determines both integers, because `str()` of an integer
      never holds an underscore. */
  lemma PairKeyInjective(a: int, b: int, c: int, d: int)
    requires IntToString(a) + "_" + IntToString(b) == IntToString(c) + "_" + IntToString(d)
    ensures a == c && b == d
  {
    var x, y := IntToString(a), IntToString(c);
    var s := x + "_" + IntToString(b);
    var t := y + "_" + IntToString(d);
    var m := if |x| <= |y| then |x| else |y|;
    assert s[m] == t[m];
    if m == |x| {
      assert s[m] == '_';
    }
    assert x == s[..m] && y == t[..m];
    IntToStringInjective(a, c);
    assert IntToString(b) == s[m + 1..] && IntToString(d) == t[m + 1..];
    IntToStringInjective(b, d);
  }

  // ---------------------------------------------------------------------------
  // Keys made of a label and a number

  predicate IsLabelChar(c: char) {
    ('a' <= c <= 'z') || c == '_'
  }

  /** Labels are made of lower-case letters and underscores only. */
  ghost predicate IsLabel(p: string) {
    forall i :: 0 <= i < |p| ==> IsLabelChar(p[i])
  }

  /** A tail starts with a digit or a minus sign, never with a label
      character. */
  ghost predicate IsTail(x: string) {
    x != [] && (IsDigit(x[0]) || x[0] == '-')
  }

  /** Splitting a key after a shorter label puts a label character at the
      head of the tail. */
  lemma ShorterLabel(p: string, q: string, x: string, y: string)
    requires IsLabel(q) && x != [] && p + x == q + y && |p| < |q|
    ensures IsLabelChar(x[0])
  {
    assert (p + x)[|p|] == x[0];
    assert (q + y)[|p|] == q[|p|];
  }

  /** A key splits into label and tail in one way only. */
  lemma LabelsSeparate(p: string, q: string, x: string, y: string)
    requires IsLabel(p) && IsLabel(q) && IsTail(x) && IsTail(y) && p + x == q + y
    ensures p == q && x == y
  {
    if |p| < |q| {
      ShorterLabel(p, q, x, y);
      assert false;
    } else if |q| < |p| {
      ShorterLabel(q, p, y, x);
      assert false;
    } else {
      var s := p + x;
      assert p == s[..|p|] && q == s[..|q|];
      assert x == s[|p|..] && y == s[|q|..];
    }
  }
}

=== FILE: vocabulary.dfy ===
/** `Vocabulary`: the values the uploader reads from the database for each
    vector collection, `dedupe` over them, `chunked`, and the ids and batches
    `upsert_collection` sends.  The embedding vectors are not modelled: a
    point carries its id and payload only. */
module Vocabulary {
  import opened Wrappers
  import opened Failures
  import opened Text
  import QueryCleaner

  /** One `(id, text)` pair read for a collection; the id is absent for
      `SELECT DISTINCT` values and the text column is nullable. */
  datatype Row = Row(id: Option<int>, text: Option<string>)

  /** One value `dedupe` keeps: the id of its first row and its stripped text. */
  datatype Entry = Entry(id: Option<int>, text: string)

  /** `upsert_collection`'s default batch size, which `main` uses. */
  const DefaultBatchSize: nat := 512

  /** The collections `fetch_values` fills, one per extracted type. */
  const Collections := ["driver_full_name", "driver_acronym", "meeting_name", "meeting_standard_name",
                        "meeting_location", "session_name", "session_type", "tyre_compound"]

  // ---------------------------------------------------------------------------
  // `dedupe`
  //
  // The loop is stated for any key function and any text cleaner; `Dedupe`
  // instantiates them with `txt.strip().lower()` and `txt.strip()`.  The
  // lemmas need only that cleaning is idempotent and does not change the key.

  /** The key two values are the same under: `txt.strip().lower()`. */
  function Key(t: string): string {
    Lower(Strip(t))
  }

  /** A row `dedupe` looks at: its text is truthy and so is its key. */
  predicate Counts(r: Row, key: string -> string) {
    r.text.Some? && r.text.value != [] && key(r.text.value) != []
  }

  predicate Seen(seen: seq<(string, Entry)>, k: string) {
    exists i :: 0 <= i < |seen| && seen[i].0 == k
  }

  /** The `seen` dict after the rows, as `(key, entry)` pairs in insertion
      order: a row is added when it counts and its key is new. */
  function SeenAfter(rows: seq<Row>, key: string -> string, clean: string -> string): (seen: seq<(string, Entry)>)
    ensures |seen| <= |rows|
    decreases |rows|
  {
    if rows == [] then []
    else
      var seen := SeenAfter(rows[..|rows| - 1], key, clean);
      var r := rows[|rows| - 1];
      if !Counts(r, key) || Seen(seen, key(r.text.value)) then seen
      else seen + [(key(r.text.value), Entry(r.id, clean(r.text.value)))]
  }

  function Values(seen: seq<(string, Entry)>): (es: seq<Entry>)
    ensures |es| == |seen| && forall i :: 0 <= i < |seen| ==> es[i] == seen[i].1
  {
    seq(|seen|, i requires 0 <= i < |seen| => seen[i].1)
  }

  /** `dedupe`: `list(seen.values())`. */
  function Dedupe(rows: seq<Row>): (r: seq<Entry>)
    ensures |r| <= |rows|
  {
    Values(SeenAfter(rows, Key, Strip))
  }

  /** Cleaning a text twice is cleaning it once, and keeps its key; the
      empty text has the empty key. */
  ghost predicate Stable(key: string -> string, clean: string -> string) {
    key([]) == [] && forall t :: clean(clean(t)) == clean(t) && key(clean(t)) == key(t)
  }

  lemma KeyStable()
    ensures Stable(Key, Strip)
  {
    assert Key([]) == [];
    forall t ensures Strip(Strip(t)) == Strip(t) && Key(Strip(t)) == Key(t) {
      StripIdempotent(t);
    }
  }

  /** What the `seen` dict holds: each key is the key of its entry's text,
      which is clean and has a non-empty key, and no key is there twice. */
  ghost predicate SeenSound(seen: seq<(string, Entry)>, key: string -> string, clean: string -> string) {
    && (forall i :: 0 <= i < |seen| ==>
          seen[i].0 == key(seen[i].1.text) && seen[i].0 != [] && seen[i].1.text != [] &&
          seen[i].1.text == clean(seen[i].1.text))
    && (forall a, b :: 0 <= a < b < |seen| ==> seen[a].0 != seen[b].0)
  }

  lemma {:induction false} SeenAfterSound(rows: seq<Row>, key: string -> string, clean: string -> string)
    requires Stable(key, clean)
    ensures SeenSound(SeenAfter(rows, key, clean), key, clean)
    decreases |rows|
  {
    if rows != [] {
      SeenAfterSound(rows[..|rows| - 1], key, clean);
      var seen := SeenAfter(rows[..|rows| - 1], key, clean);
      var r := rows[|rows| - 1];
      if Counts(r, key) && !Seen(seen, key(r.text.value)) {
        var t := r.text.value;
        assert key(clean(t)) == key(t) && clean(clean(t)) == clean(t);
        var seen' := seen + [(key(t), Entry(r.id, clean(t)))];
        assert forall i :: 0 <= i < |seen| ==> seen'[i] == seen[i];
        assert forall a :: 0 <= a < |seen| ==> seen'[a].0 != seen'[|seen|].0;
      }
    }
  }

  /** Output keys are pairwise distinct, and every stored text is stripped,
      not empty, and has a non-empty key. */
  lemma DedupeDistinct(rows: seq<Row>)
    ensures var r := Dedupe(rows);
      (forall a, b :: 0 <= a < b < |r| ==> Key(r[a].text) != Key(r[b].text)) &&
      (forall i :: 0 <= i < |r| ==> r[i].text == Strip(r[i].text) && r[i].text != [] && Key(r[i].text) != [])
  {
    KeyStable();
    SeenAfterSound(rows, Key, Strip);
  }

  // A reference definition: the first row of each key, in input order.

  /** Row `i` is the first row that counts with its key. */
  ghost predicate FirstOfKey(rows: seq<Row>, i: nat, key: string -> string)
    requires i < |rows|
  {
    Counts(rows[i], key) &&
    forall j :: 0 <= j < i ==> !(Counts(rows[j], key) && key(rows[j].text.value) == key(rows[i].text.value))
  }

  ghost function FirstsBy(rows: seq<Row>, key: string -> string, clean: string -> string): seq<Entry>
    decreases |rows|
  {
    if rows == [] then []
    else
      var n := |rows| - 1;
      FirstsBy(rows[..n], key, clean) +
        (if FirstOfKey(rows, n, key) then [Entry(rows[n].id, clean(rows[n].text.value))] else [])
  }

  /** A key is seen exactly when some row so far counts with it. */
  lemma {:induction false} SeenIff(rows: seq<Row>, k: string, key: string -> string, clean: string -> string)
    ensures Seen(SeenAfter(rows, key, clean), k) <==>
      exists j :: 0 <= j < |rows| && Counts(rows[j], key) && key(rows[j].text.value) == k
    decreases |rows|
  {
    if rows != [] {
      var n := |rows| - 1;
      var front := rows[..n];
      SeenIff(front, k, key, clean);
      assert forall j :: 0 <= j < n ==> front[j] == rows[j];
      var seen := SeenAfter(front, key, clean);
      var r := rows[n];
      if Counts(r, key) && !Seen(seen, key(r.text.value)) {
        var seen' := seen + [(key(r.text.value), Entry(r.id, clean(r.text.value)))];
        assert forall i :: 0 <= i < |seen| ==> seen'[i] == seen[i];
        assert seen'[|seen|].0 == key(r.text.value);
      }
    }
  }

  lemma {:induction false} ValuesIsFirsts(rows: seq<Row>, key: string -> string, clean: string -> string)
    ensures Values(SeenAfter(rows, key, clean)) == FirstsBy(rows, key, clean)
    decreases |rows|
  {
    if rows != [] {
      var n := |rows| - 1;
      var front := rows[..n];
      ValuesIsFirsts(front, key, clean);
      var seen := SeenAfter(front, key, clean);
      var r := rows[n];
      if Counts(r, key) {
        SeenIff(front, key(r.text.value), key, clean);
        assert forall j :: 0 <= j < n ==> front[j] == rows[j];
        if !Seen(seen, key(r.text.value)) {
          var e := Entry(r.id, clean(r.text.value));
          assert Values(seen + [(key(r.text.value), e)]) == Values(seen) + [e];
        }
      }
    }
  }

  /** `dedupe` keeps exactly the first row of each key, in input order,
      with its id and its stripped text. */
  lemma DedupeIsFirsts(rows: seq<Row>)
    ensures Dedupe(rows) == FirstsBy(rows, Key, Strip)
  {
    ValuesIsFirsts(rows, Key, Strip);
  }

  // Idempotence

  /** An entry read back as a row. */
  function AsRow(e: Entry): Row {
    Row(e.id, Some(e.text))
  }

  function AsRows(es: seq<Entry>): (rs: seq<Row>)
    ensures |rs| == |es| && forall i :: 0 <= i < |es| ==> rs[i] == AsRow(es[i])
  {
    seq(|es|, i requires 0 <= i < |es| => AsRow(es[i]))
  }

  /** Clean entries with non-empty, distinct keys pass the loop as they are. */
  lemma {:induction false} SeenOfDistinct(es: seq<Entry>, key: string -> string, clean: string -> string)
    requires forall i :: 0 <= i < |es| ==> es[i].text == clean(es[i].text) && es[i].text != [] && key(es[i].text) != []
    requires forall a, b :: 0 <= a < b < |es| ==> key(es[a].text) != key(es[b].text)
    ensures Values(SeenAfter(AsRows(es), key, clean)) == es
    ensures forall i :: 0 <= i < |es| ==> SeenAfter(AsRows(es), key, clean)[i].0 == key(es[i].text)
    decreases |es|
  {
    var rows := AsRows(es);
    var seen' := SeenAfter(rows, key, clean);
    if es != [] {
      var n := |es| - 1;
      var front := es[..n];
      assert rows[..n] == AsRows(front);
      SeenOfDistinct(front, key, clean);
      var seen := SeenAfter(AsRows(front), key, clean);
      var e := es[n];
      assert Counts(rows[n], key);
      if Seen(seen, key(e.text)) {
        assert false;
      }
      assert seen' == seen + [(key(e.text), Entry(e.id, clean(e.text)))];
      assert Values(seen') == Values(seen) + [e];
      assert es == front + [e];
    }
  }

  /** `dedupe` of its own output changes nothing. */
  lemma DedupeIdempotent(rows: seq<Row>)
    ensures Dedupe(AsRows(Dedupe(rows))) == Dedupe(rows)
  {
    DedupeDistinct(rows);
    SeenOfDistinct(Dedupe(rows), Key, Strip);
  }

  // ---------------------------------------------------------------------------
  // `chunked`

  /** The chunks of a size that is positive: `seq[i:i+size]` for `i` in
      `range(0, len(seq), size)`. */
  function ChunksOf<T>(s: seq<T>, size: nat): (cs: seq<seq<T>>)
    requires size > 0
    ensures forall k :: 0 <= k < |cs| ==> 0 < |cs[k]| <= size
    ensures forall k :: 0 <= k < |cs| - 1 ==> |cs[k]| == size
    ensures s == [] <==> cs == []
    decreases |s|
  {
    if s == [] then []
    else if |s| <= size then [s]
    else [s[..size]] + ChunksOf(s[size..], size)
  }

  /** `chunked`: `range` raises on a zero step and is empty for a negative
      one. */
  function Chunked<T>(s: seq<T>, size: int): (r: Result<seq<seq<T>>, Failure>)
    ensures size == 0 <==> r == Err(ValueError)
    ensures size < 0 ==> r == Ok([])
    ensures size > 0 ==> r == Ok(ChunksOf(s, size))
  {
    if size == 0 then Err(ValueError)
    else if size < 0 then Ok([])
    else Ok(ChunksOf(s, size))
  }

  function Flatten<T>(cs: seq<seq<T>>): seq<T>
    decreases |cs|
  {
    if cs == [] then [] else cs[0] + Flatten(cs[1..])
  }

  /** The chunks put back together are the sequence. */
  lemma {:induction false} FlattenChunks<T>(s: seq<T>, size: nat)
    requires size > 0
    ensures Flatten(ChunksOf(s, size)) == s
    decreases |s|
  {
    if s != [] {
      if |s| <= size {
        assert Flatten([s]) == s + Flatten<T>([]);
      } else {
        var cs := ChunksOf(s, size);
        assert cs[0] == s[..size] && cs[1..] == ChunksOf(s[size..], size);
        FlattenChunks(s[size..], size);
        assert s[..size] + s[size..] == s;
      }
    }
  }

  /** Chunk `k` is `s[k*size : (k+1)*size]`, cut at the end of `s`. */
  lemma {:induction false} ChunkAt<T>(s: seq<T>, size: nat, k: nat)
    requires size > 0 && k < |ChunksOf(s, size)|
    ensures k * size < |s|
    ensures ChunksOf(s, size)[k] == s[k * size..if (k + 1) * size < |s| then (k + 1) * size else |s|]
    decreases |s|
  {
    if |s| <= size {
      assert ChunksOf(s, size) == [s];
    } else {
      var t := s[size..];
      assert ChunksOf(s, size) == [s[..size]] + ChunksOf(t, size);
      if k > 0 {
        ChunkAt(t, size, k - 1);
        MulStep(size, k);
        var lo := (k - 1) * size;
        var hi := if k * size < |t| then k * size else |t|;
        assert ChunksOf(s, size)[k] == t[lo..hi];
        SliceShift(s, size, lo, hi);
      }
    }
  }

  /** The step from chunk `k - 1` to chunk `k`. */
  lemma MulStep(size: nat, k: nat)
    requires k > 0
    ensures k * size == (k - 1) * size + size
    ensures (k + 1) * size == k * size + size
  {
  }

  /** A slice of `s[size..]` is the slice of `s` moved by `size`. */
  lemma SliceShift<T>(s: seq<T>, size: nat, lo: nat, hi: nat)
    requires size <= |s| && lo <= hi <= |s| - size
    ensures s[size..][lo..hi] == s[lo + size..hi + size]
  {
  }

  // ---------------------------------------------------------------------------
  // `upsert_collection`

  /** One point sent to Qdrant, without its vector: `id` and the payload's
      `text` and `source_id`. */
  datatype Point = Point(id: int, text: string, sourceId: int)

  /** The id of item `i`: its database id, else `i + 1`. */
  function IdAt(items: seq<Entry>, i: nat): int
    requires i < |items|
  {
    if items[i].id.Some? then items[i].id.value else i + 1
  }

  function PointAt(items: seq<Entry>, i: nat): Point
    requires i < |items|
  {
    Point(IdAt(items, i), items[i].text, IdAt(items, i))
  }

  /** The point of every item, in order. */
  function Points(items: seq<Entry>): (ps: seq<Point>)
    ensures |ps| == |items| && forall i :: 0 <= i < |items| ==> ps[i] == PointAt(items, i)
  {
    seq(|items|, i requires 0 <= i < |items| => PointAt(items, i))
  }

  /** The batches `upsert_collection` sends, in order.  Building the points
      of each chunk of `range(len(items))` gives the chunks of the points. */
  function Batches(items: seq<Entry>, batchSize: int): Result<seq<seq<Point>>, Failure> {
    Chunked(Points(items), batchSize)
  }

  /** With a positive batch size, position `j` of batch `k` is the point of
      item `k*batchSize + j`: its id, its text, and its id again as
      `source_id`. */
  lemma BatchAt(items: seq<Entry>, batchSize: int)
    requires batchSize > 0
    ensures Batches(items, batchSize).Ok?
    ensures var bs := Batches(items, batchSize).value;
      forall k, j :: 0 <= k < |bs| && 0 <= j < |bs[k]| ==>
        Pos(batchSize, k, j) < |items| && bs[k][j] == PointAt(items, Pos(batchSize, k, j))
  {
    ChunkElements(Points(items), batchSize);
  }

  /** The batches put together are the points of all items, in order: every
      item goes out exactly once. */
  lemma BatchesCoverItems(items: seq<Entry>, batchSize: int)
    requires batchSize > 0
    ensures Batches(items, batchSize).Ok?
    ensures Flatten(Batches(items, batchSize).value) == Points(items)
  {
    FlattenChunks(Points(items), batchSize);
  }

  /** Where position `j` of chunk `k` sits in the chunked sequence. */
  function Pos(size: nat, k: nat, j: nat): nat {
    k * size + j
  }

  lemma ChunkElements<T>(s: seq<T>, size: nat)
    requires size > 0
    ensures forall k, j :: 0 <= k < |ChunksOf(s, size)| && 0 <= j < |ChunksOf(s, size)[k]| ==>
      Pos(size, k, j) < |s| && ChunksOf(s, size)[k][j] == s[Pos(size, k, j)]
  {
    forall k: nat, j: nat | k < |ChunksOf(s, size)| && j < |ChunksOf(s, size)[k]|
      ensures Pos(size, k, j) < |s| && ChunksOf(s, size)[k][j] == s[Pos(size, k, j)]
    {
      ChunkElement(s, size, k, j);
    }
  }

  /** Element `j` of chunk `k` is element `k*size + j` of the sequence. */
  lemma {:induction false} ChunkElement<T>(s: seq<T>, size: nat, k: nat, j: nat)
    requires size > 0 && k < |ChunksOf(s, size)| && j < |ChunksOf(s, size)[k]|
    ensures Pos(size, k, j) < |s| && ChunksOf(s, size)[k][j] == s[Pos(size, k, j)]
    decreases |s|
  {
    if |s| > size && k > 0 {
      var t := s[size..];
      assert ChunksOf(s, size)[k] == ChunksOf(t, size)[k - 1];
      ChunkElement(t, size, k - 1, j);
      PosStep(size, k, j);
      assert t[Pos(size, k - 1, j)] == s[Pos(size, k, j)];
    } else {
      assert k == 0;
      assert Pos(size, k, j) == j;
    }
  }

  lemma PosStep(size: nat, k: nat, j: nat)
    requires k > 0
    ensures Pos(size, k - 1, j) + size == Pos(size, k, j)
  {
  }

  /** With a non-positive batch size nothing is sent, or `range` raises. */
  lemma BatchesNonPositive(items: seq<Entry>, batchSize: int)
    requires batchSize <= 0
    ensures batchSize == 0 ==> Batches(items, batchSize) == Err(ValueError)
    ensures batchSize < 0 ==> Batches(items, batchSize) == Ok([])
  {
  }

  function TypeNames(ps: seq<QueryCleaner.Pattern>): (ns: seq<string>)
    ensures |ns| == |ps| && forall j :: 0 <= j < |ps| ==> ns[j] == ps[j].typeName
  {
    seq(|ps|, j requires 0 <= j < |ps| => ps[j].typeName)
  }

  /** The collections `fetch_values` fills are exactly the types the query
      cleaner extracts, one each: the search for an extracted value always
      names a collection `main` may fill.  `main` skips the empty ones (see
      `Uploaded`), and a search in a skipped one falls back to the raw value. */
  lemma CollectionsAreExtractedTypes()
    ensures forall c :: c in Collections <==> c in TypeNames(QueryCleaner.AllPasses)
    ensures |Collections| == |QueryCleaner.AllPasses|
  {
    assert TypeNames(QueryCleaner.AllPasses) ==
      ["driver_full_name", "driver_acronym", "meeting_name", "meeting_location",
       "meeting_standard_name", "session_name", "session_type", "tyre_compound"];
  }

  /** The collections `main` upserts: those whose item list is not empty. */
  function Uploaded(data: map<string, seq<Entry>>): (names: set<string>)
    ensures names <= data.Keys
  {
    set c | c in data.Keys && data[c] != []
  }

  /** Of the collections `fetch_values` fills, `main` uploads exactly the
      non-empty ones: each uploaded name is an extracted type, and an
      extracted type with no values is left without a collection. */
  lemma UploadedAreExtractedTypes(data: map<string, seq<Entry>>)
    requires forall c :: c in data <==> c in Collections
    ensures forall c :: c in Uploaded(data) ==> c in TypeNames(QueryCleaner.AllPasses)
    ensures forall c :: c in TypeNames(QueryCleaner.AllPasses) ==> (c in Uploaded(data) <==> data[c] != [])
  {
    CollectionsAreExtractedTypes();
  }
}

=== FILE: wrappers.dfy ===
/** Failure-compatible helper datatypes shared by every module of the model. */
module Wrappers {

  /** A value that may be absent: Python's `None`, a pandas NA, a missing key. */
  datatype Option<+T> = None | Some(value: T) {

    predicate IsFailure() {
      None?
    }

    function PropagateFailure<U>(): Option<U>
      requires None?
    {
      None
    }

    function Extract(): T
      requires Some?
    {
      value
    }

    function GetOr(default: T): T {
      match this
      case Some(v) => v
      case None => default
    }
  }

  /** Either a value or the error the source would raise. */
  datatype Result<+R, +E> = Ok(value: R) | Err(error: E) {

    predicate IsFailure() {
      Err?
    }

    function PropagateFailure<U>(): Result<U, E>
      requires Err?
    {
      Err(error)
    }

    function Extract(): R
      requires Ok?
    {
      value
    }
  }
}
